=== FILE: README.md ===
# FIMserv core in Dafny

FIMserv gathers flood-inundation-mapping inputs for a HUC8 basin. It finds
benchmark flood maps in a catalog. It downloads HAND model inputs and
National Water Model (NWM) discharges, and names the folders and files that
the OWP HAND FIM run reads and writes. This project models the pure decision
and naming logic of the program. The I/O is reduced to abstract inputs:
- the catalog is a sequence of records;
- the file system is a set of paths;
- downloads, syncs and generation are functions from file set to file set;
- the clock is a parameter.

Modules, one per file:

| file | module | models |
|---|---|---|
| `wrappers.dfy` | `Wrappers` | `Option` and `Result` |
| `seqs.dfy` | `Seqs` | filtering, de-duplication keeping first occurrences, grouping |
| `text.dfy` | `Text` | `strip`, `replace`, `split`, `startswith`/`endswith`, `str(int)`, `int(str)`, zero padding |
| `sorting.dfy` | `Sorting` | stable sort by key (Python's `sort(key=...)`), `sorted(set(...))` |
| `dates.dfy` | `Dates` | proleptic Gregorian days and hours, `±1 day`/`±1 hour`, `strptime` for the formats used, `date.fromisoformat` |
| `files.dfy` | `Files` | paths as component sequences, file sets, `rmtree` |
| `catalog.dfy` | `Catalog` | the benchmark catalog matcher of `utilis.py` |
| `fim_service.dfy` | `FimService` | folder labels, artifact paths, the copy-or-generate decision, `query`, `process` and the list mode of `fim_lookup` |
| `forecast.dfy` | `Forecast` | cycle-hour snapping, the case-insensitive rewriting of the range name into a product folder, file lists, the retry loop, short-range renaming, daily grouping and per-reach reduction |
| `retrospective.dfy` | `Retrospective` | time classification, the ±1 day / ±1 hour window, parquet and CSV names, location ids, the row filter, the event and range modes with `pd.to_datetime` as an abstract reader that may raise |
| `data_download.dfy` | `DataDownload` | the directory layout, the version-to-tag and version-to-release maps, the stream-order filter of `uniqueFID` |

Python behaviour is modelled explicitly where it matters, for ASCII text:
- truthiness (`""`, `None`, `0` and `[]` are false);
- `int()` of a decimal string, which accepts surrounding blanks, a sign and `_` separators;
- `str.replace` of every occurrence;
- `split(op)[1]`, which takes the text between the first and the second occurrence;
- `strptime`'s lenient fields: one- or two-digit month, day and hour, and whitespace matching any blank run;
- case-insensitive regular expressions, including the folds of `İ`, `ı` and `ſ` onto `i` and `s`.

`_find_existing_owp_tif` checks one exact path. A day-only request therefore
never finds an hour-stamped artifact; `FimService.FindExistingOwp` and
`FimService.DayNeverMatchesHour` state this.

`pd.to_datetime` is an abstract reader, a parameter of type
`string -> Option<DateTime>`; `None` is the case where pandas raises. The
event and range modes stop at the first time it cannot read and keep the
files written before it. The read-back lemmas assume only that the reader
agrees with `strptime` on the two formats the code classifies.

## Model

| member | source | states |
|---|---|---|
| Catalog.Normalize | src/fimserve/fimevaluation/utilis.py:30-34 | the result has no outer whitespace, no whitespace run longer than one blank and no `/`; every other character it holds comes from the input |
| Catalog.NormalizeFixed | src/fimserve/fimevaluation/utilis.py:30-34 | a stripped, collapsed string without `/` is left unchanged |
| Catalog.NormalizeIdempotent | src/fimserve/fimevaluation/utilis.py:30-34 | normalising twice equals normalising once |
| Catalog.DateOf | src/fimserve/fimevaluation/utilis.py:25-48 | a day is found only for the compact, ISO-day, day-hour and clock forms; for every form but the compact one it is the ISO reading of the first ten characters |
| Catalog.HourOf | src/fimserve/fimevaluation/utilis.py:50-64 | an hour is reported only when a date, a blank or `T`, and two digits lead the string, and it is those two digits |
| Catalog.ToDate | src/fimserve/fimevaluation/utilis.py:36-48 | a day is returned only for text whose normalised form has a date form, and it is a valid day of year 1 or later |
| Catalog.UserHour | src/fimserve/fimevaluation/utilis.py:50-64 | an hour is returned only when the normalised text has a date followed by an hour, and it is that clock hour |
| Catalog.ToDateNormalized | src/fimserve/fimevaluation/utilis.py:36-64 | normalising first changes neither the day nor the hour, since both functions normalise their input |
| Catalog.UserHourClassifies | src/fimserve/fimevaluation/utilis.py:50-64 | for a readable date, no hour exactly for the `YYYYMMDD` and `YYYY-MM-DD` forms; otherwise the HH digits, below 24 |
| Catalog.HourClassifies | src/fimserve/fimevaluation/utilis.py:50-64 | the same classification stated on already-normalised text |
| Catalog.ToDateOfIsoDate | src/fimserve/fimevaluation/utilis.py:36-64 | `YYYY-MM-DD` of any day reads back as that day, without an hour |
| Catalog.ToDateOfYmd | src/fimserve/fimevaluation/utilis.py:36-64 | `YYYYMMDD` of any day reads back as that day, without an hour |
| Catalog.ToDateOfIsoHour | src/fimserve/fimevaluation/utilis.py:36-64 | `YYYY-MM-DDTHH` reads back as that day and hour |
| Catalog.RecordDay | src/fimserve/fimevaluation/utilis.py:66-79 | a record day, when there is one, is a valid day of years 1..9999 |
| Catalog.RecordHour | src/fimserve/fimevaluation/utilis.py:81-88 | a record hour exists only when `date_raw` is a string of length at least 11 containing `T` |
| Catalog.RecordDayOfYmd | src/fimserve/fimevaluation/utilis.py:66-72 | a valid ISO `date_ymd` decides the record day |
| Catalog.RecordDayHourOfRaw | src/fimserve/fimevaluation/utilis.py:66-88 | without a usable `date_ymd`, `YYYYMMDDTHH...` gives that day and hour |
| Catalog.RecordHourNeedsT | src/fimserve/fimevaluation/utilis.py:81-88 | a `date_raw` without `T` gives no hour |
| Catalog.Candidates | src/fimserve/fimevaluation/utilis.py:201-206 | the HUC and file-name stages keep exactly the records passing both tests, in catalog order |
| Catalog.FindStrict | src/fimserve/fimevaluation/utilis.py:201-225 | fails exactly when a date is given that cannot be read, whatever the records; otherwise keeps exactly the selected records on the target day and hour, in order |
| Catalog.StrictSelects | src/fimserve/fimevaluation/utilis.py:201-225 | the strict result is a subsequence of the catalog on the stripped HUC and file name; without a date it is every selected record; with one it is exactly those with the same day and the same hour or lack of hour |
| Catalog.Bound | src/fimserve/fimevaluation/utilis.py:228-230 | a falsy bound is absent, an unreadable one is an error, any other is its day |
| Catalog.FindRelaxed | src/fimserve/fimevaluation/utilis.py:227-262 | in range mode fails exactly on an unreadable bound; otherwise exactly on an unreadable date; range and day-only results are sorted by `(date_raw, file_name)` |
| Catalog.RangeValue | src/fimserve/fimevaluation/utilis.py:228-242 | a range result is the selected in-range records sorted by `(date_raw, file_name)` |
| Catalog.RelaxedRange | src/fimserve/fimevaluation/utilis.py:228-242 | a range result is a permutation of the selected records whose day lies within the inclusive bounds; it keeps the catalog order among records with equal sort keys |
| Catalog.RangeIgnoresDate | src/fimserve/fimevaluation/utilis.py:228-242 | in range mode the date argument changes nothing |
| Catalog.DayValue | src/fimserve/fimevaluation/utilis.py:244-252 | a day-only listing is every selected record of that day, hourly ones included, sorted |
| Catalog.RelaxedDayCoversStrict | src/fimserve/fimevaluation/utilis.py:208-252 | a day-only listing holds exactly the selected records of that day, and the strict result is a sub-multiset of it |
| Catalog.RelaxedFallback | src/fimserve/fimevaluation/utilis.py:254-262 | with no range and with an hour or no date, the listing equals the strict result |
| Catalog.DatedKeys | src/fimserve/fimevaluation/utilis.py:341-347 | the keys are exactly the `str(huc8)` of the records that have a day |
| Catalog.StampsFor | src/fimserve/fimevaluation/utilis.py:346-349 | a key's stamps are exactly the stamps of its dated records |
| Catalog.EventDict | src/fimserve/fimevaluation/utilis.py:341-353 | one entry per key of a dated record, in order of first appearance, none repeated; each list is sorted, duplicate-free and holds exactly that key's stamps; undated records are skipped |
| Catalog.StampIsIsoDateTime | src/fimserve/fimevaluation/utilis.py:348 | an hourly stamp is the `%Y-%m-%d %H:%M:%S` text of that hour |
| Catalog.DayEntries | src/fimserve/fimevaluation/utilis.py:285-289 | exactly the ISO days of the records that have a day |
| Catalog.HourEntries | src/fimserve/fimevaluation/utilis.py:285-292 | exactly the `YYYY-MM-DDTHH` entries of records with a day and an hour |
| Catalog.ReturnPeriods | src/fimserve/fimevaluation/utilis.py:277 | exactly the `str()` of the truthy return periods |
| Catalog.Summarize | src/fimserve/fimevaluation/utilis.py:264-296 | no benchmarks exactly when no record has the HUC; dates exactly when one of them has a usable raw stamp; each list sorted without repeats and holding exactly the matching values |
| Catalog.HourlyWithinDays | src/fimserve/fimevaluation/utilis.py:285-292 | every hourly entry's day is among the listed days |
| Catalog.PrettyDateOfRaw | src/fimserve/fimevaluation/utilis.py:91-100 | the listing date of a raw `YYYYMMDDTHH...` record is the summary's `YYYY-MM-DDTHH` of its day and hour |
| Catalog.ContextStr | src/fimserve/fimevaluation/utilis.py:102-132 | `your filters` exactly when no filter is truthy; a given HUC leads the text |
| Catalog.FormatRecords | src/fimserve/fimevaluation/utilis.py:134-155 | never blank at the front; an empty list gives the no-match sentence; a non-empty one starts with the heading or the first block |
| Catalog.FormatRecordsNoMatch | src/fimserve/fimevaluation/utilis.py:134-155 | without context, the text starts with the no-match sentence exactly when the list is empty |
| Catalog.FolderOf | src/fimserve/fimevaluation/utilis.py:299-303 | defined exactly when `s3_key` is a string containing `/`; then it is the key up to and including its last `/` |
| Catalog.FolderOfJoin | src/fimserve/fimevaluation/utilis.py:299-303 | the folder of `folder/name` is `folder/` |
| Catalog.TifKey | src/fimserve/fimevaluation/utilis.py:305-312 | without an S3 URL, none exactly when the file name is falsy; otherwise the record's folder followed by the name, failing exactly when the folder is missing |
| Catalog.TifKeyOfUrl | src/fimserve/fimevaluation/utilis.py:305-309 | the key of a URL built by `s3_http_url` is that key |
| Catalog.DownloadAssets | src/fimserve/fimevaluation/utilis.py:314-338 | raises exactly when the tif key or the record's folder cannot be worked out, always with the missing-folder error, and always when the folder is missing |
| Catalog.DownloadAssetsOfFolder | src/fimserve/fimevaluation/utilis.py:305-330 | a record with a folder and a string or empty file name downloads without raising |
| Catalog.S3HttpUrl | src/fimserve/fimevaluation/utilis.py:20-22 | the URL starts with `https://<bucket>.s3` and ends with `.amazonaws.com/` followed by the key |
| Catalog.FirstHostAt | src/fimserve/fimevaluation/utilis.py:305-309 | in a URL of the `sdmlab` bucket the first `.amazonaws.com/` is the one ahead of the key |
| FimService.DayLabel | src/fimserve/fimevaluation/fims_setup.py:259-267 | the first eight characters read back as the day; the label is eight long exactly when there is no hour; otherwise `HH0000` follows |
| FimService.RecordLabel | src/fimserve/fimevaluation/fims_setup.py:253-261 | a dated record's label starts with its day, and is eight long exactly when it has no hour; an undated record gets a prefix of `date_raw` of at most eight characters, or `unknown` |
| FimService.YmdTimestr | src/fimserve/fimevaluation/fims_setup.py:280-284 | fails exactly on an unreadable date; otherwise `YYYYMMDD` of that day and, exactly when the input has an hour, six digits starting with it |
| FimService.UserLabel | src/fimserve/fimevaluation/fims_setup.py:264-267 | fails exactly on an unreadable date; the label starts with the day and is eight long exactly when the input has no hour |
| FimService.UserLabelIsYmdTimestr | src/fimserve/fimevaluation/fims_setup.py:264-284 | the folder label is the artifact's `ymd` followed by its time string, so the two agree |
| FimService.LabelsAgree | src/fimserve/fimevaluation/fims_setup.py:253-267 | a record's label equals the user label of the stamp the event dictionary makes for it |
| FimService.ExpectedOwpPath | src/fimserve/fimevaluation/fims_setup.py:286-288 | `owp_root/flood_<huc>/<huc>_inundation/NWM_<ymd>[<HH>0000]_<huc>_inundation.tif` |
| FimService.OwpName | src/fimserve/fimevaluation/fims_setup.py:287 | the name starts with `NWM_<ymd>` and ends with `_<huc>_inundation.tif`; for an eight-character day, the character after it is `_` exactly when there is no time stamp (or one that is empty or starts with `_`) |
| FimService.OwpNameShape | src/fimserve/fimevaluation/fims_setup.py:287 | for a day and an optional stamp starting with a digit, characters 4..12 are the day and an `_` follows exactly when there is no stamp |
| FimService.OwpPathFor | src/fimserve/fimevaluation/fims_setup.py:280-292 | fails exactly when the user time has no day; otherwise the path is `flood_<huc>/<huc>_inundation/<name>` under the OWP root, the name reads back as that day, and an `_` follows the day exactly when the user time has no hour |
| FimService.DayNeverMatchesHour | src/fimserve/fimevaluation/fims_setup.py:290-297 | a day-only request and an hourly request never look for the same artifact |
| FimService.OwpNamesDiffer | src/fimserve/fimevaluation/fims_setup.py:287 | a day-only artifact name differs from every hourly one |
| FimService.FindExistingOwp | src/fimserve/fimevaluation/fims_setup.py:290-297 | fails exactly on an unreadable date; finds something exactly when the one expected path exists, and then it is that path |
| FimService.CopyTo | src/fimserve/fimevaluation/fims_setup.py:300-305 | the copy lands in the destination under the source's name, and only that file is added |
| FimService.EnsureOwp | src/fimserve/fimevaluation/fims_setup.py:269-277 | an existing artifact is copied and generation is not run; a missing one gives nothing when generation is off; after generation it is copied when present and gives nothing otherwise |
| FimService.EnsuredIsPresent | src/fimserve/fimevaluation/fims_setup.py:269-277 | a returned path exists and carries the artifact's name; generation ran only when allowed and needed; no path means the artifact was missing, and still missing after generation when that was allowed |
| FimService.QueryHuc | src/fimserve/fimevaluation/fims_setup.py:30-75 | the matches are the strict result; status `ok` exactly when there are matches, `info` exactly when there are none and no filter, `not_found` otherwise; the printable listing is the relaxed result |
| FimService.InfoMeansUnknownHuc | src/fimserve/fimevaluation/fims_setup.py:43-54 | `info` for a bare HUC means no catalog record has that HUC |
| FimService.FolderPath | src/fimserve/fimevaluation/fims_setup.py:172-184 | `<root>/FIM_evaluation/FIM_inputs/HUC<huc>_flood<label>` |
| FimService.FallbackRecord | src/fimserve/fimevaluation/fims_setup.py:100-108 | a record carrying the file name; none exactly when no record does; the first same-HUC one whenever one exists |
| FimService.DatedFolder | src/fimserve/fimevaluation/fims_setup.py:181-208 | one folder named by the label with the given records; fails exactly when a record's download raises or the OWP artifact is wanted for an unreadable date; the folder is `HUC<huc>_flood<label>` under the inputs root and holds what `_ensure_owp_to` copied, with the files it left, or, when no OWP artifact is wanted or no date is given, no artifact and no file changed |
| FimService.DownloadAll | src/fimserve/fimevaluation/fims_setup.py:187-192 | the downloads raise exactly when some record's download raises, and then with the error of the first such record |
| FimService.LabelFolders | src/fimserve/fimevaluation/fims_setup.py:210-234 | folders in strictly increasing label order; each is non-empty, holds exactly the matches with its label in match order, and has no OWP path; every match's label has a folder |
| FimService.FoldersOf | src/fimserve/fimevaluation/fims_setup.py:217-234 | one folder per group, named by the group's label |
| FimService.Process | src/fimserve/fimevaluation/fims_setup.py:77-248 | fails exactly when the strict search does or a record to download (the strict matches, else the file-name fallback) has no folder; reports exactly those records; `ok` exactly when there are strict matches; `not_found` exactly when there is nothing to download, with no folders and nothing changed; with no strict match and a file name, `assumed` exactly when the fallback finds a record; a dated or fallback folder holds the OWP artifact `_ensure_owp_to` gave; with a date there is one folder named by the user label holding all matches; without one, the label folders and no file changed |
| FimService.ProcessFallback | src/fimserve/fimevaluation/fims_setup.py:99-169 | with no strict match: `assumed` exactly when the file-name fallback finds a record, else `not_found` with nothing changed; fails exactly when that record's download raises or its date label cannot be read; the one folder is labelled from the user's date, else from the record, and holds the OWP artifact as `_ensure_owp_to` gave it |
| FimService.ProcessStrict | src/fimserve/fimevaluation/fims_setup.py:171-234 | with strict matches: `ok`, reporting them all; fails exactly when the date cannot be read or a match's download raises; with a date, one folder under the user label holding every match and the OWP artifact; without one, the label folders and no file changed |
| FimService.ProcessFolders | src/fimserve/fimevaluation/fims_setup.py:118-234 | every reported folder is `HUC<huc>_flood<label>` under the inputs root; with an OWP request and a date, the first folder holds what `_ensure_owp_to` copied and the files are those it left; otherwise no folder has an artifact and no file changed |
| FimService.NoMatchText | src/fimserve/fimevaluation/fims_setup.py:349-354 | the no-match answer starts with its fixed sentence |
| FimService.ListAnswer | src/fimserve/fimevaluation/fims_setup.py:356-363 | the listing answer starts with the header, never with the no-match sentence |
| FimService.LookupList | src/fimserve/fimevaluation/fims_setup.py:340-363 | the no-match answer is given exactly when the printable text is blank |
| FimService.LookupListNeverNoMatch | src/fimserve/fimevaluation/fims_setup.py:348-354 | for any successful query the list mode never gives the no-match answer |
| FimService.LookupListFixed | src/fimserve/fimevaluation/fims_setup.py:340-363 | the corrected list mode gives the no-match answer exactly when nothing is listed |
| FimService.LookupListFixedReports | src/fimserve/fimevaluation/fims_setup.py:340-363 | the corrected list mode gives the no-match answer exactly when the relaxed search finds nothing |
| Forecast.RangeOf | src/fimserve/streamflowdata/forecasteddata.py:14-21 | any name other than the three branched on is kept as given |
| Forecast.RangeNameOf | src/fimserve/streamflowdata/forecasteddata.py:14-21 | reading a range name and writing it back gives the name |
| Forecast.AdjustHour | src/fimserve/streamflowdata/forecasteddata.py:14-21 | the short range gives `min(hour, 23)`; medium and long give the largest of 0, 6, 12, 18 not above the hour, and fail below 0; other ranges keep the hour |
| Forecast.AdjustClockHour | src/fimserve/streamflowdata/forecasteddata.py:14-21 | for hours 0..23 the result is defined, not above the hour, less than six below it for medium and long, and adjusting again changes nothing |
| Forecast.ForecastType | src/fimserve/streamflowdata/forecasteddata.py:24-44 | any spelling the three case-insensitive patterns match as a whole (`ShortRange`, `short range`, `Short-Range`, ...) becomes `short_range` or `long_range_mem1`, and a medium spelling becomes `medium_range` exactly for days in 2018-09-17..2019-06-18 inclusive, else `medium_range_mem1`; text matching no pattern passes through unchanged |
| Forecast.ForecastTypeCases | src/fimserve/streamflowdata/forecasteddata.py:31-44 | the three substitutions in turn map a whole short, long or medium spelling to its folder, and leave text matching no pattern unchanged |
| Forecast.SubChangesExactlyOnMatch | src/fimserve/streamflowdata/forecasteddata.py:31-44 | a substitution whose replacement is longer than the word and has `_` after it changes the text exactly when the pattern matches somewhere |
| Forecast.MediumFolderKept | src/fimserve/streamflowdata/forecasteddata.py:39-44 | the short and long substitutions leave the medium folder name alone |
| Forecast.FoldsUnique | src/fimserve/streamflowdata/forecasteddata.py:31-44 | under Python's case-insensitive matching a character stands for at most one lower-case letter |
| Forecast.NoFoldsNoMatch | src/fimserve/streamflowdata/forecasteddata.py:31-44 | text with no character folding to the word's first letter matches nowhere |
| Forecast.ForecastTypeExamples | src/fimserve/streamflowdata/forecasteddata.py:31-44 | `medium-range` on 2019-01-01 gives `medium_range`, `MediumRange` on 2020-01-01 gives `medium_range_mem1`, `Short Range` gives `short_range` |
| Forecast.ProductOf | src/fimserve/streamflowdata/forecasteddata.py:52-71 | a file list exists exactly for the four product folders |
| Forecast.ExpectedFiles | src/fimserve/streamflowdata/forecasteddata.py:52-71 | the i-th file carries lead `step*(i+1)`, and no name repeats |
| Forecast.ExpectedFileLeads | src/fimserve/streamflowdata/forecasteddata.py:52-71 | 17 hourly leads f001..f017; 79 three-hourly leads f003..f237; 119 six-hourly leads f006..f714; every name starts with `nwm.tHHz.` |
| Forecast.LeadFromSearches | src/fimserve/streamflowdata/forecasteddata.py:158-166 | the lead is the number in the first `.fNNN.` of the name; none exactly when there is no such mark |
| Forecast.ParseLead | src/fimserve/streamflowdata/forecasteddata.py:158-166 | a lead, when found, is a three-digit number 0..999 |
| Forecast.ParseLeadOfName | src/fimserve/streamflowdata/forecasteddata.py:158-166 | reading the lead back from a generated name gives that lead |
| Forecast.RetryDownload | src/fimserve/streamflowdata/forecasteddata.py:249-262 | at most 24 attempts, each one hour earlier mod 24; every attempt but the last failed; success is the last attempt's outcome; failure means 24 attempts |
| Forecast.RetryForgetsRequestedDay | src/fimserve/streamflowdata/forecasteddata.py:257-262 | after a failed midnight cycle on any day but today, the next attempt is not the hour before it |
| Forecast.HoursBackCount | src/fimserve/streamflowdata/forecasteddata.py:258 | stepping back k times lands exactly k hours earlier |
| Forecast.RetryDownloadFixed | src/fimserve/streamflowdata/forecasteddata.py:249-262 | the corrected loop tries hours 0, 1, ... 23 back from the requested time, in order; it stops at the first success |
| Forecast.DownloadFiles | src/fimserve/streamflowdata/forecasteddata.py:73-96 | the reported files are those whose fetch did not fail, in list order; success exactly when one did not fail |
| Forecast.SavedFiles | src/fimserve/streamflowdata/forecasteddata.py:90-96 | exactly the files that were written |
| Forecast.MissingCycleCountsAsSuccess | src/fimserve/streamflowdata/forecasteddata.py:85-96 | when every file answers 404, nothing is saved but the attempt counts as a success |
| Forecast.DownloadFilesFixed | src/fimserve/streamflowdata/forecasteddata.py:73-96 | the corrected attempt reports exactly the saved files and succeeds exactly when one was saved |
| Forecast.ForecastDay | src/fimserve/streamflowdata/forecasteddata.py:235-239 | a given date is the `%Y-%m-%d` reading of its text, none when that fails; without a date it is today; the chosen day reads back from its `YYYYMMDD` text |
| Forecast.ForecastDayOfIso | src/fimserve/streamflowdata/forecasteddata.py:235-237 | `YYYY-MM-DD` selects that day |
| Forecast.CycleCsvs | src/fimserve/streamflowdata/forecasteddata.py:129-156 | sorted; exactly the listed `.csv` names starting with the cycle and product family |
| Forecast.ShortRenames | src/fimserve/streamflowdata/forecasteddata.py:158-179 | one rename per file in order, each hour being `(base + lead) mod 24` |
| Forecast.ShortShifts | src/fimserve/streamflowdata/forecasteddata.py:161-171 | the day shift never decreases, grows by at most one per file, and grows only on a file filed at hour 0 |
| Forecast.FiledAt | src/fimserve/streamflowdata/forecasteddata.py:172-176 | the file's time is the forecast day plus its day shift and hour |
| Forecast.ShortNameShape | src/fimserve/streamflowdata/forecasteddata.py:172-176 | the renamed file is `<range>_<YYYYMMDD of the filing day>_` followed by the two-digit hour and `UTC.csv`, and those two digits read back as the hour |
| Forecast.ShortRenameSkipsMidnight | src/fimserve/streamflowdata/forecasteddata.py:163-176 | cycle 18 with f006 missing: f007 is filed 24 hours before its valid time |
| Forecast.FixedRename | src/fimserve/streamflowdata/forecasteddata.py:166-176 | the corrected day shift and hour are `(base + lead)` divided by 24 with remainder |
| Forecast.ShortRenamesFixed | src/fimserve/streamflowdata/forecasteddata.py:158-179 | every corrected file is filed at exactly cycle plus lead |
| Forecast.ShortRenamesExactOnConsecutive | src/fimserve/streamflowdata/forecasteddata.py:158-179 | with consecutive leads and no gap the written renaming is exact too |
| Forecast.GroupDate | src/fimserve/streamflowdata/forecasteddata.py:190-192 | a file is grouped on the day containing cycle hour plus lead |
| Forecast.DailyGroups | src/fimserve/streamflowdata/forecasteddata.py:185-198 | keys unique; each group non-empty and holding exactly the files with a lead and that key, in file order; files without a lead are skipped |
| Forecast.GroupHoldsOneDay | src/fimserve/streamflowdata/forecasteddata.py:190-196 | two files of one group fall on the same day |
| Forecast.DailyNamesDiffer | src/fimserve/streamflowdata/forecasteddata.py:218 | different groups are written to different files |
| Forecast.DailyNameShape | src/fimserve/streamflowdata/forecasteddata.py:218 | a daily file is `<HH>UTC_<range>_` followed by `_<day>.csv` |
| Forecast.SortedIds | src/fimserve/streamflowdata/forecasteddata.py:207-215 | the feature ids, increasing and each once |
| Forecast.DischargesOf | src/fimserve/streamflowdata/forecasteddata.py:207-215 | exactly the discharges of a feature id |
| Forecast.Extreme | src/fimserve/streamflowdata/forecasteddata.py:205-216 | a value of the list that is below or above all of them |
| Forecast.Reduce | src/fimserve/streamflowdata/forecasteddata.py:205-216 | one row per feature id present, in increasing id order, each a row of the input holding the minimum or maximum of that id |
| Retrospective.Classify | src/fimserve/streamflowdata/nwmretrospective.py:96-107 | `date` only for a string read by `%Y-%m-%d`; `invalid` exactly for a string neither format reads |
| Retrospective.FormatsExclusive | src/fimserve/streamflowdata/nwmretrospective.py:99-105 | no string is read by both formats |
| Retrospective.ClassifyIsoDate | src/fimserve/streamflowdata/nwmretrospective.py:96-101 | a `YYYY-MM-DD` text is a date |
| Retrospective.ClassifyIsoDateTime | src/fimserve/streamflowdata/nwmretrospective.py:96-105 | a `YYYY-MM-DD HH:MM:SS` text is a datetime |
| Retrospective.TimeOf | src/fimserve/streamflowdata/nwmretrospective.py:146 | a date is midnight of its day; a datetime text is the time it reads as |
| Retrospective.Window | src/fimserve/streamflowdata/nwmretrospective.py:145-160 | there is no window exactly for an invalid time |
| Retrospective.WindowOfDate | src/fimserve/streamflowdata/nwmretrospective.py:148-150 | the window of a date reads back as the days just before and after it |
| Retrospective.WindowOfDateTime | src/fimserve/streamflowdata/nwmretrospective.py:151-157 | the window of a datetime reads back as the hours just before and after it |
| Retrospective.ParquetNameOfDates | src/fimserve/streamflowdata/nwmretrospective.py:169-171 | a date window's parquet name is the two `YYYYMMDD` days |
| Retrospective.ParquetNameOfDateTimes | src/fimserve/streamflowdata/nwmretrospective.py:169-171 | a datetime window's parquet name keeps each bound's blank and colons |
| Retrospective.DashesOfIsoDate | src/fimserve/streamflowdata/nwmretrospective.py:71 | removing dashes from `YYYY-MM-DD` gives `YYYYMMDD` |
| Retrospective.DashesOfIsoDateTime | src/fimserve/streamflowdata/nwmretrospective.py:71 | removing dashes from a datetime bound leaves only the day compacted |
| Retrospective.CsvNameReads | src/fimserve/streamflowdata/nwmretrospective.py:40-54 | the name starts with the day as `YYYYMMDD`; in date mode `_` follows; otherwise hour, minute and second come first |
| Retrospective.CsvNameEnds | src/fimserve/streamflowdata/nwmretrospective.py:54 | every discharge file name ends in `.csv` |
| Retrospective.ParquetNameEnds | src/fimserve/streamflowdata/nwmretrospective.py:70-72 | every window file name ends in `.parquet` |
| Retrospective.LocationId | src/fimserve/streamflowdata/nwmretrospective.py:25 | the id is `nwm30-` followed by the decimal feature id, which stripping the prefix gives back |
| Retrospective.FeatureIdOfLocationId | src/fimserve/streamflowdata/nwmretrospective.py:25-47 | stripping `nwm30-` gives back the decimal id, and `int()` of it is the id |
| Retrospective.LocationIdInjective | src/fimserve/streamflowdata/nwmretrospective.py:25 | different feature ids get different location ids |
| Retrospective.Selected | src/fimserve/streamflowdata/nwmretrospective.py:28-50 | the pairs are exactly those of the wanted rows: every wanted row of the table is reported with its value, every reported pair comes from a wanted row, and every reported id is a requested one |
| Retrospective.SelectedKeeps | src/fimserve/streamflowdata/nwmretrospective.py:28-50 | the filtered pairs are exactly those of the wanted rows |
| Retrospective.SpecifiedRows | src/fimserve/streamflowdata/nwmretrospective.py:14-50 | as written: nothing exactly when there are no parquet files; otherwise exactly the pairs of the wanted rows of the last file read, in both directions |
| Retrospective.SpecifiedRowsFixed | src/fimserve/streamflowdata/nwmretrospective.py:14-50 | the corrected version: nothing exactly when there are no parquet files; otherwise exactly the pairs of the wanted rows of all files, in both directions |
| Retrospective.SpecifiedRowsDropsEarlierFiles | src/fimserve/streamflowdata/nwmretrospective.py:18-22 | a wanted row in the first of two files is lost by the code as written, and kept by the corrected version |
| Retrospective.WantedExample | src/fimserve/streamflowdata/nwmretrospective.py:25-44 | feature 42 at 2020-01-05 12:00:00 is a wanted row for that request, so the loss above happens |
| Retrospective.RequestMode | src/fimserve/streamflowdata/nwmretrospective.py:184-188 | event mode exactly when the event dictionary is non-empty; range mode exactly when the HUC, both dates and the times are all given; otherwise the argument error |
| Retrospective.GetNwmDischarge | src/fimserve/streamflowdata/nwmretrospective.py:59-93 | an existing parquet file for the window means nothing is fetched and nothing raised; otherwise a missing `feature_IDs.csv` raises with the files unchanged, and a present one runs the fetch |
| Retrospective.GetNwmDischargeIdempotent | src/fimserve/streamflowdata/nwmretrospective.py:75-82 | once a fetch that raised nothing wrote its file, a second call fetches nothing |
| Retrospective.ReadyGrows | src/fimserve/streamflowdata/nwmretrospective.py:18-24 | adding files keeps a parquet file in the retrospective folder and `feature_IDs.csv`, the two files read before the time |
| Retrospective.ParquetPathFound | src/fimserve/streamflowdata/nwmretrospective.py:67-73 | the window's `<start>_<end>.parquet` file is one that the folder's `*.parquet` glob finds |
| Retrospective.ToDatetimeOfClassified | src/fimserve/streamflowdata/nwmretrospective.py:146 | a reader that agrees with `strptime` on the two classified formats reads a date or datetime as its classified time |
| Retrospective.EventStep | src/fimserve/streamflowdata/nwmretrospective.py:144-176 | raises exactly when `pd.to_datetime` cannot read the time; an `invalid` time that it reads leaves the files alone; a date or datetime gets its CSV; files outside the discharge folder are kept |
| Retrospective.EventStepAt | src/fimserve/streamflowdata/nwmretrospective.py:148-176 | with the HUC's `feature_IDs.csv` present the fetch raises nothing; the time's CSV is written; the window's parquet file is gone afterwards; files outside the discharge folder are kept |
| Retrospective.SameParquet | src/fimserve/streamflowdata/nwmretrospective.py:169-176 | the file deleted afterwards is the one `getnwm_discharge` writes |
| Retrospective.EventSteps | src/fimserve/streamflowdata/nwmretrospective.py:144-176 | the loop raises exactly when some time is unreadable |
| Retrospective.EventStepsStop | src/fimserve/streamflowdata/nwmretrospective.py:144-146 | at the first unreadable time the loop stops with the files of the times before it |
| Retrospective.EventStepsKeep | src/fimserve/streamflowdata/nwmretrospective.py:144-176 | files outside the discharge folder survive a HUC's loop |
| Retrospective.EventStepsWrite | src/fimserve/streamflowdata/nwmretrospective.py:144-176 | each date or datetime that `pd.to_datetime` reads, and that no unreadable time precedes, leaves its CSV |
| Retrospective.HucRunEffects | src/fimserve/streamflowdata/nwmretrospective.py:127-182 | files outside the discharge folder survive; the run raises exactly when the HUC has its `feature_IDs.csv` and either some time is unreadable, and then it stops with the files of the loop so far and no `rmtree`, or `time` is unbound at the final message, and then only after the discharge folder is removed; when every time is readable the discharge folder is gone if no retrospective folder existed before; every valid time before the first unreadable one leaves its CSV |
| Retrospective.HucRunWritesCsvs | src/fimserve/streamflowdata/nwmretrospective.py:124-182 | under the standard layout every valid time before the first unreadable one leaves its CSV in `data/inputs` |
| Retrospective.HucRun | src/fimserve/streamflowdata/nwmretrospective.py:127-182 | a HUC without its folder or its `feature_IDs.csv` is skipped unchanged; the run raises exactly when the HUC has its `feature_IDs.csv` and either some time is unreadable, or it has no times, no earlier loop bound `time`, and a discharge folder exists without the retrospective folder |
| Retrospective.EventsRun | src/fimserve/streamflowdata/nwmretrospective.py:126-182 | event mode raises only on a time of some event that `pd.to_datetime` cannot read, or with the unbound `time` when no earlier loop bound it and some event has no times |
| Retrospective.EventsRunKeep | src/fimserve/streamflowdata/nwmretrospective.py:126-182 | a file outside every processed HUC's discharge folder survives the event mode |
| Retrospective.RangeRun | src/fimserve/streamflowdata/nwmretrospective.py:189-201 | raises exactly when the fetch raises (the window's file and `feature_IDs.csv` both missing), or there are times and after the fetch the retrospective folder has no parquet file or `feature_IDs.csv` is missing, or some time is unreadable; a raising fetch changes nothing; the fetched files are kept; when the fetch leaves both files there, every time before the first unreadable one has its CSV, including an `invalid` one that pandas reads |
| Retrospective.RangeFetchReady | src/fimserve/streamflowdata/nwmretrospective.py:59-93 | with `feature_IDs.csv` present, a fetch that only adds files, and the window's parquet file there before or after the fetch, the range fetch raises nothing and leaves both files the CSV step reads |
| Retrospective.RangeCsvs | src/fimserve/streamflowdata/nwmretrospective.py:197-201 | with times, a retrospective folder without a parquet file raises first, then a missing `feature_IDs.csv`, each with nothing written; otherwise it raises exactly when some time is unreadable; removes nothing; every file it adds is the CSV of a readable time |
| Retrospective.RangeCsvsWrite | src/fimserve/streamflowdata/nwmretrospective.py:197-201 | with both files there, every time before the first unreadable one has its CSV |
| Retrospective.RangeCsvsStop | src/fimserve/streamflowdata/nwmretrospective.py:197-201 | with both files there, at the first unreadable time the loop raises and keeps the CSVs of the times before it |
| Retrospective.RangeCsvsSingle | src/fimserve/streamflowdata/nwmretrospective.py:197-201 | with both files there, one readable time adds exactly its CSV |
| Retrospective.RangeCsvOfInvalid | src/fimserve/streamflowdata/nwmretrospective.py:41-54 | an `invalid` time that pandas reads is written under the `%Y%m%d%H%M%S` name of the time pandas reads |
| Retrospective.RangeCsvOfSlashDate | src/fimserve/streamflowdata/nwmretrospective.py:197-201 | with both files there, `2020/01/05`, which `strptime` rejects but pandas reads, is written as `20200105000000_<huc>.csv` without a raise |
| Retrospective.SlashDateInvalid | src/fimserve/streamflowdata/nwmretrospective.py:96-107 | `2020/01/05` is classified as `invalid` |
| Retrospective.RangeRunClassified | src/fimserve/streamflowdata/nwmretrospective.py:189-201 | with a reader that agrees with `strptime` and times that are all dates or datetimes: a fetch that leaves both files there gives no raise and each time lands under its classified name; with times, a fetch that raised or left a file missing gives a raise |
| DataDownload.Directories | src/fimserve/datadownload.py:7-18 | `code/inundation-mapping`, `data/inputs` and `output` under the working directory |
| DataDownload.DataOutsideHucs | src/fimserve/datadownload.py:7-18 | files of `data/inputs` never lie inside a HUC's output folder |
| DataDownload.VersionTag | src/fimserve/datadownload.py:25-31 | `v4.6.1.4` exactly for version 4.5, `main` for every other value, `None` included |
| DataDownload.CloneSteps | src/fimserve/datadownload.py:32-45 | nothing when the checkout is populated; otherwise a clone first, then a checkout of `v4.6.1.4` exactly for version 4.5 |
| DataDownload.S3Prefix | src/fimserve/datadownload.py:54-57 | the 4.5 release or the 4.8 release, followed by `<huc>/` |
| DataDownload.S3PrefixDistinct | src/fimserve/datadownload.py:54-57 | equal prefixes mean the same HUC and the same release |
| DataDownload.Release | src/fimserve/datadownload.py:54-57 | the release folder is under `s3://ciroh-owp-hand-fim/hand_fim_4_`, ends in `/`, and is the 4.5 release exactly for version `4.5` |
| DataDownload.HucDir | src/fimserve/datadownload.py:50 | the HUC folder is `flood_<huc>` directly under the output folder |
| DataDownload.HucDirsDisjoint | src/fimserve/datadownload.py:50 | a path lies in two HUC folders only when the HUCs are the same |
| DataDownload.HucFile | src/fimserve/datadownload.py:50-66 | an entry directly inside the HUC folder `flood_<huc>`, two levels below the output folder, with the given name; `feature_IDs.csv`, `fim_inputs.csv` and the sync target `<huc>` are such entries |
| DataDownload.HucPathsDistinct | src/fimserve/datadownload.py:50-66 | the feature-id list and `fim_inputs.csv` differ; the sync folder coincides with either only for a HUC named like that file |
| DataDownload.FirstOp | src/fimserve/datadownload.py:89-96 | the chosen operator occurs in the text |
| DataDownload.ParseOrder | src/fimserve/datadownload.py:80-122 | no filter exactly for a falsy order; the format error exactly for a truthy order that is neither an int, a list nor a text with an operator |
| DataDownload.UniqueFids | src/fimserve/datadownload.py:77-127 | fails exactly when the order fails to parse; otherwise each kept feature id once, and exactly the ids of kept rows |
| DataDownload.UniqueFidsOrder | src/fimserve/datadownload.py:124 | ids appear in order of first occurrence among the kept rows |
| DataDownload.NoOrderKeepsAll | src/fimserve/datadownload.py:120-126 | without an order every row's id is written |
| DataDownload.ParseComparison | src/fimserve/datadownload.py:81-106 | an operator followed by a number parses to that comparison, `>=` and `<=` winning over `>` and `<` |
| DataDownload.AtLeastThree | src/fimserve/datadownload.py:89-100 | `>=3` keeps exactly orders of 3 or more |
| DataDownload.AtMostFour | src/fimserve/datadownload.py:91-102 | `<=4` keeps exactly orders of 4 or less |
| DataDownload.IntIsSingletonList | src/fimserve/datadownload.py:108-111 | a non-zero int order behaves as the one-element list |
| DataDownload.MembersOfInts | src/fimserve/datadownload.py:108-115 | string membership of an int list keeps exactly the rows whose order is in the list |
| DataDownload.TrueOrderKeepsNothing | src/fimserve/datadownload.py:108-115 | a stream order of `True` becomes the list `["True"]`, which no order text equals, so no row is kept |
| DataDownload.IntStrNotTrue | src/fimserve/datadownload.py:111 | no int prints as `True` |
| Dates.AddDays | src/fimserve/streamflowdata/forecasteddata.py:184-192 | moving a day by k days gives a valid day exactly k day numbers later |
| Dates.DateLtIffDayNumber | src/fimserve/fimevaluation/utilis.py:235-238 | date comparison is day-number comparison |
| Dates.StrptimeCompactOfYmd | src/fimserve/fimevaluation/utilis.py:38-39 | `YYYYMMDD` of any day reads back as that day |
| Dates.StrptimeIsoOfIsoDate | src/fimserve/streamflowdata/nwmretrospective.py:100 | `%Y-%m-%d` reads back the ISO text of any day |
| Dates.StrptimeIsoTimeOfIsoDateTime | src/fimserve/streamflowdata/nwmretrospective.py:104 | `%Y-%m-%d %H:%M:%S` reads back the text of any time |
| Dates.StrptimeIsoOfIsoDateTime | src/fimserve/streamflowdata/nwmretrospective.py:100-104 | `%Y-%m-%d` rejects a datetime text |
| Text.PyIntOfIntStr | src/fimserve/datadownload.py:89-96 | `int(str(n))` is `n`, so the number after an operator reads back |
| Text.StripIdempotent | src/fimserve/fimevaluation/utilis.py:31 | stripping twice equals stripping once |

## Left out

- Network and process I/O is not modelled. This covers the S3 catalog load, `_list_prefix`, `_download`, the transfers of `download_fim_assets` (whether it raises is modelled by `Catalog.DownloadAssets`), `aws s3 sync`, `git clone`/`checkout`, the NWM bucket requests, `nwm_retro_to_parquet` and the OWP HAND FIM run. Each is an abstract step on the file set or an input, e.g. `fetch`, `generate` or `succeeds`.
- Reading and writing CSV, parquet and NetCDF files is not modelled; tables are sequences of rows. The copy of `branch_ids.csv` to `fim_inputs.csv`, `EnvFile` and `processnetCDF` are left out for this reason; the model keeps only their paths (`DataDownload.FimInputsPath`).
- `print` and the wording of messages are not modelled beyond the fixed sentences that decide a branch. The `availability` call in `query` is summarised by `Catalog.Summarize`, and the message text of `process` is not modelled.
- Floating-point discharge values are not modelled. The mean of date mode and the median of the forecast reduction are left out; the minimum and maximum are modelled over integers.
- `Forecast.Reduce`: requires a minimum or maximum reduction, because the median is floating point.
- `datetime.utcnow()` is a parameter (`today`); `os.getcwd()` is the parameter `cwd`; `OWP_OUT_ROOT` is the parameter `owpRoot`.
- `date.fromisoformat`, which `_record_day` applies to `date_ymd`, is modelled on the `YYYY-MM-DD` form of utilis.py:25; the other forms newer Python versions accept are left out.
- Catalog.ToDate, Catalog.UserHour, Catalog.DateOf, Catalog.HourOf: `datetime.fromisoformat` (utilis.py:41-42 and :57-59) is modelled only on `YYYY-MM-DD[ T]HH`, `YYYY-MM-DD[ T]HH:MM` and `YYYY-MM-DD[ T]HH:MM:SS`, the shapes of the regular expressions at utilis.py:27-28, which the source itself never uses. Every Python since 3.7 also reads a `.fff` or `.ffffff` fraction of the second, a UTC offset such as `+HH:MM`, and any one-character separator at position 10, and Python 3.11 widened the grammar again; the source pins no version. For such text these members give `None` where the source returns a day and an hour. For example, `2020-01-05T12:30+00:00` and `2020-01-05 12:30:00.000` give day 2020-01-05 and hour 12 in the source, so `Catalog.FindStrict` fails with `BadDate` where `find_fims` filters.
- `pd.to_datetime` is an abstract reader (`Retrospective.Reader`). It is only required to read a `Timestamp` input as that time, and the read-back lemmas also require it to agree with `strptime` on `%Y-%m-%d` and `%Y-%m-%d %H:%M:%S`. Which other texts pandas reads, and its own year bounds (1677..2262), are not modelled.
- Years are unbounded in the date arithmetic. Python's `OverflowError` beyond year 9999 or before year 1 is not modelled, so the window lemmas require years 2..9998.
- `%Y` is rendered as four zero-padded digits, as on Linux.
- Directories exist only when some file lies under them; `mkdir` of an empty directory is not modelled. As a result, an existing but empty retrospective folder counts as absent in `Retrospective.HucRunEffects`.
- `Retrospective.EventStepAt`: assumes the fetch leaves a parquet file that `getdischargeforspecifiedtime` reads, and requires `fetch` to only add files, so the `feature_IDs.csv` a processed HUC has stays and the reads of it at nwmretrospective.py:24 and :82 succeed. The `UnboundLocalError` raised when the folder holds no parquet file is modelled in range mode (`Retrospective.RangeCsvs`) and in `Retrospective.SpecifiedRows` (the `None` result), not in event mode.
- `Retrospective.EventsRun`: states only that a raise comes from an unreadable time of some event, or from an event without times while `time` is unbound; whether each HUC is processed, skipped or raises is stated per HUC by `Retrospective.HucRun`.
- `Retrospective.Selected`: the per-feature mean of date mode is not applied; the model reports the selected pairs.
- Digits are ASCII only (`Text.IsDigit`). Python's `\d`, `strptime` and `int()` also accept other Unicode decimal digits, such as fullwidth ones; text using them is treated as malformed here.
- Case-insensitive matching in `Forecast.ForecastType` models the special folds of `i` and `s` (`İ`, `ı`, `ſ`); other letters fold only to their ASCII pair, which is what Python's tables give for the letters of `short`, `medium`, `long` and `range` apart from those two.
- `Forecast.ParseLead`: its contract states only the range of the lead; the search for the first `.fNNN.` is stated by `Forecast.LeadFromSearches`.
- `Forecast.ShortRenames`: requires a non-negative cycle hour, the only hours `adjust_hour` passes on after the clock.
- `Forecast.RetryDownload`: the directory each attempt returns, and the `.nc` check after the loop, are not modelled; the loop's decisions are.
- `urllib.parse.quote` in `s3_http_url` is left out; keys are taken to need no quoting.
- The concurrency, plotting, geospatial code and the other modules of the repository are not part of this model.

## Findings

| source | as written | input that shows it | evidently intended | confidence | as-written member | corrected member |
|---|---|---|---|---|---|---|
| src/fimserve/fimevaluation/fims_setup.py:348-354 | list mode tests the printable text for blankness, but `format_records_for_print` never returns blank text | any query whose relaxed search finds nothing | answer "No benchmark FIMs were matched ..." when nothing is listed | not executed | FimService.LookupList, FimService.LookupListNeverNoMatch | FimService.LookupListFixed, FimService.LookupListFixedReports |
| src/fimserve/streamflowdata/forecasteddata.py:167-171 | `day_shift` grows only when the reduced hour is exactly 0 | cycle 18 with f006 missing: f007 is filed at day 01:00 instead of day+1 01:00 | file each lead at cycle time plus lead | not executed | Forecast.ShortRenames, Forecast.ShortRenameSkipsMidnight | Forecast.ShortRenamesFixed, Forecast.ShortRenamesExactOnConsecutive |
| src/fimserve/streamflowdata/forecasteddata.py:257-262 | after the hour wraps to 23 the date becomes the day before today | request 2020-01-05 at 00Z, cycle missing: the next attempt is yesterday's 23Z, not 2020-01-04 23Z | step back one hour from the requested time | not executed | Forecast.RetryDownload, Forecast.RetryForgetsRequestedDay | Forecast.RetryDownloadFixed |
| src/fimserve/streamflowdata/forecasteddata.py:79-96 | a 404 response returns normally, so the missing file counts as downloaded | a cycle not yet published: every file answers 404 and the attempt succeeds | count only files that were written, so the loop falls back to an earlier cycle | not executed | Forecast.DownloadFiles, Forecast.MissingCycleCountsAsSuccess | Forecast.DownloadFilesFixed |
| src/fimserve/streamflowdata/nwmretrospective.py:18-22 | the filter uses `df`, the last parquet file read, not the concatenation `all_data` | two parquet files, the wanted row in the first | filter all parquet files of the folder | not executed | Retrospective.SpecifiedRows, Retrospective.SpecifiedRowsDropsEarlierFiles, Retrospective.WantedExample | Retrospective.SpecifiedRowsFixed |

=== FILE: catalog.dfy ===
/** The benchmark catalog matcher: normalisation and classification of user date
    strings, the day and hour derived from a catalog record, the strict and
    relaxed record finders, the event dictionary, the availability summary, the
    listing text and the S3 keys of a record's files. */
module Catalog {
  import opened Wrappers
  import opened Text
  import opened Seqs
  import opened Dates
  import opened Sorting

  // ------------------------------------------------------------- JSON values

  /** A catalog field as `json.loads` leaves it: missing, `null`, a string, or any
      other value, kept as its `str()` form and its truthiness. */
  datatype JVal = Absent | Null | Str(s: string) | Other(repr: string, truthy: bool)

  /** `str(rec.get(key, default))`. */
  function StrOf(v: JVal, default: string): string {
    match v
    case Absent => default
    case Null => "None"
    case Str(s) => s
    case Other(repr, _) => repr
  }

  /** Python truthiness of a field value. */
  predicate JTruthy(v: JVal) {
    match v
    case Absent => false
    case Null => false
    case Str(s) => |s| > 0
    case Other(_, t) => t
  }

  /** One entry of the catalog's `records` list, reduced to the keys the matcher reads. */
  datatype Record = Record(
    huc8: JVal,
    fileName: JVal,
    dateYmd: JVal,
    dateRaw: JVal,
    tier: JVal,
    quality: JVal,
    resolution: JVal,
    returnPeriod: JVal,
    s3Key: JVal,
    tifUrl: JVal)

  /** What `find_fims` and the key helpers raise. */
  datatype Err = BadDate(input: string) | NoFolder

  // ------------------------------------------------------ user date strings

  /** Trimmed, `/` turned into `-`, every whitespace run turned into one blank. */
  function Normalize(s: string): (r: string)
    ensures Stripped(r) && Collapsed(r) && '/' !in r
    ensures forall c :: c in r && c != ' ' && c != '-' ==> c in s && !IsSpace(c)
  {
    var t := Strip(s);
    var m := ReplaceChar(t, '/', '-');
    NormalizeParts(t, m);
    CollapseSpaces(m)
  }

  lemma NormalizeParts(t: string, m: string)
    requires Stripped(t) && m == ReplaceChar(t, '/', '-')
    ensures var r := CollapseSpaces(m);
      Stripped(r) && Collapsed(r) && '/' !in r && forall c :: c in r && c != ' ' && c != '-' ==> c in t && !IsSpace(c)
  {
    var r := CollapseSpaces(m);
    CollapseIsCollapsed(m);
    CollapseChars(m);
    if |m| > 0 {
      CollapseKeepsLast(m);
    }
    forall c | c in r && c != ' ' && c != '-'
      ensures c in t && !IsSpace(c)
    {
      var i :| 0 <= i < |m| && m[i] == c;
      assert t[i] == c;
    }
  }

  /** A trimmed, collapsed string without `/` is its own normal form. */
  lemma NormalizeFixed(s: string)
    requires Stripped(s) && Collapsed(s) && '/' !in s
    ensures Normalize(s) == s
  {
    StripStripped(s);
    ReplaceCharAbsent(s, '/', '-');
    CollapseCollapsed(s);
  }

  /** Normalising twice is normalising once. */
  lemma NormalizeIdempotent(s: string)
    ensures Normalize(Normalize(s)) == Normalize(s)
  {
    NormalizeFixed(Normalize(s));
  }

  predicate DigitsAt(t: string, i: nat, j: nat) {
    i <= j <= |t| && AllDigits(t[i..j])
  }

  /** `^\d{8}$` */
  predicate IsCompact(t: string) {
    |t| == 8 && AllDigits(t)
  }

  /** `^\d{4}-\d{2}-\d{2}$` */
  predicate IsYmdForm(t: string) {
    |t| == 10 && DigitsAt(t, 0, 4) && t[4] == '-' && DigitsAt(t, 5, 7) && t[7] == '-' && DigitsAt(t, 8, 10)
  }

  /** A date, a blank or `T`, and two hour digits at the front. */
  predicate HasDateHour(t: string) {
    |t| >= 13 && IsYmdForm(t[..10]) && (t[10] == ' ' || t[10] == 'T') && DigitsAt(t, 11, 13)
  }

  /** `^\d{4}-\d{2}-\d{2}[ T]\d{2}$` */
  predicate IsYmdhForm(t: string) {
    |t| == 13 && HasDateHour(t)
  }

  /** `YYYY-MM-DD[ T]HH:MM` or `YYYY-MM-DD[ T]HH:MM:SS`: the part of what
      `datetime.fromisoformat` reads that this model covers. */
  predicate IsClockForm(t: string) {
    |t| >= 16 && HasDateHour(t) && t[13] == ':' && DigitsAt(t, 14, 16) &&
    (|t| == 16 || (|t| == 19 && t[16] == ':' && DigitsAt(t, 17, 19)))
  }

  function ClockHour(t: string): nat
    requires HasDateHour(t)
  {
    DigitsVal(t[11..13])
  }

  /** The hour, minute and (when present) second are in range. */
  predicate ClockValid(t: string)
    requires IsClockForm(t)
  {
    ClockHour(t) < 24 && DigitsVal(t[14..16]) < 60 && (|t| == 16 || DigitsVal(t[17..19]) < 60)
  }

  /** The forms of user input the matcher understands. */
  predicate IsDateForm(t: string) {
    IsCompact(t) || IsYmdForm(t) || IsYmdhForm(t) || IsClockForm(t)
  }

  /** `_to_date`: the calendar day a user string names; `None` where it raises. */
  function ToDate(s: string): (r: Option<Date>)
    ensures r.Some? ==> Valid(r.value) && 1 <= r.value.year && IsDateForm(Normalize(s))
  {
    DateOf(Normalize(s))
  }

  /** `_to_date` after normalisation. */
  function DateOf(t: string): (r: Option<Date>)
    ensures r.Some? ==> Valid(r.value) && r.value.year >= 1 && IsDateForm(t)
    ensures r.Some? && !IsCompact(t) ==> r == FromIsoDate(t[..10])
  {
    if IsCompact(t) then StrptimeCompact(t)
    else if IsYmdForm(t) then assert t[..10] == t; FromIsoDate(t)
    else if IsYmdhForm(t) then (if ClockHour(t) < 24 then FromIsoDate(t[..10]) else None)
    else if IsClockForm(t) then (if ClockValid(t) then FromIsoDate(t[..10]) else None)
    else None
  }

  /** `_to_hour_or_none`: the hour a user string names, if any. */
  function UserHour(s: string): (r: Option<int>)
    ensures r.Some? ==> HasDateHour(Normalize(s)) && r.value == ClockHour(Normalize(s))
  {
    HourOf(Normalize(s))
  }

  /** Reading a user string and reading its normalised form agree, for the
      day and for the hour. */
  lemma ToDateNormalized(s: string)
    ensures ToDate(Normalize(s)) == ToDate(s)
    ensures UserHour(Normalize(s)) == UserHour(s)
  {
    NormalizeIdempotent(s);
  }

  /** `_to_hour_or_none` after normalisation. The bare `YYYY-MM-DD[ T]HH` form
      gives its digits unchecked. */
  function HourOf(t: string): (r: Option<int>)
    ensures r.Some? ==> HasDateHour(t) && r.value == ClockHour(t)
  {
    if IsYmdForm(t) || IsCompact(t) then None
    else if IsYmdhForm(t) then Some(ClockHour(t))
    else if IsClockForm(t) && ClockValid(t) && FromIsoDate(t[..10]).Some? then Some(ClockHour(t))
    else None
  }

  /** For a string that names a day, there is no hour exactly when it is a bare
      `YYYYMMDD` or `YYYY-MM-DD`; otherwise the hour is the `HH` digits, in 0..23. */
  lemma UserHourClassifies(s: string)
    requires ToDate(s).Some?
    ensures UserHour(s).None? <==> IsCompact(Normalize(s)) || IsYmdForm(Normalize(s))
    ensures UserHour(s).Some? ==> UserHour(s).value == ClockHour(Normalize(s)) < 24
  {
    HourClassifies(Normalize(s));
  }

  lemma HourClassifies(t: string)
    requires DateOf(t).Some?
    ensures HourOf(t).None? <==> IsCompact(t) || IsYmdForm(t)
    ensures HourOf(t).Some? ==> HourOf(t).value == ClockHour(t) < 24
  {
  }

  /** Text with no whitespace and no `/` is already normal. */
  lemma NormalizePlain(s: string)
    requires forall i :: 0 <= i < |s| ==> !IsSpace(s[i]) && s[i] != '/'
    ensures Normalize(s) == s
  {
    NormalizeFixed(s);
  }

  /** Digits and dashes only. */
  predicate DigitsDashes(s: string) {
    forall i :: 0 <= i < |s| ==> IsDigit(s[i]) || s[i] == '-'
  }

  lemma IsoDateChars(d: Date)
    requires Valid(d) && 1 <= d.year <= 9999
    ensures IsYmdForm(IsoDate(d)) && DigitsDashes(IsoDate(d))
  {
    var s := IsoDate(d);
    IsoDateShape(d);
    forall i | 0 <= i < |s|
      ensures IsDigit(s[i]) || s[i] == '-'
    {
      if i < 4 {
        assert s[i] == s[..4][i];
      } else if 4 < i < 7 {
        assert s[i] == s[5..7][i - 5];
      } else if i > 7 {
        assert s[i] == s[8..][i - 8];
      }
    }
  }

  /** `d.isoformat()` is read back as the day `d`, with no hour. */
  lemma ToDateOfIsoDate(d: Date)
    requires Valid(d) && 1 <= d.year <= 9999
    ensures ToDate(IsoDate(d)) == Some(d) && UserHour(IsoDate(d)).None?
  {
    IsoDateChars(d);
    NormalizePlain(IsoDate(d));
    FromIsoDateOfIsoDate(d);
    assert IsoDate(d)[..10] == IsoDate(d);
  }

  /** `d.strftime("%Y%m%d")` is read back as the day `d`, with no hour. */
  lemma ToDateOfYmd(d: Date)
    requires Valid(d) && 1 <= d.year <= 9999
    ensures ToDate(Ymd(d)) == Some(d) && UserHour(Ymd(d)).None?
  {
    YmdShape(d);
    StrptimeCompactOfYmd(d);
    NormalizePlain(Ymd(d));
  }

  /** `YYYY-MM-DDTHH` is read back as the day `d` and the hour `h`. */
  lemma ToDateOfIsoHour(d: Date, h: int)
    requires Valid(d) && 1 <= d.year <= 9999 && 0 <= h < 24
    ensures ToDate(HourEntry(d, h)) == Some(d)
    ensures UserHour(HourEntry(d, h)) == Some(h)
  {
    var s := HourEntry(d, h);
    IsoDateChars(d);
    Pad2(h);
    assert forall i :: 0 <= i < |s| ==> !IsSpace(s[i]) && s[i] != '/' by {
      forall i | 0 <= i < |s|
        ensures !IsSpace(s[i]) && s[i] != '/'
      {
        if i < 10 {
          assert s[i] == IsoDate(d)[i];
        }
      }
    }
    NormalizePlain(s);
    IsoHourOf(d, h, s);
  }

  lemma IsoHourOf(d: Date, h: int, s: string)
    requires Valid(d) && 1 <= d.year <= 9999 && 0 <= h < 24
    requires s == IsoDate(d) + "T" + PadInt(h, 2)
    ensures DateOf(s) == Some(d) && HourOf(s) == Some(h)
  {
    IsoDateChars(d);
    FromIsoDateOfIsoDate(d);
    Pad2(h);
    DigitsVal2(PadInt(h, 2)[0], PadInt(h, 2)[1]);
    assert s[..10] == IsoDate(d);
    assert s[11..13] == PadInt(h, 2) == [PadInt(h, 2)[0], PadInt(h, 2)[1]];
  }

  // ----------------------------------------------------------- record fields

  /** `_record_day`: `date_ymd` read as an ISO date when it is a string that parses,
      otherwise the first eight characters of a long enough `date_raw` read as
      `%Y%m%d`, otherwise no day. */
  function RecordDay(x: Record): (d: Option<Date>)
    ensures d.Some? ==> Valid(d.value) && 1 <= d.value.year <= 9999
  {
    var fromYmd := if x.dateYmd.Str? then FromIsoDate(x.dateYmd.s) else None;
    if fromYmd.Some? then fromYmd
    else if x.dateRaw.Str? && |x.dateRaw.s| >= 8 then StrptimeCompact(x.dateRaw.s[..8])
    else None
  }

  /** `_record_hour_or_none`: `int()` of the two characters after the first `T` of
      `date_raw`, when it holds a `T` and has at least eleven characters. */
  function RecordHour(x: Record): (h: Option<int>)
    ensures h.Some? ==> x.dateRaw.Str? && Contains(x.dateRaw.s, "T") && |x.dateRaw.s| >= 11
  {
    if x.dateRaw.Str? && Contains(x.dateRaw.s, "T") && |x.dateRaw.s| >= 11 then
      PyInt(Take(After(x.dateRaw.s, "T"), 2))
    else None
  }

  /** A well-formed `date_ymd` decides the day. */
  lemma RecordDayOfYmd(x: Record, d: Date)
    requires Valid(d) && 1 <= d.year <= 9999 && x.dateYmd == Str(IsoDate(d))
    ensures RecordDay(x) == Some(d)
  {
    FromIsoDateOfIsoDate(d);
  }

  /** Without a usable `date_ymd`, a raw stamp `YYYYMMDDTHH...` gives its day and
      its hour. */
  lemma RecordDayHourOfRaw(x: Record, d: Date, h: int, rest: string)
    requires Valid(d) && 1 <= d.year <= 9999 && 0 <= h < 24
    requires !(x.dateYmd.Str? && FromIsoDate(x.dateYmd.s).Some?)
    requires x.dateRaw == Str(Ymd(d) + "T" + PadInt(h, 2) + rest)
    ensures RecordDay(x) == Some(d) && RecordHour(x) == Some(h)
  {
    var raw := x.dateRaw.s;
    YmdShape(d);
    StrptimeCompactOfYmd(d);
    assert raw[..8] == Ymd(d);
    RawHour(Ymd(d), h, rest);
  }

  lemma RawHour(p: string, h: int, rest: string)
    requires |p| == 8 && AllDigits(p) && 0 <= h < 24
    ensures var raw := p + "T" + PadInt(h, 2) + rest;
      Contains(raw, "T") && |raw| >= 11 && PyInt(Take(After(raw, "T"), 2)) == Some(h)
  {
    Pad2(h);
    var hh := PadInt(h, 2);
    RawAfterT(p, hh, rest);
    DigitsVal2(hh[0], hh[1]);
    assert hh == [hh[0], hh[1]];
    PyIntOfDigits(hh);
  }

  /** In `YYYYMMDD` `T` `HH...`, the two characters after the first `T` are the hour. */
  lemma RawAfterT(p: string, hh: string, rest: string)
    requires |p| == 8 && AllDigits(p) && |hh| == 2
    ensures var raw := p + "T" + hh + rest;
      Contains(raw, "T") && |raw| >= 11 && Take(After(raw, "T"), 2) == hh && raw[..8] == p
  {
    assert p + "T" + hh + rest == p + ['T'] + (hh + rest);
    FindCharAfter(p, 'T', hh + rest);
    assert Take(hh + rest, 2) == hh;
  }

  /** A raw stamp without `T` carries no hour. */
  lemma RecordHourNeedsT(x: Record)
    requires x.dateRaw.Str? && forall i :: 0 <= i < |x.dateRaw.s| ==> x.dateRaw.s[i] != 'T'
    ensures RecordHour(x).None?
  {
    var raw := x.dateRaw.s;
    forall k: nat | k < |raw|
      ensures !MatchesAt(raw, "T", k)
    {
      assert raw[k..k + 1] == [raw[k]];
    }
  }

  // ---------------------------------------------------------------- find_fims

  /** The arguments of `find_fims` (the mode flag aside). */
  datatype Query = Query(
    huc8: string,
    dateInput: Option<string>,
    fileName: Option<string>,
    startDate: Option<string>,
    endDate: Option<string>)

  /** `str(r.get("huc8", "")).strip() == huc`. */
  predicate HucIs(x: Record, huc: string) {
    Strip(StrOf(x.huc8, "")) == huc
  }

  /** `str(r.get("file_name", "")).strip() == name`. */
  predicate FileIs(x: Record, name: string) {
    Strip(StrOf(x.fileName, "")) == name
  }

  /** The HUC test, and the file-name test when a file name is given. */
  predicate Selected(x: Record, q: Query) {
    HucIs(x, Strip(q.huc8)) && (Truthy(q.fileName) ==> FileIs(x, Strip(q.fileName.value)))
  }

  /** The HUC and file-name stages both modes start with: exactly the selected
      records, in catalog order. */
  function Candidates(records: seq<Record>, q: Query): (r: seq<Record>)
    ensures r == Filter(records, x => Selected(x, q))
  {
    var recs := Filter(records, x => HucIs(x, Strip(q.huc8)));
    if Truthy(q.fileName) then
      FilterFuse(records, x => HucIs(x, Strip(q.huc8)), x => FileIs(x, Strip(q.fileName.value)), x => Selected(x, q));
      Filter(recs, x => FileIs(x, Strip(q.fileName.value)))
    else
      FilterAgree(records, x => HucIs(x, Strip(q.huc8)), x => Selected(x, q));
      recs
  }

  /** A strict date match: the same day, and no hour when none was asked for or
      the same hour when one was. */
  predicate OnTarget(x: Record, day: Date, hour: Option<int>) {
    RecordDay(x) == Some(day) && (if hour.None? then RecordHour(x).None? else RecordHour(x) == hour)
  }

  /** What a strict query keeps: a selected record that, when a date is given,
      matches its day and hour. */
  predicate StrictKeep(x: Record, q: Query) {
    Selected(x, q) &&
    (q.dateInput.Some? ==>
      match ToDate(q.dateInput.value)
      case None => false
      case Some(day) => OnTarget(x, day, UserHour(q.dateInput.value)))
  }

  /** `find_fims(..., relaxed_for_print=False)`: an unreadable date raises whatever
      the records are; otherwise the result is exactly the records the strict
      filter keeps, in catalog order. */
  function FindStrict(records: seq<Record>, q: Query): (r: Result<seq<Record>, Err>)
    ensures r.Failure? <==> q.dateInput.Some? && ToDate(q.dateInput.value).None?
    ensures r.Failure? ==> r.error == BadDate(q.dateInput.value)
    ensures r.Success? ==> r.value == Filter(records, x => StrictKeep(x, q))
  {
    var recs := Candidates(records, q);
    if q.dateInput.None? then
      FilterAgree(records, x => Selected(x, q), x => StrictKeep(x, q));
      Success(recs)
    else
      match ToDate(q.dateInput.value)
      case None => Failure(BadDate(q.dateInput.value))
      case Some(day) =>
        var hour := UserHour(q.dateInput.value);
        FilterFuse(records, x => Selected(x, q), x => OnTarget(x, day, hour), x => StrictKeep(x, q));
        Success(Filter(recs, x => OnTarget(x, day, hour)))
  }

  /** The strict result is an order-preserving selection of the catalog in which
      every record has the asked HUC and file name; with no date it is every such
      record, with a date it is those on that day and (missing) hour. */
  lemma StrictSelects(records: seq<Record>, q: Query)
    requires FindStrict(records, q).Success?
    ensures IsSubseq(FindStrict(records, q).value, records)
    ensures forall x :: x in FindStrict(records, q).value ==> HucIs(x, Strip(q.huc8))
    ensures Truthy(q.fileName) ==> forall x :: x in FindStrict(records, q).value ==> FileIs(x, Strip(q.fileName.value))
    ensures q.dateInput.None? ==> FindStrict(records, q).value == Filter(records, x => Selected(x, q))
    ensures q.dateInput.Some? ==>
      forall x :: x in FindStrict(records, q).value <==>
        x in records && Selected(x, q) && OnTarget(x, ToDate(q.dateInput.value).value, UserHour(q.dateInput.value))
  {
    if q.dateInput.None? {
      FilterAgree(records, x => Selected(x, q), x => StrictKeep(x, q));
    }
  }

  /** `(str(r.get("date_raw", "")), str(r.get("file_name", "")))`. */
  function SortKey(x: Record): Key {
    (StrOf(x.dateRaw, ""), StrOf(x.fileName, ""))
  }

  /** A bound of the range: none when not given, an error when unreadable. */
  function Bound(s: Option<string>): (r: Result<Option<Date>, Err>)
    ensures r.Failure? <==> Truthy(s) && ToDate(s.value).None?
    ensures r.Success? ==> (r.value.Some? <==> Truthy(s))
  {
    if !Truthy(s) then Success(None)
    else
      match ToDate(s.value)
      case None => Failure(BadDate(s.value))
      case Some(d) => Success(Some(d))
  }

  /** The record has a day, not before `d0` and not after `d1` when these are given. */
  predicate InRange(x: Record, d0: Option<Date>, d1: Option<Date>) {
    RecordDay(x).Some? &&
    !(d0.Some? && DateLt(RecordDay(x).value, d0.value)) &&
    !(d1.Some? && DateLt(d1.value, RecordDay(x).value))
  }

  predicate RangeMode(q: Query) {
    Truthy(q.startDate) || Truthy(q.endDate)
  }

  /** No range, and a date that names no hour. */
  predicate DayOnlyMode(q: Query) {
    !RangeMode(q) && Truthy(q.dateInput) && UserHour(q.dateInput.value).None?
  }

  /** `find_fims(..., relaxed_for_print=True)`, the listing mode. */
  function FindRelaxed(records: seq<Record>, q: Query): (r: Result<seq<Record>, Err>)
    ensures RangeMode(q) ==> (r.Failure? <==> Bound(q.startDate).Failure? || Bound(q.endDate).Failure?)
    ensures !RangeMode(q) ==> (r.Failure? <==> q.dateInput.Some? && ToDate(q.dateInput.value).None?)
    ensures r.Success? && (RangeMode(q) || DayOnlyMode(q)) ==> SortedBy(r.value, SortKey)
  {
    var recs := Candidates(records, q);
    if RangeMode(q) then
      var d0 :- Bound(q.startDate);
      var d1 :- Bound(q.endDate);
      Success(SortBy(Filter(recs, x => InRange(x, d0, d1)), SortKey))
    else if Truthy(q.dateInput) && UserHour(q.dateInput.value).None? then
      match ToDate(q.dateInput.value)
      case None => Failure(BadDate(q.dateInput.value))
      case Some(day) => Success(SortBy(Filter(recs, x => RecordDay(x) == Some(day)), SortKey))
    else
      FindStrict(recs, Query(Strip(q.huc8), q.dateInput, None, None, None))
  }

  /** The selected records of the catalog inside the range, in catalog order. */
  function RangeKept(records: seq<Record>, q: Query, d0: Option<Date>, d1: Option<Date>): seq<Record> {
    Filter(records, x => Selected(x, q) && InRange(x, d0, d1))
  }

  lemma RangeValue(records: seq<Record>, q: Query)
    requires RangeMode(q) && FindRelaxed(records, q).Success?
    ensures FindRelaxed(records, q).value
         == SortBy(RangeKept(records, q, Bound(q.startDate).value, Bound(q.endDate).value), SortKey)
  {
    var d0, d1 := Bound(q.startDate).value, Bound(q.endDate).value;
    FilterFuse(records, x => Selected(x, q), x => InRange(x, d0, d1), x => Selected(x, q) && InRange(x, d0, d1));
  }

  /** A range listing holds exactly the selected records with a day inside the
      inclusive bounds, sorted by `(date_raw, file_name)`, records with equal keys
      in catalog order. */
  lemma RelaxedRange(records: seq<Record>, q: Query)
    requires RangeMode(q) && FindRelaxed(records, q).Success?
    ensures var d0, d1 := Bound(q.startDate).value, Bound(q.endDate).value;
      var r := FindRelaxed(records, q).value;
      && multiset(r) == multiset(RangeKept(records, q, d0, d1))
      && (forall x :: x in r <==> x in records && Selected(x, q) && InRange(x, d0, d1))
      && (forall k :: KeyGroup(r, SortKey, k) == KeyGroup(RangeKept(records, q, d0, d1), SortKey, k))
  {
    var d0, d1 := Bound(q.startDate).value, Bound(q.endDate).value;
    RangeValue(records, q);
    var kept := RangeKept(records, q, d0, d1);
    var r := FindRelaxed(records, q).value;
    forall k: Key
      ensures KeyGroup(r, SortKey, k) == KeyGroup(kept, SortKey, k)
    {
      SortByStable(kept, SortKey, k);
    }
    assert multiset(r) == multiset(kept);
    forall x
      ensures x in r <==> x in records && Selected(x, q) && InRange(x, d0, d1)
    {
      assert x in r <==> x in multiset(r);
      assert x in kept <==> x in multiset(kept);
    }
  }

  /** In range mode `date_input` plays no part. */
  lemma RangeIgnoresDate(records: seq<Record>, q: Query, di: Option<string>)
    requires RangeMode(q)
    ensures FindRelaxed(records, q.(dateInput := di)) == FindRelaxed(records, q)
  {
    var q' := q.(dateInput := di);
    FilterAgree(records, x => Selected(x, q'), x => Selected(x, q));
    assert Candidates(records, q') == Candidates(records, q);
  }

  /** The selected records of the catalog on `day`, any hour. */
  function DayKept(records: seq<Record>, q: Query, day: Date): seq<Record> {
    Filter(records, x => Selected(x, q) && RecordDay(x) == Some(day))
  }

  lemma DayValue(records: seq<Record>, q: Query)
    requires DayOnlyMode(q) && ToDate(q.dateInput.value).Some?
    ensures FindRelaxed(records, q).Success?
    ensures FindRelaxed(records, q).value == SortBy(DayKept(records, q, ToDate(q.dateInput.value).value), SortKey)
  {
    var day := ToDate(q.dateInput.value).value;
    FilterFuse(records, x => Selected(x, q), x => RecordDay(x) == Some(day), x => Selected(x, q) && RecordDay(x) == Some(day));
  }

  /** A day-only listing holds every selected record of that day, hourly ones
      included, sorted; so it contains the strict day-only result. */
  lemma RelaxedDayCoversStrict(records: seq<Record>, q: Query)
    requires DayOnlyMode(q) && ToDate(q.dateInput.value).Some?
    ensures FindRelaxed(records, q).Success? && FindStrict(records, q).Success?
    ensures forall x :: x in FindRelaxed(records, q).value <==>
      x in records && Selected(x, q) && RecordDay(x) == ToDate(q.dateInput.value)
    ensures multiset(FindStrict(records, q).value) <= multiset(FindRelaxed(records, q).value)
  {
    var day := ToDate(q.dateInput.value).value;
    DayValue(records, q);
    var kept := DayKept(records, q, day);
    var r := FindRelaxed(records, q).value;
    assert multiset(r) == multiset(kept);
    FilterMonotone(records, x => StrictKeep(x, q), x => Selected(x, q) && RecordDay(x) == Some(day));
    forall x
      ensures x in r <==> x in records && Selected(x, q) && RecordDay(x) == Some(day)
    {
      assert x in r <==> x in multiset(r);
      assert x in kept <==> x in multiset(kept);
    }
  }

  /** Without a range, a listing for a date with an hour, or for no date, is the
      strict result. */
  lemma RelaxedFallback(records: seq<Record>, q: Query)
    requires !RangeMode(q) && !DayOnlyMode(q)
    ensures FindRelaxed(records, q) == FindStrict(records, q)
  {
    var recs := Candidates(records, q);
    var q' := Query(Strip(q.huc8), q.dateInput, None, None, None);
    StripIdempotent(q.huc8);
    assert FindRelaxed(records, q) == FindStrict(recs, q');
    var a := FindStrict(recs, q');
    var b := FindStrict(records, q);
    assert a.Failure? <==> b.Failure?;
    if a.Success? {
      assert forall x :: StrictKeep(x, q) == (Selected(x, q) && StrictKeep(x, q'));
      FilterFuse(records, x => Selected(x, q), x => StrictKeep(x, q'), x => StrictKeep(x, q));
      assert a.value == b.value;
    } else {
      assert a.error == b.error;
    }
  }

  // ---------------------------------------------------------- event dict

  /** `str(r.get("huc8"))`: a missing key prints as `None`. */
  function EventKey(x: Record): string {
    StrOf(x.huc8, "None")
  }

  /** The timestamp recorded for a day and an optional hour. */
  function Stamp(day: Date, hour: Option<int>): string {
    match hour
    case None => IsoDate(day)
    case Some(h) => IsoDate(day) + " " + PadInt(h, 2) + ":00:00"
  }

  /** `t` is the stamp of some dated record filed under `k`. */
  predicate StampOf(records: seq<Record>, k: string, t: string) {
    exists x :: x in records && RecordDay(x).Some? && EventKey(x) == k && t == Stamp(RecordDay(x).value, RecordHour(x))
  }

  /** The keys of the records that have a day, in catalog order. */
  function DatedKeys(records: seq<Record>): (ks: seq<string>)
    ensures forall k :: k in ks <==> exists x :: x in records && RecordDay(x).Some? && EventKey(x) == k
  {
    if |records| == 0 then []
    else
      assert records == [records[0]] + records[1..];
      var rest := DatedKeys(records[1..]);
      if RecordDay(records[0]).Some? then [EventKey(records[0])] + rest else rest
  }

  /** The stamps of the dated records under `k`, in catalog order. */
  function StampsFor(records: seq<Record>, k: string): (ts: seq<string>)
    ensures forall t :: t in ts <==> StampOf(records, k, t)
  {
    if |records| == 0 then []
    else
      assert records == [records[0]] + records[1..];
      var x := records[0];
      var rest := StampsFor(records[1..], k);
      if RecordDay(x).Some? && EventKey(x) == k then [Stamp(RecordDay(x).value, RecordHour(x))] + rest else rest
  }

  /** Some record with a day is filed under `k`. */
  predicate Dated(records: seq<Record>, k: string) {
    exists x :: x in records && RecordDay(x).Some? && EventKey(x) == k
  }

  /** `build_huc_event_dict`: one entry per key of a dated record, in the order
      the keys first appear, each holding that key's stamps sorted and without
      repeats; records without a day are skipped. */
  function EventDict(records: seq<Record>): (d: seq<(string, seq<string>)>)
    ensures forall i, j :: 0 <= i < j < |d| ==> d[i].0 != d[j].0
    ensures forall i :: 0 <= i < |d| ==> d[i].0 in DatedKeys(records) && Dated(records, d[i].0)
    ensures forall i, j :: 0 <= i < j < |d| ==>
      FirstIndex(DatedKeys(records), d[i].0) < FirstIndex(DatedKeys(records), d[j].0)
    ensures forall x :: x in records && RecordDay(x).Some? ==> exists i :: 0 <= i < |d| && d[i].0 == EventKey(x)
    ensures forall i :: 0 <= i < |d| ==> StrictlySorted(d[i].1)
    ensures forall i, t :: 0 <= i < |d| ==> (t in d[i].1 <==> StampOf(records, d[i].0, t))
  {
    var keys := Dedup(DatedKeys(records));
    var d := seq(|keys|, i requires 0 <= i < |keys| => (keys[i], SortedUniq(StampsFor(records, keys[i]))));
    EventDictShape(records, keys, d);
    d
  }

  lemma EventDictShape(records: seq<Record>, keys: seq<string>, d: seq<(string, seq<string>)>)
    requires keys == Dedup(DatedKeys(records))
    requires |d| == |keys|
    requires forall i :: 0 <= i < |d| ==> d[i] == (keys[i], SortedUniq(StampsFor(records, keys[i])))
    ensures forall i :: 0 <= i < |d| ==> Dated(records, d[i].0)
    ensures forall x :: x in records && RecordDay(x).Some? ==> exists i :: 0 <= i < |d| && d[i].0 == EventKey(x)
    ensures forall i, t :: 0 <= i < |d| ==> (t in d[i].1 <==> StampOf(records, d[i].0, t))
  {
    forall i | 0 <= i < |d|
      ensures Dated(records, d[i].0)
    {
      assert keys[i] in DatedKeys(records);
    }
    forall x | x in records && RecordDay(x).Some?
      ensures exists i :: 0 <= i < |d| && d[i].0 == EventKey(x)
    {
      assert EventKey(x) in DatedKeys(records);
      var i := FirstIndex(keys, EventKey(x));
      assert d[i].0 == EventKey(x);
    }
  }

  /** An hour stamp is the `%Y-%m-%d %H:%M:%S` rendering of that hour, so the
      retrospective step reads it as a timestamp. */
  lemma StampIsIsoDateTime(day: Date, h: int)
    requires Valid(day) && 0 <= h < 24
    ensures Stamp(day, Some(h)) == IsoDateTime(DateTime(day, h, 0, 0))
  {
    Pad2Digits(0);
    assert PadInt(0, 2) == "00";
  }

  // ------------------------------------------------------------ availability

  /** `summarize_huc_availability`, as the facts its message reports. */
  datatype Availability =
    | NoBenchmarks(huc: string)
    | NoRealBenchmarks(huc: string, returnPeriods: seq<string>)
    | Available(huc: string, days: seq<string>, hourly: seq<string>)

  /** `date_raw` is a string of eight characters, or holds a `T` and has at least eleven. */
  predicate HasRawStamp(x: Record) {
    x.dateRaw.Str? && (|x.dateRaw.s| == 8 || (Contains(x.dateRaw.s, "T") && |x.dateRaw.s| >= 11))
  }

  /** `d.isoformat()` for each record that has a day. */
  function DayEntries(recs: seq<Record>): (ts: seq<string>)
    ensures forall t :: t in ts <==> exists x :: x in recs && RecordDay(x).Some? && t == IsoDate(RecordDay(x).value)
  {
    if |recs| == 0 then []
    else
      assert recs == [recs[0]] + recs[1..];
      var rest := DayEntries(recs[1..]);
      if RecordDay(recs[0]).Some? then [IsoDate(RecordDay(recs[0]).value)] + rest else rest
  }

  /** `f"{d:%Y-%m-%d}T{h:02d}"`. */
  function HourEntry(d: Date, h: int): string {
    IsoDate(d) + "T" + PadInt(h, 2)
  }

  /** `f"{d:%Y-%m-%d}T{h:02d}"` for each record that has a day and an hour. */
  function HourEntries(recs: seq<Record>): (ts: seq<string>)
    ensures forall t :: t in ts <==>
      exists x ::
        && x in recs && RecordDay(x).Some? && RecordHour(x).Some?
        && t == HourEntry(RecordDay(x).value, RecordHour(x).value)
  {
    if |recs| == 0 then []
    else
      assert recs == [recs[0]] + recs[1..];
      var x := recs[0];
      var rest := HourEntries(recs[1..]);
      if RecordDay(x).Some? && RecordHour(x).Some? then
        [HourEntry(RecordDay(x).value, RecordHour(x).value)] + rest
      else rest
  }

  /** `str(r.get("return_period"))` for each record whose return period is truthy. */
  function ReturnPeriods(recs: seq<Record>): (ts: seq<string>)
    ensures forall t :: t in ts <==> exists x :: x in recs && JTruthy(x.returnPeriod) && t == StrOf(x.returnPeriod, "None")
  {
    if |recs| == 0 then []
    else
      assert recs == [recs[0]] + recs[1..];
      var rest := ReturnPeriods(recs[1..]);
      if JTruthy(recs[0].returnPeriod) then [StrOf(recs[0].returnPeriod, "None")] + rest else rest
  }

  /** `summarize_huc_availability`: nothing on the HUC; only records without a raw
      stamp, with their sorted distinct return periods; or the sorted distinct
      days and hours of the records with a raw stamp. */
  function Summarize(records: seq<Record>, huc: string): (a: Availability)
    ensures a.huc == Strip(huc)
    ensures a.NoBenchmarks? <==> forall x :: x in records ==> !HucIs(x, Strip(huc))
    ensures a.Available? <==> exists x :: x in records && HucIs(x, Strip(huc)) && HasRawStamp(x)
    ensures a.NoRealBenchmarks? ==> StrictlySorted(a.returnPeriods)
    ensures a.NoRealBenchmarks? ==> forall t :: t in a.returnPeriods <==>
      (exists x :: x in records && HucIs(x, Strip(huc)) && JTruthy(x.returnPeriod) && t == StrOf(x.returnPeriod, "None"))
    ensures a.Available? ==> StrictlySorted(a.days) && StrictlySorted(a.hourly)
    ensures a.Available? ==> forall t :: t in a.days <==>
      exists x ::
        && x in records && HucIs(x, Strip(huc)) && HasRawStamp(x) && RecordDay(x).Some?
        && t == IsoDate(RecordDay(x).value)
    ensures a.Available? ==> forall t :: t in a.hourly <==>
      exists x ::
        && x in records && HucIs(x, Strip(huc)) && HasRawStamp(x) && RecordDay(x).Some? && RecordHour(x).Some?
        && t == HourEntry(RecordDay(x).value, RecordHour(x).value)
  {
    SummaryKind(records, huc);
    SummaryPeriods(records, huc);
    SummaryDays(records, huc);
    SummaryHours(records, huc);
    SummaryOf(records, Strip(huc))
  }

  /** The records on a HUC, in catalog order. */
  function OnHuc(records: seq<Record>, hucQ: string): (recs: seq<Record>)
    ensures forall x :: x in recs <==> x in records && HucIs(x, hucQ)
  {
    Filter(records, x => HucIs(x, hucQ))
  }

  /** The decision of `summarize_huc_availability` for a stripped HUC. */
  function SummaryOf(records: seq<Record>, hucQ: string): Availability {
    var recs := OnHuc(records, hucQ);
    if |recs| == 0 then NoBenchmarks(hucQ)
    else
      var withRaw := Filter(recs, HasRawStamp);
      if |withRaw| == 0 then NoRealBenchmarks(hucQ, SortedUniq(ReturnPeriods(recs)))
      else Available(hucQ, SortedUniq(DayEntries(withRaw)), SortedUniq(HourEntries(withRaw)))
  }

  lemma SummaryKind(records: seq<Record>, huc: string)
    ensures var a := SummaryOf(records, Strip(huc));
      && a.huc == Strip(huc)
      && (a.NoBenchmarks? <==> forall x :: x in records ==> !HucIs(x, Strip(huc)))
      && (a.Available? <==> exists x :: x in records && HucIs(x, Strip(huc)) && HasRawStamp(x))
  {
    var recs := OnHuc(records, Strip(huc));
    if |recs| == 0 {
      assert forall x :: x !in recs;
    } else {
      assert recs[0] in records;
      var withRaw := Filter(recs, HasRawStamp);
      if |withRaw| == 0 {
        assert forall x :: x !in withRaw;
      } else {
        assert withRaw[0] in withRaw;
      }
    }
  }

  lemma SummaryPeriods(records: seq<Record>, huc: string)
    ensures var a := SummaryOf(records, Strip(huc));
      a.NoRealBenchmarks? ==>
        && StrictlySorted(a.returnPeriods)
        && forall t :: t in a.returnPeriods <==>
             (exists x :: x in records && HucIs(x, Strip(huc)) && JTruthy(x.returnPeriod) && t == StrOf(x.returnPeriod, "None"))
  {
  }

  lemma SummaryDays(records: seq<Record>, huc: string)
    ensures var a := SummaryOf(records, Strip(huc));
      a.Available? ==>
        && StrictlySorted(a.days) && StrictlySorted(a.hourly)
        && forall t :: t in a.days <==>
             exists x ::
               && x in records && HucIs(x, Strip(huc)) && HasRawStamp(x) && RecordDay(x).Some?
               && t == IsoDate(RecordDay(x).value)
  {
  }

  lemma SummaryHours(records: seq<Record>, huc: string)
    ensures var a := SummaryOf(records, Strip(huc));
      a.Available? ==>
        forall t :: t in a.hourly <==>
          exists x ::
            && x in records && HucIs(x, Strip(huc)) && HasRawStamp(x) && RecordDay(x).Some? && RecordHour(x).Some?
            && t == HourEntry(RecordDay(x).value, RecordHour(x).value)
  {
  }

  /** Every hourly entry extends one of the listed days. */
  lemma HourlyWithinDays(records: seq<Record>, huc: string)
    requires Summarize(records, huc).Available?
    ensures var a := Summarize(records, huc);
      forall t :: t in a.hourly ==> |t| >= 10 && t[..10] in a.days
  {
    var a := Summarize(records, huc);
    forall t | t in a.hourly
      ensures |t| >= 10 && t[..10] in a.days
    {
      var x :| x in records && HucIs(x, Strip(huc)) && HasRawStamp(x) && RecordDay(x).Some? && RecordHour(x).Some? &&
        t == HourEntry(RecordDay(x).value, RecordHour(x).value);
      HourEntryPrefix(RecordDay(x).value, RecordHour(x).value);
      assert IsoDate(RecordDay(x).value) in a.days;
    }
  }

  lemma HourEntryPrefix(d: Date, h: int)
    requires Valid(d) && 1 <= d.year <= 9999
    ensures |HourEntry(d, h)| >= 10 && HourEntry(d, h)[..10] == IsoDate(d)
  {
    IsoDateShape(d);
  }

  // ---------------------------------------------------------------- listing

  /** `_YMD_RE.match(s)`: the `$` also matches before one final newline. */
  predicate YmdMatch(t: string) {
    IsYmdForm(t) || (|t| == 11 && IsYmdForm(t[..10]) && t[10] == '\n')
  }

  /** `raw[:4]-raw[4:6]-raw[6:8]`. */
  function DashedDay(raw: string): string
    requires |raw| >= 8
  {
    raw[..4] + "-" + raw[4..6] + "-" + raw[6..8]
  }

  /** `_pretty_date_for_print`: the raw stamp's day and hour, else a matching
      `date_ymd`, else the raw stamp's day, else `unknown`. */
  function PrettyDate(x: Record): string {
    if x.dateRaw.Str? && Contains(x.dateRaw.s, "T") && |x.dateRaw.s| >= 11 then
      DashedDay(x.dateRaw.s) + "T" + Take(After(x.dateRaw.s, "T"), 2)
    else if x.dateYmd.Str? && YmdMatch(x.dateYmd.s) then x.dateYmd.s
    else if x.dateRaw.Str? && |x.dateRaw.s| >= 8 then DashedDay(x.dateRaw.s)
    else "unknown"
  }

  /** For a raw stamp `YYYYMMDDTHH...` the listing shows the record's day and hour
      as `YYYY-MM-DDTHH`, the form `summarize_huc_availability` uses. */
  lemma PrettyDateOfRaw(x: Record, d: Date, h: int, rest: string)
    requires Valid(d) && 1 <= d.year <= 9999 && 0 <= h < 24
    requires x.dateRaw == Str(Ymd(d) + "T" + PadInt(h, 2) + rest)
    ensures PrettyDate(x) == HourEntry(d, h)
  {
    var raw := x.dateRaw.s;
    var y, m, dd, hh := PadInt(d.year, 4), PadInt(d.month, 2), PadInt(d.day, 2), PadInt(h, 2);
    YmdShape(d);
    Pad2(h);
    RawAfterT(Ymd(d), hh, rest);
    Pad4Val(d.year);
    Pad2Val(d.month);
    Pad2Val(d.day);
    assert Ymd(d) == y + m + dd;
    DashedParts(y, m, dd, raw);
    assert IsoDate(d) == y + "-" + m + "-" + dd;
  }

  /** Dashes go between the year, the month and the day of a compact stamp. */
  lemma DashedParts(y: string, m: string, dd: string, raw: string)
    requires |y| == 4 && |m| == 2 && |dd| == 2
    requires |raw| >= 8 && raw[..8] == y + m + dd
    ensures DashedDay(raw) == y + "-" + m + "-" + dd
  {
    assert raw[..4] == raw[..8][..4] == y;
    assert raw[4..6] == raw[..8][4..6] == m;
    assert raw[6..8] == raw[..8][6..8] == dd;
  }

  /** `r.get("tier") or r.get("quality") or "Unknown"`. */
  function TierText(x: Record): string {
    if JTruthy(x.tier) then StrOf(x.tier, "") else if JTruthy(x.quality) then StrOf(x.quality, "") else "Unknown"
  }

  /** `f"{res}m"`, or `NA` when the resolution is missing or null. */
  function ResolutionText(x: Record): string {
    if x.resolution.Absent? || x.resolution.Null? then "NA" else StrOf(x.resolution, "") + "m"
  }

  /** `r.get("file_name") or "NA"`. */
  function NameText(x: Record): string {
    if JTruthy(x.fileName) then StrOf(x.fileName, "") else "NA"
  }

  /** The four-line description of one record: the tier line's label, then
      the tier, the date, the resolution and the file name. */
  function Block(x: Record): string {
    TierLabel + BlockDetails(x)
  }

  function BlockDetails(x: Record): string {
    " " + TierText(x) + "\nBenchmark FIM date: " + PrettyDate(x) +
    "\nSpatial Resolution: " + ResolutionText(x) + "\nRaster Filename in DB: " + NameText(x)
  }

  /** `_context_str`: the given filters as readable parts, or `your filters`. */
  function ContextStr(huc8: Option<string>, dateInput: Option<string>, fileName: Option<string>,
                      startDate: Option<string>, endDate: Option<string>): (r: string)
    ensures |r| > 0
    ensures r == "your filters" <==>
      !Truthy(huc8) && !Truthy(dateInput) && !Truthy(fileName) && !Truthy(startDate) && !Truthy(endDate)
    ensures Truthy(huc8) ==> StartsWith(r, "HUC " + huc8.value)
  {
    var parts :=
      (if Truthy(huc8) then ["HUC " + huc8.value] else []) +
      (if Truthy(dateInput) then ["date '" + dateInput.value + "'"] else []) +
      (if Truthy(startDate) && Truthy(endDate) then ["range " + startDate.value + " to " + endDate.value]
       else if Truthy(startDate) then ["from " + startDate.value]
       else if Truthy(endDate) then ["until " + endDate.value]
       else []) +
      (if Truthy(fileName) then ["file '" + fileName.value + "'"] else []);
    if |parts| == 0 then "your filters"
    else
      assert parts[0][0] != 'y';
      JoinStartsWith(parts, ", ", parts[0]);
      Join(parts, ", ")
  }

  /** `sep.join(parts)`. */
  function Join(parts: seq<string>, sep: string): string {
    if |parts| == 0 then ""
    else if |parts| == 1 then parts[0]
    else parts[0] + sep + Join(parts[1..], sep)
  }

  lemma JoinStartsWith(parts: seq<string>, sep: string, p: string)
    requires |parts| > 0 && StartsWith(parts[0], p)
    ensures StartsWith(Join(parts, sep), p)
  {
  }

  const NoMatch := "Benchmark" + " FIMs were not matched for "
  const Heading := "Following" + " are the available benchmark data for"
  const TierLabel := "Data" + " Tier:"

  /** `format_records_for_print`: a not-found sentence for no records; otherwise
      an optional heading and one block per record, blank-line separated, trimmed.
      The text is never blank and its first line says which of these it is. */
  function FormatRecords(records: seq<Record>, context: Option<string>): (out: string)
    ensures |out| > 0 && !IsSpace(out[0])
    ensures |records| == 0 ==> StartsWith(out, NoMatch) && out[|out| - 1] == '.'
    ensures |records| > 0 && Truthy(context) ==> StartsWith(out, Heading)
    ensures |records| > 0 && !Truthy(context) ==> StartsWith(out, TierLabel) && Stripped(out)
  {
    if |records| == 0 then
      var ctx := if Truthy(context) then context.value else "your filters";
      var out := NoMatch + ctx + ".";
      assert out[..|NoMatch|] == NoMatch;
      out
    else
      var body := Listing(records, context);
      if Truthy(context) then
        HeadingEnds();
        StrippedPrefix(body, Heading);
        Strip(body)
      else
        StrippedPrefix(body, TierLabel);
        Strip(body)
  }

  /** The blocks before trimming, behind the heading when there is a context. */
  function Listing(records: seq<Record>, context: Option<string>): (body: string)
    requires |records| > 0
    ensures StartsWith(body, if Truthy(context) then Heading else TierLabel)
  {
    var blocks := Join(Map(records, Block), "\n\n");
    BlocksStart(records);
    if Truthy(context) then
      var rest := " " + context.value + ":\n" + blocks;
      StartsWithAppend(Heading, rest);
      Heading + rest
    else blocks
  }

  /** The blocks begin with the first record's tier line. */
  lemma BlocksStart(records: seq<Record>)
    requires |records| > 0
    ensures StartsWith(Join(Map(records, Block), "\n\n"), TierLabel)
  {
    var blocks := Map(records, Block);
    BlockStarts(records[0]);
    JoinStartsWith(blocks, "\n\n", TierLabel);
  }

  lemma BlockStarts(x: Record)
    ensures StartsWith(Block(x), TierLabel)
  {
    StartsWithAppend(TierLabel, BlockDetails(x));
  }

  lemma HeadingEnds()
    ensures |Heading| > 0 && !IsSpace(Heading[0]) && !IsSpace(Heading[|Heading| - 1])
  {
    assert "Following"[0] == 'F';
    var rest := " are the available benchmark data for";
    assert rest == " are the available benchmark " + "data for";
    assert "data for"[7] == 'r';
  }

  /** Without a context, the listing is the not-matched sentence exactly when
      there are no records. */
  lemma FormatRecordsNoMatch(records: seq<Record>)
    ensures StartsWith(FormatRecords(records, None), NoMatch) <==> |records| == 0
  {
    var out := FormatRecords(records, None);
    if |records| > 0 {
      assert out[0] == TierLabel[0] && NoMatch[0] == "Benchmark"[0];
      assert "Data"[0] == 'D' && "Benchmark"[0] == 'B';
    }
  }

  lemma StrippedPrefix(body: string, p: string)
    requires StartsWith(body, p) && |p| > 0 && !IsSpace(p[0]) && !IsSpace(p[|p| - 1])
    ensures StartsWith(Strip(body), p) && |Strip(body)| > 0 && !IsSpace(Strip(body)[0]) && Stripped(Strip(body))
  {
    StripKeepsPrefix(body, p);
  }

  // ------------------------------------------------------------------ S3 keys

  /** `_folder_from_record`: the `s3_key` up to its last `/`, with the `/`. A key
      that is missing, empty, not a string or without `/` is an error. */
  function FolderOf(x: Record): (r: Result<string, Err>)
    ensures r.Success? <==> x.s3Key.Str? && '/' in x.s3Key.s
    ensures r.Success? ==>
      && |r.value| > 0 && StartsWith(x.s3Key.s, r.value) && r.value[|r.value| - 1] == '/'
      && forall k :: |r.value| <= k < |x.s3Key.s| ==> x.s3Key.s[k] != '/'
  {
    if x.s3Key.Str? && RFind(x.s3Key.s, '/').Some? then
      var k := x.s3Key.s;
      var i := RFind(k, '/').value;
      assert k[..i] + "/" == k[..i + 1];
      Success(k[..i] + "/")
    else Failure(NoFolder)
  }

  /** A key `folder/name` gives back `folder/` when `name` has no `/`. */
  lemma FolderOfJoin(x: Record, folder: string, name: string)
    requires x.s3Key == Str(folder + "/" + name) && '/' !in name
    ensures FolderOf(x) == Success(folder + "/")
  {
    var k := folder + "/" + name;
    assert k[|folder|] == '/';
    assert forall j :: |folder| < j < |k| ==> k[j] == name[j - |folder| - 1];
    assert k[..|folder| + 1] == folder + "/";
  }

  const Bucket := "sdmlab"
  const AwsHost := ".amazonaws.com/"

  /** `s3_http_url` (URL quoting not modelled). */
  function S3HttpUrl(bucket: string, key: string): (url: string)
    ensures StartsWith(url, "https://" + bucket + ".s3") && EndsWith(url, AwsHost + key)
  {
    StartsWithAppend("https://" + bucket + ".s3", AwsHost + key);
    EndsWithAppend("https://" + bucket + ".s3", AwsHost + key);
    "https://" + bucket + ".s3" + (AwsHost + key)
  }

  /** `_tif_key_from_record`: the part of `tif_url` after the S3 host; otherwise
      none when there is no file name; otherwise the record's folder and the name. */
  function TifKey(x: Record): (r: Result<Option<string>, Err>)
    ensures !(x.tifUrl.Str? && Contains(x.tifUrl.s, AwsHost)) ==>
      (r == Success(None) <==> !JTruthy(x.fileName))
    ensures !(x.tifUrl.Str? && Contains(x.tifUrl.s, AwsHost)) && x.fileName.Str? && |x.fileName.s| > 0 ==>
      (r.Success? <==> FolderOf(x).Success?) &&
      (r.Success? ==> r.value == Some(FolderOf(x).value + x.fileName.s))
  {
    if x.tifUrl.Str? && Contains(x.tifUrl.s, AwsHost) then Success(Some(After(x.tifUrl.s, AwsHost)))
    else if !JTruthy(x.fileName) then Success(None)
    else
      match FolderOf(x)
      case Failure(e) => Failure(e)
      case Success(folder) => if x.fileName.Str? then Success(Some(folder + x.fileName.s)) else Failure(NoFolder)
  }

  /** The public URL of a key in the catalog bucket gives that key back. */
  lemma TifKeyOfUrl(x: Record, key: string)
    requires x.tifUrl == Str(S3HttpUrl(Bucket, key))
    ensures TifKey(x) == Success(Some(key))
  {
    var u := x.tifUrl.s;
    var pre := "https://sdmlab.s3";
    assert u == pre + (AwsHost + key);
    FirstHostAt(pre, key);
    assert Find(u, AwsHost) == Some(|pre|);
    assert u[|pre| + |AwsHost|..] == key;
  }

  /** Whether `download_fim_assets` raises for a record: it works out the tif
      key first, then lists the record's folder. The transfers themselves are
      not modelled. */
  function DownloadAssets(x: Record): (r: Option<Err>)
    ensures r.None? <==> TifKey(x).Success? && FolderOf(x).Success?
    ensures FolderOf(x).Failure? ==> r == Some(NoFolder)
    ensures r.Some? ==> r.value == NoFolder
  {
    match TifKey(x)
    case Failure(e) => Some(e)
    case Success(_) => if FolderOf(x).Failure? then Some(NoFolder) else None
  }

  /** A record with a folder and a string file name, or no file name, downloads
      without raising. */
  lemma DownloadAssetsOfFolder(x: Record)
    requires FolderOf(x).Success? && (x.fileName.Str? || !JTruthy(x.fileName))
    ensures DownloadAssets(x).None?
  {
  }

  /** In the catalog bucket's URL the S3 host first occurs right after the
      bucket name. */
  lemma FirstHostAt(pre: string, key: string)
    requires pre == "https://sdmlab.s3"
    ensures MatchesAt(pre + (AwsHost + key), AwsHost, |pre|)
    ensures forall k: nat :: k < |pre| ==> !MatchesAt(pre + (AwsHost + key), AwsHost, k)
  {
    var u := pre + (AwsHost + key);
    assert u[|pre|..|pre| + |AwsHost|] == AwsHost;
    forall k: nat | k < |pre|
      ensures !MatchesAt(u, AwsHost, k)
    {
      if k + |AwsHost| <= |u| {
        assert u[k..k + |AwsHost|][0] == u[k];
        assert u[k..k + |AwsHost|][1] == u[k + 1];
      }
    }
  }
}

=== FILE: data_download.dfy ===
/** The decisions of the HUC download step (datadownload.py): the working
    folders, the git tag checked out for a FIM version, the S3 prefix synced for
    a HUC, and the stream-order filter that chooses which feature ids are written
    to `feature_IDs.csv`. Cloning, syncing and the CSV files themselves are I/O
    and appear only as the steps and paths they would use. */
module DataDownload {
  import opened Wrappers
  import opened Text
  import opened Seqs
  import opened Files

  // --------------------------------------------------------------- folders

  /** `setup_directories`: the code, data and output folders under the
      working directory. */
  function Directories(cwd: Path): (dirs: (Path, Path, Path))
    ensures dirs.0 == cwd + ["code", "inundation-mapping"]
    ensures dirs.1 == cwd + ["data", "inputs"]
    ensures dirs.2 == cwd + ["output"]
  {
    (cwd + ["code", "inundation-mapping"], cwd + ["data", "inputs"], cwd + ["output"])
  }

  /** `output/flood_<huc>`, the folder of one HUC. */
  function HucDir(outputDir: Path, huc: string): (dir: Path)
    ensures Under(dir, outputDir) && |dir| == |outputDir| + 1
  {
    outputDir + ["flood_" + huc]
  }

  /** Two HUCs never share a folder: only one HUC's folder holds a given path. */
  lemma HucDirsDisjoint(outputDir: Path, a: string, b: string, p: Path)
    ensures Under(p, HucDir(outputDir, a)) && Under(p, HucDir(outputDir, b)) ==> a == b
  {
    if Under(p, HucDir(outputDir, a)) && Under(p, HucDir(outputDir, b)) {
      var k := |outputDir|;
      assert p[k] == HucDir(outputDir, a)[k] == "flood_" + a;
      assert p[k] == HucDir(outputDir, b)[k] == "flood_" + b;
      assert a == ("flood_" + a)[6..] == ("flood_" + b)[6..] == b;
    }
  }

  /** An entry directly inside a HUC's folder. */
  function HucFile(outputDir: Path, huc: string, name: string): (p: Path)
    ensures Under(p, HucDir(outputDir, huc)) && |p| == |outputDir| + 2
    ensures p[|outputDir|] == "flood_" + huc && p[|outputDir| + 1] == name
  {
    HucDir(outputDir, huc) + [name]
  }

  /** `output/flood_<huc>/feature_IDs.csv`, written by the download step and read
      by the streamflow steps. */
  function FeatureIdsPath(outputDir: Path, huc: string): Path {
    HucFile(outputDir, huc, "feature_IDs.csv")
  }

  /** No file directly in the data folder lies inside any HUC's folder: the two
      part ways right below the working directory. */
  lemma DataOutsideHucs(cwd: Path, huc: string, name: string, sub: Path)
    ensures var dirs := Directories(cwd);
      !Under(dirs.1 + [name], HucDir(dirs.2, huc) + sub)
  {
    var dirs := Directories(cwd);
    var p := dirs.1 + [name];
    var d := HucDir(dirs.2, huc) + sub;
    assert p[|cwd|] == "data" && d[|cwd|] == "output";
  }

  // --------------------------------------------------------------- version

  const RepoUrl := "https://github.com/NOAA-OWP/inundation-mapping.git"

  /** `version_tag_map.get(version, "main")`: only FIM 4.5 is pinned. */
  function VersionTag(version: Option<string>): (tag: string)
    ensures tag == "v4.6.1.4" <==> version == Some("4.5")
    ensures tag == "main" <==> version != Some("4.5")
  {
    if version == Some("4.5") then "v4.6.1.4" else "main"
  }

  /** A git command `clone_repository` runs. */
  datatype GitStep = Clone(url: string, into: Path) | Checkout(tag: string, at: Path)

  /** `clone_repository`: nothing when the code folder already holds files;
      otherwise a clone, followed by a checkout of the version's tag unless that
      tag is `main`. */
  function CloneSteps(codeDir: Path, populated: bool, version: Option<string>): (steps: seq<GitStep>)
    ensures populated ==> steps == []
    ensures !populated ==> |steps| >= 1 && steps[0] == Clone(RepoUrl, codeDir)
    ensures (exists i :: 0 <= i < |steps| && steps[i].Checkout?) <==> !populated && version == Some("4.5")
    ensures forall i :: 0 <= i < |steps| && steps[i].Checkout? ==> steps[i] == Checkout("v4.6.1.4", codeDir)
  {
    if populated then []
    else if VersionTag(version) != "main" then
      var steps := [Clone(RepoUrl, codeDir), Checkout(VersionTag(version), codeDir)];
      assert steps[1].Checkout?;
      steps
    else [Clone(RepoUrl, codeDir)]
  }

  /** The S3 folder of a FIM release: version `4.5` selects the 4.5.2.11
      release and no other version does; everything else, no version included,
      gets the 4.8.7.2 release. */
  function Release(version: Option<string>): (url: string)
    ensures StartsWith(url, "s3://ciroh-owp-hand-fim/hand_fim_4_") && EndsWith(url, "/")
    ensures url == "s3://ciroh-owp-hand-fim/hand_fim_4_5_2_11/" <==> version == Some("4.5")
  {
    if version == Some("4.5") then "s3://ciroh-owp-hand-fim/hand_fim_4_5_2_11/"
    else "s3://ciroh-owp-hand-fim/hand_fim_4_8_7_2/"
  }

  /** `download_data`: the S3 folder synced for a HUC. */
  function S3Prefix(huc: string, version: Option<string>): (url: string)
    ensures StartsWith(url, Release(version)) && EndsWith(url, huc + "/")
  {
    StartsWithAppend(Release(version), huc + "/");
    EndsWithAppend(Release(version), huc + "/");
    Release(version) + (huc + "/")
  }

  /** The synced folder names the HUC and the release: two requests share a
      folder only when they ask for the same HUC from the same release. */
  lemma S3PrefixDistinct(h1: string, v1: Option<string>, h2: string, v2: Option<string>)
    requires S3Prefix(h1, v1) == S3Prefix(h2, v2)
    ensures h1 == h2
    ensures v1 == Some("4.5") <==> v2 == Some("4.5")
  {
    var u := S3Prefix(h1, v1);
    var k := |"s3://ciroh-owp-hand-fim/hand_fim_4_"|;
    assert Release(Some("4.5"))[k] == '5' && Release(None)[k] == '8';
    assert u[k] == Release(v1)[k] == Release(v2)[k];
    assert |Release(v1)| == |Release(v2)|;
    assert u[|Release(v1)|..] == h1 + "/";
    assert u[|Release(v2)|..] == h2 + "/";
    assert h1 == (h1 + "/")[..|h1|];
  }

  /** Where the HUC is synced to, and the `fim_inputs.csv` copied from its
      `branch_ids.csv`. */
  function SyncDir(outputDir: Path, huc: string): Path {
    HucFile(outputDir, huc, huc)
  }

  function FimInputsPath(outputDir: Path, huc: string): Path {
    HucFile(outputDir, huc, "fim_inputs.csv")
  }

  /** The files of a HUC folder are distinct, except that a HUC named like one
      of the two CSV files would sync over it. */
  lemma HucPathsDistinct(outputDir: Path, huc: string)
    ensures FeatureIdsPath(outputDir, huc) != FimInputsPath(outputDir, huc)
    ensures SyncDir(outputDir, huc) == FeatureIdsPath(outputDir, huc) <==> huc == "feature_IDs.csv"
    ensures SyncDir(outputDir, huc) == FimInputsPath(outputDir, huc) <==> huc == "fim_inputs.csv"
  {
    var k := |outputDir| + 1;
    assert FeatureIdsPath(outputDir, huc)[k] == "feature_IDs.csv";
    assert FimInputsPath(outputDir, huc)[k] == "fim_inputs.csv";
    assert SyncDir(outputDir, huc)[k] == huc;
  }

  // ---------------------------------------------------------- stream order

  /** An element of a `stream_order` list; `str()` is applied to each. */
  datatype ListItem = IntItem(n: int) | BoolItem(b: bool) | TextItem(s: string)

  /** `str(True)` is `True`, not `1`. */
  function BoolText(b: bool): string {
    if b then "True" else "False"
  }

  function ItemText(x: ListItem): string {
    match x
    case IntItem(n) => IntStr(n)
    case BoolItem(b) => BoolText(b)
    case TextItem(s) => s
  }

  /** The `stream_order` argument, by its Python type. A `bool` is an `int` to
      `isinstance`, so it takes the single-order branch. `Other` is any other
      object, with its truthiness. */
  datatype StreamOrder = NoOrder | OrderText(s: string) | OrderInt(n: int) | OrderBool(b: bool)
                       | OrderList(items: seq<ListItem>) | Other(truthy: bool)

  /** `if stream_order:`. */
  predicate OrderGiven(so: StreamOrder) {
    match so
    case NoOrder => false
    case OrderText(s) => |s| > 0
    case OrderInt(n) => n != 0
    case OrderBool(b) => b
    case OrderList(items) => |items| > 0
    case Other(truthy) => truthy
  }

  datatype Op = Ge | Le | Gt | Lt

  function OpText(op: Op): string {
    match op
    case Ge => ">="
    case Le => "<="
    case Gt => ">"
    case Lt => "<"
  }

  /** The row filter chosen from `stream_order`. */
  datatype OrderFilter = KeepAll | Compare(op: Op, value: int) | Members(orders: seq<string>)

  datatype Err = InvalidFormat | NotAnInt(text: string)

  /** A string naming a comparison. */
  predicate HasOp(s: string) {
    Contains(s, ">=") || Contains(s, "<=") || Contains(s, ">") || Contains(s, "<")
  }

  /** The operator tested first that the string contains: `>=` before `<=`
      before `>` before `<`. */
  function FirstOp(s: string): (op: Op)
    requires HasOp(s)
    ensures Contains(s, OpText(op))
  {
    if Contains(s, ">=") then Ge
    else if Contains(s, "<=") then Le
    else if Contains(s, ">") then Gt
    else Lt
  }

  /** The filter `uniqueFID` applies, or the error it raises. */
  function ParseOrder(so: StreamOrder): (r: Result<OrderFilter, Err>)
    ensures r == Success(KeepAll) <==> !OrderGiven(so)
    ensures r == Failure(InvalidFormat) <==>
      OrderGiven(so) && (so.Other? || (so.OrderText? && !HasOp(so.s)))
    ensures r.Success? && r.value.Members? ==> so.OrderInt? || so.OrderBool? || so.OrderList?
  {
    if !OrderGiven(so) then Success(KeepAll)
    else
      match so
      case OrderText(s) =>
        if !HasOp(s) then Failure(InvalidFormat)
        else
          var op := FirstOp(s);
          var text := SplitSecond(s, OpText(op));
          (match PyInt(text)
           case None => Failure(NotAnInt(text))
           case Some(v) => Success(Compare(op, v)))
      case OrderInt(n) => Success(Members([IntStr(n)]))
      case OrderBool(b) => Success(Members([BoolText(b)]))
      case OrderList(items) => Success(Members(Map(items, ItemText)))
      case _ => Failure(InvalidFormat)
  }

  /** A row of `hydrotable.csv` as far as the filter reads it. */
  datatype HydroRow = HydroRow(featureId: int, order: int)

  /** Whether a row passes the filter; membership compares `str(order_)`. */
  predicate Keeps(f: OrderFilter, row: HydroRow) {
    match f
    case KeepAll => true
    case Compare(op, v) =>
      (match op
       case Ge => row.order >= v
       case Le => row.order <= v
       case Gt => row.order > v
       case Lt => row.order < v)
    case Members(orders) => IntStr(row.order) in orders
  }

  /** `uniqueFID`: the feature ids of the kept rows, each once, in the order of
      first appearance. */
  function UniqueFids(rows: seq<HydroRow>, so: StreamOrder): (r: Result<seq<int>, Err>)
    ensures r.Failure? <==> ParseOrder(so).Failure?
    ensures r.Success? ==> NoDup(r.value)
    ensures r.Success? ==> forall fid :: fid in r.value <==>
      exists row :: row in rows && Keeps(ParseOrder(so).value, row) && row.featureId == fid
  {
    match ParseOrder(so)
    case Failure(e) => Failure(e)
    case Success(f) =>
      var ids := KeptIds(rows, f);
      KeptIdsHas(rows, f);
      Success(Dedup(ids))
  }

  /** The feature ids of the kept rows, in table order, duplicates included. */
  function KeptIds(rows: seq<HydroRow>, f: OrderFilter): seq<int> {
    Map(Filter(rows, (row: HydroRow) => Keeps(f, row)), (row: HydroRow) => row.featureId)
  }

  lemma KeptIdsHas(rows: seq<HydroRow>, f: OrderFilter)
    ensures forall fid :: fid in KeptIds(rows, f) <==> exists row :: row in rows && Keeps(f, row) && row.featureId == fid
  {
    var kept := Filter(rows, (row: HydroRow) => Keeps(f, row));
    MapValues(kept, (row: HydroRow) => row.featureId);
  }

  /** The written ids keep the order in which the kept rows first name them. */
  lemma UniqueFidsOrder(rows: seq<HydroRow>, so: StreamOrder)
    requires ParseOrder(so).Success?
    ensures var ids := KeptIds(rows, ParseOrder(so).value);
      forall i, j :: 0 <= i < j < |UniqueFids(rows, so).value| ==>
        FirstIndex(ids, UniqueFids(rows, so).value[i]) < FirstIndex(ids, UniqueFids(rows, so).value[j])
  {
  }

  /** Without a stream order every feature id is written. */
  lemma NoOrderKeepsAll(rows: seq<HydroRow>, so: StreamOrder)
    requires !OrderGiven(so)
    ensures forall row :: row in rows ==> row.featureId in UniqueFids(rows, so).value
  {
    forall row | row in rows
      ensures row.featureId in UniqueFids(rows, so).value
    {
      assert Keeps(KeepAll, row);
    }
  }

  // -------------------------------------------------------------- parsing

  /** A comparison written as its operator and a number parses to that
      comparison. */
  lemma ParseComparison(op: Op, v: int)
    ensures ParseOrder(OrderText(OpText(op) + IntStr(v))) == Success(Compare(op, v))
  {
    var t := IntStr(v);
    IntStrChars(v);
    FirstOpOf(op, t);
    OpLeads(OpText(op), t);
    PyIntOfIntStr(v);
    ParseCompareSteps(OpText(op) + t, op, v);
  }

  lemma ParseCompareSteps(s: string, op: Op, v: int)
    requires |s| > 0 && HasOp(s) && FirstOp(s) == op
    requires PyInt(SplitSecond(s, OpText(op))) == Some(v)
    ensures ParseOrder(OrderText(s)) == Success(Compare(op, v))
  {
  }

  /** The operator a text starts with is the one the parser picks, when no
      operator character follows it. */
  lemma FirstOpOf(op: Op, t: string)
    requires forall k :: 0 <= k < |t| ==> t[k] != '>' && t[k] != '<' && t[k] != '='
    ensures HasOp(OpText(op) + t) && FirstOp(OpText(op) + t) == op
  {
    OpLeads(OpText(op), t);
    match op
    case Ge =>
    case Le =>
      OtherOpAbsent("<=", t, ">=");
    case Gt =>
      OtherOpAbsent(">", t, ">=");
      OtherOpAbsent(">", t, "<=");
    case Lt =>
      OtherOpAbsent("<", t, ">=");
      OtherOpAbsent("<", t, "<=");
      OtherOpAbsent("<", t, ">");
  }

  /** `">=3"` keeps the rows of order 3 and above. */
  lemma AtLeastThree(row: HydroRow)
    ensures ParseOrder(OrderText(">=3")) == Success(Compare(Ge, 3))
    ensures Keeps(ParseOrder(OrderText(">=3")).value, row) <==> row.order >= 3
  {
    assert OpText(Ge) + IntStr(3) == ">=3";
    ParseComparison(Ge, 3);
  }

  /** `"<=4"` keeps the rows of order 4 and below. */
  lemma AtMostFour(row: HydroRow)
    ensures ParseOrder(OrderText("<=4")) == Success(Compare(Le, 4))
    ensures Keeps(ParseOrder(OrderText("<=4")).value, row) <==> row.order <= 4
  {
    ParseComparison(Le, 4);
    assert OpText(Le) + IntStr(4) == "<=4";
  }

  /** The text of an operator followed by digits starts with the operator, and
      the split returns the digits. */
  lemma OpLeads(op: string, t: string)
    requires |op| > 0 && forall k :: 0 <= k < |t| ==> t[k] != '>' && t[k] != '<'
    requires op[0] == '>' || op[0] == '<'
    ensures Contains(op + t, op) && SplitSecond(op + t, op) == t
  {
    var s := op + t;
    assert MatchesAt(s, op, 0);
    assert Find(s, op) == Some(0);
    assert After(s, op) == t;
    NoOpIn(t, op);
  }

  /** A text without the operator's first character does not contain it. */
  lemma NoOpIn(t: string, op: string)
    requires |op| > 0 && forall k :: 0 <= k < |t| ==> t[k] != op[0]
    ensures Find(t, op) == None && !Contains(t, op)
  {
    forall k: nat | k + |op| <= |t|
      ensures t[k..k + |op|][0] == t[k]
    {
    }
  }

  /** A one- or two-character operator followed by a text without operators
      does not contain another operator. */
  lemma OtherOpAbsent(op: string, t: string, other: string)
    requires 1 <= |op| <= 2 && 1 <= |other| <= 2 && op != other
    requires |op| == 2 ==> op[1] == '='
    requires |other| == 1 ==> other[0] != op[0]
    requires |other| == 2 ==> other[1] == '=' && (|op| == 1 || other[0] != op[0])
    requires forall k :: 0 <= k < |t| ==> t[k] != '>' && t[k] != '<' && t[k] != '='
    requires other[0] == '>' || other[0] == '<'
    ensures !Contains(op + t, other)
  {
    var s := op + t;
    forall k: nat
      ensures !MatchesAt(s, other, k)
    {
      if k + |other| <= |s| {
        assert s[k..k + |other|][0] == s[k];
        if |other| == 2 {
          assert s[k..k + |other|][1] == s[k + 1];
        }
        if k >= |op| {
          assert s[k] == t[k - |op|];
        } else if k == 1 {
          assert s[1] == op[1];
        } else {
          assert s[0] == op[0];
          if |op| == 1 && |s| > 1 {
            assert s[1] == t[0];
          }
        }
      }
    }
  }

  // ----------------------------------------------------------- membership

  /** A single order given as an int behaves as the list holding it. */
  lemma IntIsSingletonList(rows: seq<HydroRow>, n: int)
    requires n != 0
    ensures UniqueFids(rows, OrderInt(n)) == UniqueFids(rows, OrderList([IntItem(n)]))
  {
    assert Map([IntItem(n)], ItemText) == [IntStr(n)];
  }

  /** `stream_order=True` compares every `str(order_)` with `True`, which no
      integer's text equals, so no feature id is written. */
  lemma TrueOrderKeepsNothing(rows: seq<HydroRow>)
    ensures UniqueFids(rows, OrderBool(true)) == Success([])
  {
    var keeps := (row: HydroRow) => Keeps(Members(["True"]), row);
    var kept := Filter(rows, keeps);
    forall row | row in rows
      ensures !keeps(row)
    {
      IntStrNotTrue(row.order);
    }
    FilterNone(rows, keeps);
    assert UniqueFids(rows, OrderBool(true)) == Success(Dedup(Map(kept, (row: HydroRow) => row.featureId)));
  }

  lemma IntStrNotTrue(n: int)
    ensures IntStr(n) != BoolText(true)
  {
    IntStrChars(n);
    assert !IsDigit(BoolText(true)[0]) && BoolText(true)[0] != '-';
  }

  /** Membership on the string forms is membership on the orders themselves:
      `str` is one to one on integers. */
  lemma MembersOfInts(ns: seq<int>, row: HydroRow)
    ensures Keeps(Members(Map(Map(ns, (n: int) => IntItem(n)), ItemText)), row) <==> row.order in ns
  {
    var items := Map(ns, (n: int) => IntItem(n));
    var texts := Map(items, ItemText);
    MapValues(ns, (n: int) => IntItem(n));
    MapValues(items, ItemText);
    if IntStr(row.order) in texts {
      var x :| x in items && ItemText(x) == IntStr(row.order);
      var n :| n in ns && IntItem(n) == x;
      PyIntOfIntStr(n);
      PyIntOfIntStr(row.order);
    }
  }
}

=== FILE: dates.dfy ===
/** Proleptic Gregorian calendar dates and hour-resolution timestamps as Python's
    `datetime` handles them: validity, day and hour stepping, ordering, the
    `%Y%m%d` / `%Y-%m-%d` renderings and the `strptime` / `fromisoformat` parsers
    the modelled code applies to them. Years are unbounded integers. */
module Dates {
  import opened Wrappers
  import opened Text

  datatype Date = Date(year: int, month: int, day: int)

  predicate IsLeap(y: int) {
    y % 4 == 0 && (y % 100 != 0 || y % 400 == 0)
  }

  function DaysInYear(y: int): int {
    if IsLeap(y) then 366 else 365
  }

  function DaysInMonth(y: int, m: int): (n: int)
    requires 1 <= m <= 12
    ensures 28 <= n <= 31
  {
    if m == 2 then (if IsLeap(y) then 29 else 28)
    else if m == 4 || m == 6 || m == 9 || m == 11 then 30
    else 31
  }

  /** A date `datetime.date` accepts, apart from its 1..9999 year range. */
  predicate Valid(d: Date) {
    1 <= d.month <= 12 && 1 <= d.day <= DaysInMonth(d.year, d.month)
  }

  /** Days of the year before the first of month `m`. */
  function DaysBeforeMonth(y: int, m: int): int
    requires 1 <= m <= 12
  {
    [0, 31, 59, 90, 120, 151, 181, 212, 243, 273, 304, 334][m - 1] + (if m > 2 && IsLeap(y) then 1 else 0)
  }

  /** Days in the years before year `y`, counted from 0001-01-01. */
  function DaysBeforeYear(y: int): int {
    365 * (y - 1) + (y - 1) / 4 - (y - 1) / 100 + (y - 1) / 400
  }

  /** Python's `date.toordinal()`: 0001-01-01 is day 1. */
  function DayNumber(d: Date): int
    requires Valid(d)
  {
    DaysBeforeYear(d.year) + DaysBeforeMonth(d.year, d.month) + d.day
  }

  lemma MonthStep(y: int, m: int)
    requires 1 <= m < 12
    ensures DaysBeforeMonth(y, m + 1) == DaysBeforeMonth(y, m) + DaysInMonth(y, m)
  {
  }

  lemma YearEnd(y: int)
    ensures DaysBeforeMonth(y, 12) + DaysInMonth(y, 12) == DaysInYear(y)
  {
  }

  /** Quotient and remainder are determined by `x == k * q + r` with `0 <= r < k`. */
  lemma DivModOf(x: int, k: int, q: int, r: int)
    requires k > 0 && x == k * q + r && 0 <= r < k
    ensures x / k == q && x % k == r
  {
    var q', r' := x / k, x % k;
    MulStep(k, q - q');
    assert k * (q - q') == r' - r;
  }

  /** A non-zero multiple of `k > 0` is at least `k` away from zero. */
  lemma MulStep(k: int, d: int)
    requires k > 0
    ensures d >= 1 ==> k * d >= k
    ensures d <= -1 ==> k * d <= -k
  {
  }

  /** Stepping `x` by one moves `x / k` exactly when `x` is a multiple of `k`. */
  lemma DivStep(x: int, k: int)
    requires k > 0
    ensures x / k - (x - 1) / k == (if x % k == 0 then 1 else 0)
  {
    var q, r := (x - 1) / k, (x - 1) % k;
    if r == k - 1 {
      DivModOf(x, k, q + 1, 0);
    } else {
      DivModOf(x, k, q, r + 1);
    }
  }

  lemma YearStep(y: int)
    ensures DaysBeforeYear(y + 1) == DaysBeforeYear(y) + DaysInYear(y)
  {
    DivStep(y, 4);
    DivStep(y, 100);
    DivStep(y, 400);
  }

  /** The day after `d` (`d + timedelta(days=1)`). */
  function NextDay(d: Date): (r: Date)
    requires Valid(d)
    ensures Valid(r)
  {
    if d.day < DaysInMonth(d.year, d.month) then d.(day := d.day + 1)
    else if d.month < 12 then Date(d.year, d.month + 1, 1)
    else Date(d.year + 1, 1, 1)
  }

  /** `NextDay` is exactly one day later. */
  lemma NextDayCount(d: Date)
    requires Valid(d)
    ensures DayNumber(NextDay(d)) == DayNumber(d) + 1
  {
    if d.day == DaysInMonth(d.year, d.month) {
      if d.month < 12 {
        MonthStep(d.year, d.month);
      } else {
        YearStep(d.year);
        YearEnd(d.year);
      }
    }
  }

  /** The day before `d` (`d - timedelta(days=1)`). */
  function PrevDay(d: Date): (r: Date)
    requires Valid(d)
    ensures Valid(r)
  {
    if d.day > 1 then d.(day := d.day - 1)
    else if d.month > 1 then Date(d.year, d.month - 1, DaysInMonth(d.year, d.month - 1))
    else Date(d.year - 1, 12, 31)
  }

  /** `PrevDay` is exactly one day earlier. */
  lemma PrevDayCount(d: Date)
    requires Valid(d)
    ensures DayNumber(PrevDay(d)) == DayNumber(d) - 1
  {
    if d.day == 1 {
      if d.month > 1 {
        MonthStep(d.year, d.month - 1);
      } else {
        YearStep(d.year - 1);
        YearEnd(d.year - 1);
      }
    }
  }

  /** `d + timedelta(days=k)`. */
  function AddDays(d: Date, k: int): (r: Date)
    requires Valid(d)
    ensures Valid(r) && DayNumber(r) == DayNumber(d) + k
    decreases if k < 0 then -k else k
  {
    if k == 0 then d
    else if k > 0 then
      NextDayCount(d);
      AddDays(NextDay(d), k - 1)
    else
      PrevDayCount(d);
      AddDays(PrevDay(d), k + 1)
  }

  /** Python's `a < b` on dates: by year, then month, then day. */
  predicate DateLt(a: Date, b: Date) {
    a.year < b.year || (a.year == b.year && (a.month < b.month || (a.month == b.month && a.day < b.day)))
  }

  lemma DayOfYearBounds(d: Date)
    requires Valid(d)
    ensures 1 <= DaysBeforeMonth(d.year, d.month) + d.day <= DaysInYear(d.year)
  {
  }

  lemma {:induction false} DaysBeforeYearMonotone(a: int, b: int)
    requires a < b
    ensures DaysBeforeYear(a) + DaysInYear(a) <= DaysBeforeYear(b)
    decreases b - a
  {
    YearStep(a);
    if a + 1 < b {
      DaysBeforeYearMonotone(a + 1, b);
      assert DaysInYear(a + 1) > 0;
    }
  }

  lemma {:induction false} DaysBeforeMonthMonotone(y: int, m: int, n: int)
    requires 1 <= m < n <= 12
    ensures DaysBeforeMonth(y, m) + DaysInMonth(y, m) <= DaysBeforeMonth(y, n)
    decreases n - m
  {
    MonthStep(y, m);
    if m + 1 < n {
      DaysBeforeMonthMonotone(y, m + 1, n);
    }
  }

  /** The calendar order agrees with the day-number order, so the day number is
      an order isomorphism onto the integers. */
  lemma DateLtIffDayNumber(a: Date, b: Date)
    requires Valid(a) && Valid(b)
    ensures DateLt(a, b) <==> DayNumber(a) < DayNumber(b)
    ensures a == b <==> DayNumber(a) == DayNumber(b)
  {
    DayOfYearBounds(a);
    DayOfYearBounds(b);
    if a.year < b.year {
      DaysBeforeYearMonotone(a.year, b.year);
    } else if b.year < a.year {
      DaysBeforeYearMonotone(b.year, a.year);
    } else if a.month < b.month {
      DaysBeforeMonthMonotone(a.year, a.month, b.month);
    } else if b.month < a.month {
      DaysBeforeMonthMonotone(a.year, b.month, a.month);
    }
  }

  /** Adding `j` then `k` days is adding `j + k` days. */
  lemma AddDaysAdd(d: Date, j: int, k: int)
    requires Valid(d)
    ensures AddDays(AddDays(d, j), k) == AddDays(d, j + k)
  {
    DateLtIffDayNumber(AddDays(AddDays(d, j), k), AddDays(d, j + k));
  }

  // ------------------------------------------------------------ rendering

  /** `d.strftime("%Y%m%d")`. */
  function Ymd(d: Date): string {
    PadInt(d.year, 4) + PadInt(d.month, 2) + PadInt(d.day, 2)
  }

  /** `d.isoformat()` / `d.strftime("%Y-%m-%d")`. */
  function IsoDate(d: Date): string {
    PadInt(d.year, 4) + "-" + PadInt(d.month, 2) + "-" + PadInt(d.day, 2)
  }

  // ------------------------------------------------ strptime field matchers

  /** One matched field: its value and the unconsumed rest of the input. */
  datatype Field = Field(value: int, rest: string)

  function Two(a: char, b: char): int
    requires IsDigit(a) && IsDigit(b)
  {
    DigitVal(a) * 10 + DigitVal(b)
  }

  /** `%Y`: exactly four digits. */
  function MatchYear(s: string): (r: Option<Field>)
    ensures r.Some? ==> |s| >= 4 && r.value.rest == s[4..] && 0 <= r.value.value <= 9999
  {
    if |s| >= 4 && AllDigits(s[..4]) then
      DigitsValBound(s[..4]);
      Some(Field(DigitsVal(s[..4]), s[4..]))
    else None
  }

  /** `%m`: `1[0-2]|0[1-9]|[1-9]`, first alternative that matches. */
  function MatchMonth(s: string): (r: Option<Field>)
    ensures r.Some? ==> 1 <= r.value.value <= 12 && |r.value.rest| < |s|
  {
    if |s| >= 2 && s[0] == '1' && '0' <= s[1] <= '2' then Some(Field(Two(s[0], s[1]), s[2..]))
    else if |s| >= 2 && s[0] == '0' && '1' <= s[1] <= '9' then Some(Field(Two(s[0], s[1]), s[2..]))
    else if |s| >= 1 && '1' <= s[0] <= '9' then Some(Field(DigitVal(s[0]), s[1..]))
    else None
  }

  /** `%d`: `3[01]|[12]\d|0[1-9]|[1-9]| [1-9]`, first alternative that matches. */
  function MatchDay(s: string): (r: Option<Field>)
    ensures r.Some? ==> 1 <= r.value.value <= 31 && |r.value.rest| < |s|
  {
    if |s| >= 2 && s[0] == '3' && '0' <= s[1] <= '1' then Some(Field(Two(s[0], s[1]), s[2..]))
    else if |s| >= 2 && '1' <= s[0] <= '2' && IsDigit(s[1]) then Some(Field(Two(s[0], s[1]), s[2..]))
    else if |s| >= 2 && s[0] == '0' && '1' <= s[1] <= '9' then Some(Field(Two(s[0], s[1]), s[2..]))
    else if |s| >= 1 && '1' <= s[0] <= '9' then Some(Field(DigitVal(s[0]), s[1..]))
    else if |s| >= 2 && s[0] == ' ' && '1' <= s[1] <= '9' then Some(Field(DigitVal(s[1]), s[2..]))
    else None
  }

  /** `%H`: `2[0-3]|[0-1]\d|\d`. */
  function MatchHour(s: string): (r: Option<Field>)
    ensures r.Some? ==> 0 <= r.value.value <= 23 && |r.value.rest| < |s|
  {
    if |s| >= 2 && s[0] == '2' && '0' <= s[1] <= '3' then Some(Field(Two(s[0], s[1]), s[2..]))
    else if |s| >= 2 && '0' <= s[0] <= '1' && IsDigit(s[1]) then Some(Field(Two(s[0], s[1]), s[2..]))
    else if |s| >= 1 && IsDigit(s[0]) then Some(Field(DigitVal(s[0]), s[1..]))
    else None
  }

  /** `%M`: `[0-5]\d|\d`. */
  function MatchMinute(s: string): (r: Option<Field>)
    ensures r.Some? ==> 0 <= r.value.value <= 59 && |r.value.rest| < |s|
  {
    if |s| >= 2 && '0' <= s[0] <= '5' && IsDigit(s[1]) then Some(Field(Two(s[0], s[1]), s[2..]))
    else if |s| >= 1 && IsDigit(s[0]) then Some(Field(DigitVal(s[0]), s[1..]))
    else None
  }

  /** `%S`: `6[0-1]|[0-5]\d|\d` (60 and 61 are matched here and refused later). */
  function MatchSecond(s: string): (r: Option<Field>)
    ensures r.Some? ==> 0 <= r.value.value <= 61 && |r.value.rest| < |s|
  {
    if |s| >= 2 && s[0] == '6' && '0' <= s[1] <= '1' then Some(Field(Two(s[0], s[1]), s[2..]))
    else if |s| >= 2 && '0' <= s[0] <= '5' && IsDigit(s[1]) then Some(Field(Two(s[0], s[1]), s[2..]))
    else if |s| >= 1 && IsDigit(s[0]) then Some(Field(DigitVal(s[0]), s[1..]))
    else None
  }

  /** A literal character of the format. */
  function MatchLit(s: string, c: char): (r: Option<string>)
    ensures r.Some? <==> |s| > 0 && s[0] == c
    ensures r.Some? ==> r.value == s[1..]
  {
    if |s| > 0 && s[0] == c then Some(s[1..]) else None
  }

  /** A blank in the format: `\s+`. */
  function MatchSpaces(s: string): (r: Option<string>)
    ensures r.Some? <==> |s| > 0 && IsSpace(s[0])
    ensures r.Some? ==> r.value == LStrip(s)
  {
    if |s| > 0 && IsSpace(s[0]) then Some(LStrip(s)) else None
  }

  /** The year, month and day fields checked as `datetime` does: year at least 1
      (four digits keep it at most 9999) and a day that exists in the month. */
  function MakeDate(y: int, m: int, d: int): (r: Option<Date>)
    ensures r.Some? <==> y >= 1 && 1 <= m <= 12 && 1 <= d <= DaysInMonth(y, m)
    ensures r.Some? ==> r.value == Date(y, m, d) && Valid(r.value)
  {
    if y >= 1 && 1 <= m <= 12 && 1 <= d <= DaysInMonth(y, m) then Some(Date(y, m, d)) else None
  }

  /** `datetime.strptime(s, "%Y%m%d").date()` on eight-character input; `None`
      where it raises `ValueError` (no match, unconverted data left over, or no
      such day). The fields are matched greedily without backtracking, so on
      shorter input it can differ from Python: `202011` gives `None` here, while
      Python reads it as 2020-01-01. */
  function StrptimeCompact(s: string): (r: Option<Date>)
    ensures r.Some? ==> Valid(r.value) && 1 <= r.value.year <= 9999
  {
    match MatchYear(s)
    case None => None
    case Some(y) =>
      match MatchMonth(y.rest)
      case None => None
      case Some(m) =>
        match MatchDay(m.rest)
        case None => None
        case Some(d) => if |d.rest| == 0 then MakeDate(y.value, m.value, d.value) else None
  }

  /** The `%Y-%m-%d` prefix of a format: year, month, day and the unconsumed rest. */
  function MatchIsoFields(s: string): (r: Option<(int, int, int, string)>)
    ensures r.Some? ==> 0 <= r.value.0 <= 9999 && 1 <= r.value.1 <= 12 && 1 <= r.value.2 <= 31
  {
    match MatchYear(s)
    case None => None
    case Some(y) =>
      match MatchLit(y.rest, '-')
      case None => None
      case Some(s1) =>
        match MatchMonth(s1)
        case None => None
        case Some(m) =>
          match MatchLit(m.rest, '-')
          case None => None
          case Some(s2) =>
            match MatchDay(s2)
            case None => None
            case Some(d) => Some((y.value, m.value, d.value, d.rest))
  }

  /** `datetime.strptime(s, "%Y-%m-%d")`. */
  function StrptimeIso(s: string): (r: Option<Date>)
    ensures r.Some? ==> Valid(r.value) && 1 <= r.value.year <= 9999
  {
    match MatchIsoFields(s)
    case None => None
    case Some(f) => if |f.3| == 0 then MakeDate(f.0, f.1, f.2) else None
  }

  /** `date.fromisoformat(s)` on the `YYYY-MM-DD` form: exactly ten characters,
      dashes at 4 and 7, ASCII digits elsewhere, and a real date. */
  function FromIsoDate(s: string): (r: Option<Date>)
    ensures r.Some? ==> Valid(r.value) && 1 <= r.value.year <= 9999 && |s| == 10
  {
    if |s| == 10 && s[4] == '-' && s[7] == '-' && AllDigits(s[..4]) && AllDigits(s[5..7]) && AllDigits(s[8..]) then
      DigitsValBound(s[..4]);
      MakeDate(DigitsVal(s[..4]), DigitsVal(s[5..7]), DigitsVal(s[8..]))
    else None
  }

  // ---------------------------------------------------------- round trips

  lemma DigitsVal2(a: char, b: char)
    requires IsDigit(a) && IsDigit(b)
    ensures AllDigits([a, b]) && DigitsVal([a, b]) == Two(a, b)
  {
    assert [a, b][..1] == [a] && [a][..0] == [];
    assert DigitsVal([a]) == DigitVal(a);
  }

  /** Two-digit zero-padding of 0..99 spells the number's tens and units. */
  lemma Pad2(n: int)
    requires 0 <= n < 100
    ensures |PadInt(n, 2)| == 2 && IsDigit(PadInt(n, 2)[0]) && IsDigit(PadInt(n, 2)[1])
    ensures PadInt(n, 2)[0] == DigitChar(n / 10) && Two(PadInt(n, 2)[0], PadInt(n, 2)[1]) == n
  {
    Pad2Digits(n);
  }

  lemma MatchYearPad(y: int, rest: string)
    requires 0 <= y <= 9999
    ensures MatchYear(PadInt(y, 4) + rest) == Some(Field(y, rest))
  {
    assert Pow10(4) == 10000;
    NatStrLength(y, 4);
    PadIntValue(y, 4);
    var s := PadInt(y, 4) + rest;
    assert s[..4] == PadInt(y, 4) && s[4..] == rest;
  }

  lemma MatchMonthPad(m: int, rest: string)
    requires 1 <= m <= 12
    ensures MatchMonth(PadInt(m, 2) + rest) == Some(Field(m, rest))
  {
    Pad2(m);
    var s := PadInt(m, 2) + rest;
    assert s[2..] == rest;
  }

  lemma MatchDayPad(d: int, rest: string)
    requires 1 <= d <= 31
    ensures MatchDay(PadInt(d, 2) + rest) == Some(Field(d, rest))
  {
    Pad2(d);
    var s := PadInt(d, 2) + rest;
    assert s[2..] == rest;
  }

  lemma MatchHourPad(h: int, rest: string)
    requires 0 <= h <= 23
    ensures MatchHour(PadInt(h, 2) + rest) == Some(Field(h, rest))
  {
    Pad2(h);
    var s := PadInt(h, 2) + rest;
    assert s[2..] == rest;
  }

  lemma MatchMinutePad(m: int, rest: string)
    requires 0 <= m <= 59
    ensures MatchMinute(PadInt(m, 2) + rest) == Some(Field(m, rest))
  {
    Pad2(m);
    var s := PadInt(m, 2) + rest;
    assert s[2..] == rest;
  }

  lemma MatchSecondPad(sec: int, rest: string)
    requires 0 <= sec <= 59
    ensures MatchSecond(PadInt(sec, 2) + rest) == Some(Field(sec, rest))
  {
    Pad2(sec);
    var s := PadInt(sec, 2) + rest;
    assert s[2..] == rest;
  }

  /** `strptime(d.strftime("%Y%m%d"), "%Y%m%d")` gives `d` back. */
  lemma StrptimeCompactOfYmd(d: Date)
    requires Valid(d) && 1 <= d.year <= 9999
    ensures StrptimeCompact(Ymd(d)) == Some(d)
  {
    var y, m, dd := PadInt(d.year, 4), PadInt(d.month, 2), PadInt(d.day, 2);
    assert Ymd(d) == y + (m + dd);
    MatchYearPad(d.year, m + dd);
    MatchMonthPad(d.month, dd);
    assert dd == dd + [];
    MatchDayPad(d.day, []);
  }

  lemma MatchIsoFieldsPad(d: Date, rest: string)
    requires Valid(d) && 0 <= d.year <= 9999
    ensures MatchIsoFields(IsoDate(d) + rest) == Some((d.year, d.month, d.day, rest))
  {
    var y, m, dd := PadInt(d.year, 4), PadInt(d.month, 2), PadInt(d.day, 2);
    var r2 := dd + rest;
    var r1 := m + ("-" + r2);
    var s := y + ("-" + r1);
    assert IsoDate(d) + rest == s;
    MatchYearPad(d.year, "-" + r1);
    MatchMonthPad(d.month, "-" + r2);
    MatchDayPad(d.day, rest);
    MatchIsoFieldsSteps(s, d.year, d.month, d.day, r1, r2, rest);
  }

  /** The stages of `MatchIsoFields` succeeding one after another. */
  lemma MatchIsoFieldsSteps(s: string, y: int, m: int, d: int, r1: string, r2: string, rest: string)
    requires MatchYear(s) == Some(Field(y, "-" + r1))
    requires MatchMonth(r1) == Some(Field(m, "-" + r2))
    requires MatchDay(r2) == Some(Field(d, rest))
    ensures MatchIsoFields(s) == Some((y, m, d, rest))
  {
    assert MatchLit("-" + r1, '-') == Some(r1);
    assert MatchLit("-" + r2, '-') == Some(r2);
  }

  /** `strptime(d.isoformat(), "%Y-%m-%d")` gives `d` back. */
  lemma StrptimeIsoOfIsoDate(d: Date)
    requires Valid(d) && 1 <= d.year <= 9999
    ensures StrptimeIso(IsoDate(d)) == Some(d)
  {
    assert IsoDate(d) + [] == IsoDate(d);
    MatchIsoFieldsPad(d, []);
  }

  /** Four-digit zero-padding of 0..9999 spells the year. */
  lemma Pad4Val(y: int)
    requires 0 <= y <= 9999
    ensures |PadInt(y, 4)| == 4 && AllDigits(PadInt(y, 4)) && DigitsVal(PadInt(y, 4)) == y
  {
    assert Pow10(4) == 10000;
    NatStrLength(y, 4);
    PadIntValue(y, 4);
  }

  /** Two-digit zero-padding of 0..99 is two digits spelling the number. */
  lemma Pad2Val(n: int)
    requires 0 <= n < 100
    ensures |PadInt(n, 2)| == 2 && AllDigits(PadInt(n, 2)) && DigitsVal(PadInt(n, 2)) == n
  {
    Pad2(n);
    var p := PadInt(n, 2);
    DigitsVal2(p[0], p[1]);
    assert p == [p[0], p[1]];
  }

  /** The fields of `y-m-dd` sit at fixed offsets. */
  lemma IsoParts(y: string, m: string, dd: string)
    requires |y| == 4 && |m| == 2 && |dd| == 2
    ensures |y + "-" + m + "-" + dd| == 10
    ensures (y + "-" + m + "-" + dd)[4] == '-' && (y + "-" + m + "-" + dd)[7] == '-'
    ensures (y + "-" + m + "-" + dd)[..4] == y && (y + "-" + m + "-" + dd)[5..7] == m
    ensures (y + "-" + m + "-" + dd)[8..] == dd
  {
  }

  /** `date.fromisoformat(d.isoformat())` gives `d` back. */
  lemma FromIsoDateOfIsoDate(d: Date)
    requires Valid(d) && 1 <= d.year <= 9999
    ensures FromIsoDate(IsoDate(d)) == Some(d)
  {
    Pad4Val(d.year);
    Pad2Val(d.month);
    Pad2Val(d.day);
    IsoParts(PadInt(d.year, 4), PadInt(d.month, 2), PadInt(d.day, 2));
  }

  /** A rendered date of years 1..9999 has the `YYYY-MM-DD` shape. */
  lemma IsoDateShape(d: Date)
    requires Valid(d) && 1 <= d.year <= 9999
    ensures |IsoDate(d)| == 10 && IsoDate(d)[4] == '-' && IsoDate(d)[7] == '-'
    ensures AllDigits(IsoDate(d)[..4]) && AllDigits(IsoDate(d)[5..7]) && AllDigits(IsoDate(d)[8..])
  {
    FromIsoDateOfIsoDate(d);
  }

  /** A compact date of years 1..9999 is eight digits. */
  lemma YmdShape(d: Date)
    requires Valid(d) && 1 <= d.year <= 9999
    ensures |Ymd(d)| == 8 && AllDigits(Ymd(d))
  {
    assert Pow10(4) == 10000;
    NatStrLength(d.year, 4);
    PadIntValue(d.year, 4);
    Pad2(d.month);
    Pad2(d.day);
  }

  // ----------------------------------------------------------- timestamps

  /** A naive `datetime` to the second. */
  datatype DateTime = DateTime(date: Date, hour: int, minute: int, second: int)

  predicate ValidTime(t: DateTime) {
    Valid(t.date) && 0 <= t.hour < 24 && 0 <= t.minute < 60 && 0 <= t.second < 60
  }

  /** Whole hours since the start of day 0. */
  function HourNumber(t: DateTime): int
    requires ValidTime(t)
  {
    DayNumber(t.date) * 24 + t.hour
  }

  /** `t - timedelta(hours=1)`. */
  function PrevHour(t: DateTime): (r: DateTime)
    requires ValidTime(t)
    ensures ValidTime(r) && r.minute == t.minute && r.second == t.second
  {
    if t.hour > 0 then t.(hour := t.hour - 1) else t.(date := PrevDay(t.date), hour := 23)
  }

  /** `PrevHour` is exactly one hour earlier. */
  lemma PrevHourCount(t: DateTime)
    requires ValidTime(t)
    ensures HourNumber(PrevHour(t)) == HourNumber(t) - 1
  {
    if t.hour == 0 {
      PrevDayCount(t.date);
    }
  }

  /** `t + timedelta(hours=1)`. */
  function NextHour(t: DateTime): (r: DateTime)
    requires ValidTime(t)
    ensures ValidTime(r) && r.minute == t.minute && r.second == t.second
  {
    if t.hour < 23 then t.(hour := t.hour + 1) else t.(date := NextDay(t.date), hour := 0)
  }

  /** `NextHour` is exactly one hour later. */
  lemma NextHourCount(t: DateTime)
    requires ValidTime(t)
    ensures HourNumber(NextHour(t)) == HourNumber(t) + 1
  {
    if t.hour == 23 {
      NextDayCount(t.date);
    }
  }

  /** An hour either side of `t` is at most a year away. */
  lemma NeighbourHourYears(t: DateTime)
    requires ValidTime(t)
    ensures t.date.year - 1 <= PrevHour(t).date.year <= t.date.year
    ensures t.date.year <= NextHour(t).date.year <= t.date.year + 1
  {
  }

  /** A day either side of `d` is at most a year away. */
  lemma NeighbourDayYears(d: Date)
    requires Valid(d)
    ensures d.year - 1 <= PrevDay(d).year <= d.year
    ensures d.year <= NextDay(d).year <= d.year + 1
  {
  }

  /** `t.strftime("%Y-%m-%d %H:%M:%S")`. */
  function IsoDateTime(t: DateTime): string {
    IsoDate(t.date) + " " + ClockText(t.hour, t.minute, t.second)
  }

  /** The `%H:%M:%S` part of a rendering. */
  function ClockText(h: int, mi: int, sec: int): string {
    PadInt(h, 2) + ":" + PadInt(mi, 2) + ":" + PadInt(sec, 2)
  }

  function MakeDateTime(d: Date, h: int, mi: int, sec: int): (r: Option<DateTime>)
    requires Valid(d)
    ensures r.Some? <==> 0 <= h < 24 && 0 <= mi < 60 && 0 <= sec < 60
    ensures r.Some? ==> ValidTime(r.value) && r.value == DateTime(d, h, mi, sec)
  {
    if 0 <= h < 24 && 0 <= mi < 60 && 0 <= sec < 60 then Some(DateTime(d, h, mi, sec)) else None
  }

  /** The time part `%H:%M:%S` of a format, checked as `datetime` does. */
  function StrptimeClock(s: string): (r: Option<(int, int, int)>)
    ensures r.Some? ==> 0 <= r.value.0 < 24 && 0 <= r.value.1 < 60 && 0 <= r.value.2 < 60
  {
    match MatchHour(s)
    case None => None
    case Some(h) =>
      match MatchLit(h.rest, ':')
      case None => None
      case Some(s1) =>
        match MatchMinute(s1)
        case None => None
        case Some(mi) =>
          match MatchLit(mi.rest, ':')
          case None => None
          case Some(s2) =>
            match MatchSecond(s2)
            case None => None
            case Some(sec) => if |sec.rest| == 0 && sec.value < 60 then Some((h.value, mi.value, sec.value)) else None
  }

  /** `datetime.strptime(s, "%Y-%m-%d %H:%M:%S")`; the blank matches any run of whitespace. */
  function StrptimeIsoTime(s: string): (r: Option<DateTime>)
    ensures r.Some? ==> ValidTime(r.value) && 1 <= r.value.date.year <= 9999
  {
    match MatchIsoFields(s)
    case None => None
    case Some(f) => TimeAfterFields(f)
  }

  /** The blank and the `%H:%M:%S` part after matched date fields. */
  function TimeAfterFields(f: (int, int, int, string)): (r: Option<DateTime>)
    ensures r.Some? ==> ValidTime(r.value) && r.value.date.year == f.0 >= 1
  {
    match MatchSpaces(f.3)
    case None => None
    case Some(s3) =>
      match MakeDate(f.0, f.1, f.2)
      case None => None
      case Some(date) =>
        match StrptimeClock(s3)
        case None => None
        case Some(c) => MakeDateTime(date, c.0, c.1, c.2)
  }

  lemma StrptimeClockPad(h: int, mi: int, sec: int)
    requires 0 <= h < 24 && 0 <= mi < 60 && 0 <= sec < 60
    ensures StrptimeClock(ClockText(h, mi, sec)) == Some((h, mi, sec))
  {
    var hh, mm, ss := PadInt(h, 2), PadInt(mi, 2), PadInt(sec, 2);
    var s2 := ":" + ss;
    var s1 := mm + s2;
    var s := hh + (":" + s1);
    ClockNesting(hh, mm, ss);
    MatchHourPad(h, ":" + s1);
    MatchMinutePad(mi, s2);
    assert ss == ss + [];
    MatchSecondPad(sec, []);
    StrptimeClockSteps(s, h, mi, sec, s1, ss);
  }

  lemma ClockNesting(hh: string, mm: string, ss: string)
    ensures hh + ":" + mm + ":" + ss == hh + (":" + (mm + (":" + ss)))
  {
  }

  /** The stages of `StrptimeClock` succeeding one after another. */
  lemma StrptimeClockSteps(s: string, h: int, mi: int, sec: int, s1: string, s2: string)
    requires 0 <= sec < 60
    requires MatchHour(s) == Some(Field(h, ":" + s1))
    requires MatchMinute(s1) == Some(Field(mi, ":" + s2))
    requires MatchSecond(s2) == Some(Field(sec, []))
    ensures StrptimeClock(s) == Some((h, mi, sec))
  {
    assert MatchLit(":" + s1, ':') == Some(s1);
    assert MatchLit(":" + s2, ':') == Some(s2);
  }

  /** `strptime(t.strftime(F), F)` gives `t` back for `F = "%Y-%m-%d %H:%M:%S"`. */
  lemma StrptimeIsoTimeOfIsoDateTime(t: DateTime)
    requires ValidTime(t) && 1 <= t.date.year <= 9999
    ensures StrptimeIsoTime(IsoDateTime(t)) == Some(t)
  {
    var clock := ClockText(t.hour, t.minute, t.second);
    var rest := " " + clock;
    assert IsoDateTime(t) == IsoDate(t.date) + rest;
    MatchIsoFieldsPad(t.date, rest);
    ClockTextHead(t.hour, t.minute, t.second);
    SpaceBeforeClock(clock);
    StrptimeClockPad(t.hour, t.minute, t.second);
    StrptimeIsoTimeSteps(IsoDateTime(t), t, rest, clock);
  }

  /** The stages of `StrptimeIsoTime` succeeding one after another. */
  lemma StrptimeIsoTimeSteps(s: string, t: DateTime, rest: string, clock: string)
    requires ValidTime(t) && t.date.year >= 1
    requires MatchIsoFields(s) == Some((t.date.year, t.date.month, t.date.day, rest))
    requires MatchSpaces(rest) == Some(clock)
    requires StrptimeClock(clock) == Some((t.hour, t.minute, t.second))
    ensures StrptimeIsoTime(s) == Some(t)
  {
    TimeAfterFieldsSteps(t, rest, clock);
  }

  lemma TimeAfterFieldsSteps(t: DateTime, rest: string, clock: string)
    requires ValidTime(t) && t.date.year >= 1
    requires MatchSpaces(rest) == Some(clock)
    requires StrptimeClock(clock) == Some((t.hour, t.minute, t.second))
    ensures TimeAfterFields((t.date.year, t.date.month, t.date.day, rest)) == Some(t)
  {
    assert MakeDate(t.date.year, t.date.month, t.date.day) == Some(t.date);
    assert MakeDateTime(t.date, t.hour, t.minute, t.second) == Some(t);
  }

  lemma ClockTextHead(h: int, mi: int, sec: int)
    requires 0 <= h < 24
    ensures |ClockText(h, mi, sec)| > 0 && IsDigit(ClockText(h, mi, sec)[0])
  {
    Pad2(h);
    assert ClockText(h, mi, sec)[0] == PadInt(h, 2)[0];
  }

  lemma SpaceBeforeClock(clock: string)
    requires |clock| > 0 && IsDigit(clock[0])
    ensures MatchSpaces(" " + clock) == Some(clock)
  {
    assert (" " + clock)[1..] == clock;
  }

  /** A rendered timestamp is never read as a bare date: the time part is left over. */
  lemma StrptimeIsoOfIsoDateTime(t: DateTime)
    requires ValidTime(t) && 1 <= t.date.year <= 9999
    ensures StrptimeIso(IsoDateTime(t)) == None
  {
    var rest := " " + ClockText(t.hour, t.minute, t.second);
    assert IsoDateTime(t) == IsoDate(t.date) + rest;
    StrptimeIsoTrailing(t.date, rest);
  }

  /** Anything after the date fields makes `%Y-%m-%d` refuse the input. */
  lemma StrptimeIsoTrailing(d: Date, rest: string)
    requires Valid(d) && 0 <= d.year <= 9999 && |rest| > 0
    ensures StrptimeIso(IsoDate(d) + rest) == None
  {
    MatchIsoFieldsPad(d, rest);
  }
}

=== FILE: files.dfy ===
/** The file system as far as the modelled code looks at it: the set of files
    present, each named by its path components. */
module Files {

  /** A path as its components, `Path(a) / b / c` being `a + [b, c]`. */
  type Path = seq<string>

  /** The files present. */
  type FileSet = set<Path>

  /** `p` lies strictly inside the directory `dir`. */
  predicate Under(p: Path, dir: Path) {
    |dir| < |p| && p[..|dir|] == dir
  }

  /** `os.path.exists(dir)` for a directory: some file lies inside it. */
  predicate DirExists(fs: FileSet, dir: Path) {
    exists p :: p in fs && Under(p, dir)
  }

  /** `shutil.rmtree(dir)`: every file inside `dir` is gone, nothing else changes. */
  function RemoveTree(fs: FileSet, dir: Path): (r: FileSet)
    ensures forall p :: p in r <==> p in fs && !Under(p, dir)
  {
    set p | p in fs && !Under(p, dir)
  }
}

=== FILE: fim_service.dfy ===
/** The decision and naming logic of `FIMService` (fims_setup.py): folder labels
    from records and from user dates, the expected OWP HAND FIM artifact path,
    the "copy if present, else generate if allowed" step over an abstract file
    system, the status of `query`, the fallback and grouping of `process`, and
    the list mode of `fim_lookup`. Paths are sequences of components; catalog
    downloads are not modelled. */
module FimService {
  import opened Wrappers
  import opened Text
  import opened Seqs
  import opened Dates
  import opened Sorting
  import opened Catalog
  import opened Files

  // ------------------------------------------------------------------ labels

  /** `f"{hh:02d}0000"`: an hour as `HHMMSS` with zero minutes and seconds. */
  function TimeStr(h: int): (t: string)
    ensures |t| >= 5 && t[0] != '_'
    ensures 0 <= h < 100 ==> |t| == 6 && AllDigits(t) && DigitsVal(t[..2]) == h
  {
    if 0 <= h < 100 then
      Pad2(h);
      DigitsVal2(PadInt(h, 2)[0], PadInt(h, 2)[1]);
      assert PadInt(h, 2) == [PadInt(h, 2)[0], PadInt(h, 2)[1]];
      var t := PadInt(h, 2) + "0000";
      assert t[..2] == PadInt(h, 2);
      t
    else
      PadIntShape(h);
      PadInt(h, 2) + "0000"
  }

  /** `f"{n:02d}"` is never empty and starts with a digit or a minus sign. */
  lemma PadIntShape(n: int)
    ensures |PadInt(n, 2)| >= 1 && (IsDigit(PadInt(n, 2)[0]) || PadInt(n, 2)[0] == '-')
  {
    if n >= 0 {
      var s := NatStr(n);
      assert IsDigit(s[0]);
      if |s| < 2 {
        assert PadInt(n, 2)[0] == Zeros(2 - |s|)[0];
      }
    }
  }

  /** `f"{day:%Y%m%d}"`, followed by `f"{hh:02d}0000"` when there is an hour.
      The day reads back from the first eight characters and the hour from the
      next two. */
  function DayLabel(day: Date, hour: Option<int>): (l: string)
    requires Valid(day) && 1 <= day.year <= 9999
    ensures |l| >= 8 && StrptimeCompact(l[..8]) == Some(day)
    ensures |l| == 8 <==> hour.None?
    ensures hour.Some? && 0 <= hour.value < 100 ==>
      |l| == 14 && AllDigits(l[8..]) && DigitsVal(l[8..10]) == hour.value
  {
    YmdShape(day);
    StrptimeCompactOfYmd(day);
    assert Ymd(day)[..8] == Ymd(day);
    if hour.None? then Ymd(day)
    else
      var t := TimeStr(hour.value);
      AppendTime(Ymd(day), t);
      Ymd(day) + t
  }

  lemma AppendTime(ymd: string, t: string)
    requires |ymd| == 8 && |t| >= 2
    ensures var l := ymd + t; |l| == 8 + |t| && l[..8] == ymd && l[8..] == t && l[8..10] == t[..2]
  {
  }

  /** `_date_label_for_record`: `YYYYMMDD` for a day-only record, `YYYYMMDDHH0000`
      for an hourly one, and for a record without a day the first eight
      characters of `str(date_raw)`, or `unknown` when that is empty. */
  function RecordLabel(x: Record): (l: string)
    ensures |l| > 0
    ensures RecordDay(x).None? ==>
      l == "unknown" || (|l| <= 8 && StartsWith(StrOf(x.dateRaw, ""), l))
    ensures RecordDay(x).Some? ==> |l| >= 8 && StrptimeCompact(l[..8]) == RecordDay(x)
    ensures RecordDay(x).Some? ==> (|l| == 8 <==> RecordHour(x).None?)
  {
    match RecordDay(x)
    case None =>
      var raw := Take(StrOf(x.dateRaw, ""), 8);
      if |raw| > 0 then raw else "unknown"
    case Some(day) => DayLabel(day, RecordHour(x))
  }

  /** `_ymd_timestr_from_user`: the user's day as `YYYYMMDD` and, when the input
      names an hour, that hour as `HH0000`; an unreadable date raises. The day
      reads back from the first part and the hour from the second. */
  function YmdTimestr(s: string): (r: Result<(string, Option<string>), Err>)
    ensures r.Failure? <==> ToDate(s).None?
    ensures r.Failure? ==> r.error == BadDate(s)
    ensures r.Success? ==> |r.value.0| == 8 && StrptimeCompact(r.value.0) == ToDate(s)
    ensures r.Success? ==> (r.value.1.None? <==> UserHour(s).None?)
    ensures r.Success? && r.value.1.Some? ==>
      |r.value.1.value| == 6 && AllDigits(r.value.1.value) && DigitsVal(r.value.1.value[..2]) == UserHour(s).value
  {
    match ToDate(s)
    case None => Failure(BadDate(s))
    case Some(day) =>
      YmdShape(day);
      StrptimeCompactOfYmd(day);
      var hour := UserHour(s);
      if hour.None? then Success((Ymd(day), None))
      else
        UserHourClassifies(s);
        Success((Ymd(day), Some(TimeStr(hour.value))))
  }

  /** `_date_label_from_user`. */
  function UserLabel(s: string): (r: Result<string, Err>)
    ensures r.Failure? <==> ToDate(s).None?
    ensures r.Failure? ==> r.error == BadDate(s)
    ensures r.Success? ==> |r.value| >= 8 && StrptimeCompact(r.value[..8]) == ToDate(s)
    ensures r.Success? ==> (|r.value| == 8 <==> UserHour(s).None?)
  {
    match ToDate(s)
    case None => Failure(BadDate(s))
    case Some(day) => Success(DayLabel(day, UserHour(s)))
  }

  /** The folder label and the artifact name agree on the timestamp: the label
      is the `YYYYMMDD` part followed by the `HH0000` part, if any. */
  lemma UserLabelIsYmdTimestr(s: string)
    ensures YmdTimestr(s).Failure? <==> UserLabel(s).Failure?
    ensures YmdTimestr(s).Success? ==>
      UserLabel(s).value == YmdTimestr(s).value.0 + YmdTimestr(s).value.1.GetOr("")
  {
    if ToDate(s).Some? {
      var day := ToDate(s).value;
      assert UserLabel(s).value == DayLabel(day, UserHour(s));
    }
  }

  /** A user date and a record on the same day and hour get the same label, so a
      record lands in the folder its own stamp would name. */
  lemma {:induction false} LabelsAgree(x: Record)
    requires RecordDay(x).Some?
    requires RecordHour(x).None? || 0 <= RecordHour(x).value < 24
    ensures UserLabel(Stamp(RecordDay(x).value, RecordHour(x))) == Success(RecordLabel(x))
  {
    var d := RecordDay(x).value;
    match RecordHour(x)
    case None =>
      ToDateOfIsoDate(d);
    case Some(h) =>
      ToDateOfIsoClock(d, h);
  }

  /** `YYYY-MM-DD HH:00:00` is read back as the day `d` and the hour `h`. */
  lemma ToDateOfIsoClock(d: Date, h: int)
    requires Valid(d) && 1 <= d.year <= 9999 && 0 <= h < 24
    ensures ToDate(Stamp(d, Some(h))) == Some(d) && UserHour(Stamp(d, Some(h))) == Some(h)
  {
    var s := Stamp(d, Some(h));
    ClockStampNormal(d, h, s);
    ClockStampShape(d, h, s);
    FromIsoDateOfIsoDate(d);
  }

  /** The stamp is already in normal form. */
  lemma ClockStampNormal(d: Date, h: int, s: string)
    requires Valid(d) && 1 <= d.year <= 9999 && 0 <= h < 24
    requires s == Stamp(d, Some(h))
    ensures Normalize(s) == s
  {
    IsoDateChars(d);
    Pad2(h);
    var iso, hh := IsoDate(d), PadInt(h, 2);
    assert s == iso + " " + hh + ":00:00";
    ClockLayout(iso, hh, s);
    OneBlankNormal(s, 10);
  }

  /** The stamp has the `YYYY-MM-DD HH:MM:SS` shape with in-range fields. */
  lemma ClockStampShape(d: Date, h: int, s: string)
    requires Valid(d) && 1 <= d.year <= 9999 && 0 <= h < 24
    requires s == Stamp(d, Some(h))
    ensures IsClockForm(s) && ClockValid(s) && ClockHour(s) == h && s[..10] == IsoDate(d)
    ensures !IsCompact(s) && !IsYmdForm(s) && !IsYmdhForm(s)
  {
    IsoDateChars(d);
    Pad2(h);
    var iso, hh := IsoDate(d), PadInt(h, 2);
    assert s == iso + " " + hh + ":00:00";
    ClockLayout(iso, hh, s);
    assert hh == [hh[0], hh[1]];
    DigitsVal2(hh[0], hh[1]);
    DigitsVal2('0', '0');
  }

  /** Where the parts of `YYYY-MM-DD HH:00:00` sit. */
  lemma ClockLayout(iso: string, hh: string, s: string)
    requires IsYmdForm(iso) && DigitsDashes(iso)
    requires |hh| == 2 && IsDigit(hh[0]) && IsDigit(hh[1])
    requires s == iso + " " + hh + ":00:00"
    ensures |s| == 19 && s[..10] == iso && s[10] == ' ' && s[11..13] == hh && s[13] == ':'
    ensures s[14..16] == ['0', '0'] && s[16] == ':' && s[17..19] == ['0', '0']
    ensures forall i :: 0 <= i < |s| && i != 10 ==> IsDigit(s[i]) || s[i] == '-' || s[i] == ':'
  {
    forall i | 0 <= i < |s| && i != 10
      ensures IsDigit(s[i]) || s[i] == '-' || s[i] == ':'
    {
      if i < 10 {
        assert s[i] == iso[i];
      } else if 11 <= i < 13 {
        assert s[i] == hh[i - 11];
      }
    }
  }

  /** Text whose only whitespace is one inner blank, and without `/`, is
      already normal. */
  lemma OneBlankNormal(s: string, k: int)
    requires 0 < k < |s| - 1 && s[k] == ' '
    requires forall i :: 0 <= i < |s| && i != k ==> IsDigit(s[i]) || s[i] == '-' || s[i] == ':'
    ensures Normalize(s) == s
  {
    assert !IsSpace(s[0]) && !IsSpace(s[|s| - 1]);
    assert Collapsed(s);
    forall i | 0 <= i < |s|
      ensures s[i] != '/'
    {
    }
    NormalizeFixed(s);
  }

  // -------------------------------------------------------------- OWP artifact

  /** `NWM_<ymd>[<HHMMSS>]_<huc>_inundation.tif`: the stamp, when there is one,
      sits between the day and the HUC. */
  function OwpName(huc: string, ymd: string, timestr: Option<string>): (name: string)
    ensures StartsWith(name, "NWM_" + ymd) && EndsWith(name, "_" + huc + "_inundation.tif")
    ensures |ymd| == 8 ==> (name[12] == '_' <==> timestr.None? || |timestr.value| == 0 || timestr.value[0] == '_')
  {
    var stamp := if timestr.Some? then timestr.value else "";
    var tail := "_" + huc + "_inundation.tif";
    var name := "NWM_" + ymd + stamp + tail;
    assert name[4 + |ymd| + |stamp|..] == tail;
    assert name[..4 + |ymd|] == "NWM_" + ymd;
    assert |ymd| == 8 ==> name[12] == (stamp + tail)[0];
    name
  }

  /** `_expected_owp_path`: `<owp_root>/flood_<huc>/<huc>_inundation/<name>`. */
  function ExpectedOwpPath(owpRoot: Path, huc: string, ymd: string, timestr: Option<string>): (p: Path)
    ensures |p| == |owpRoot| + 3 && p[..|owpRoot|] == owpRoot
    ensures p[|owpRoot|] == "flood_" + huc && p[|owpRoot| + 1] == huc + "_inundation"
    ensures p[|p| - 1] == OwpName(huc, ymd, timestr)
  {
    owpRoot + ["flood_" + huc, huc + "_inundation", OwpName(huc, ymd, timestr)]
  }

  /** The artifact path a user date asks for. */
  function OwpPathFor(owpRoot: Path, huc: string, userDt: string): (r: Result<Path, Err>)
    ensures r.Failure? <==> ToDate(userDt).None?
    ensures r.Success? ==> |r.value| == |owpRoot| + 3 && r.value[..|owpRoot|] == owpRoot
    ensures r.Success? ==> r.value[|owpRoot|] == "flood_" + huc && r.value[|owpRoot| + 1] == huc + "_inundation"
    ensures r.Success? ==> var n := r.value[|owpRoot| + 2];
      |n| > 12 && StrptimeCompact(n[4..12]) == ToDate(userDt) && (n[12] == '_' <==> UserHour(userDt).None?)
  {
    match YmdTimestr(userDt)
    case Failure(e) => Failure(e)
    case Success((ymd, ts)) =>
      OwpNameShape(huc, ymd, ts);
      Success(ExpectedOwpPath(owpRoot, huc, ymd, ts))
  }

  /** The day of an artifact name is its characters 4 to 12, and an hour stamp
      starting with a digit puts that digit, not `_`, right after it. */
  lemma OwpNameShape(huc: string, ymd: string, ts: Option<string>)
    requires |ymd| == 8 && (ts.Some? ==> |ts.value| > 0 && IsDigit(ts.value[0]))
    ensures var n := OwpName(huc, ymd, ts);
      |n| > 12 && n[4..12] == ymd && (n[12] == '_' <==> ts.None?)
  {
    var n := OwpName(huc, ymd, ts);
    assert n[..12] == "NWM_" + ymd;
    assert n[4..12] == n[..12][4..];
  }

  /** A day-only request and an hour request never name the same artifact: the
      day-only name has `_` right after the eight date digits, the hourly one
      has the hour there. */
  lemma DayNeverMatchesHour(owpRoot: Path, huc: string, dayDt: string, hourDt: string)
    requires ToDate(dayDt).Some? && UserHour(dayDt).None?
    requires ToDate(hourDt).Some? && UserHour(hourDt).Some?
    ensures OwpPathFor(owpRoot, huc, dayDt) != OwpPathFor(owpRoot, huc, hourDt)
  {
    var a := YmdTimestr(dayDt).value;
    var b := YmdTimestr(hourDt).value;
    assert IsDigit(b.1.value[0]);
    OwpNamesDiffer(huc, a.0, b.0, b.1.value);
    var pa := OwpPathFor(owpRoot, huc, dayDt).value;
    var pb := OwpPathFor(owpRoot, huc, hourDt).value;
    assert pa[|pa| - 1] == OwpName(huc, a.0, None) && pb[|pb| - 1] == OwpName(huc, b.0, b.1);
  }

  lemma OwpNamesDiffer(huc: string, ymd: string, ymd': string, t: string)
    requires |ymd| == 8 && |ymd'| == 8 && |t| > 0 && t[0] != '_'
    ensures OwpName(huc, ymd, None) != OwpName(huc, ymd', Some(t))
  {
    assert OwpName(huc, ymd, None)[12] == '_';
    assert OwpName(huc, ymd', Some(t))[12] == t[0];
  }

  /** `_find_existing_owp_tif`: the one expected path when it exists; no other
      file is consulted. */
  function FindExistingOwp(fs: FileSet, owpRoot: Path, huc: string, userDt: string): (r: Result<Option<Path>, Err>)
    ensures r.Failure? <==> ToDate(userDt).None?
    ensures r.Success? ==> (r.value.Some? <==> OwpPathFor(owpRoot, huc, userDt).value in fs)
    ensures r.Success? && r.value.Some? ==> r.value.value == OwpPathFor(owpRoot, huc, userDt).value
  {
    var cand :- OwpPathFor(owpRoot, huc, userDt);
    if cand in fs then Success(Some(cand)) else Success(None)
  }

  /** `_copy_to_dest`: the file keeps its name under the destination folder. */
  function CopyTo(fs: FileSet, src: Path, destDir: Path): (r: (Path, FileSet))
    requires |src| > 0
    ensures r.0 == destDir + [src[|src| - 1]] && r.1 == fs + {r.0}
  {
    var dst := destDir + [src[|src| - 1]];
    (dst, fs + {dst})
  }

  /** What `_ensure_owp_to` leaves behind: the copied artifact, if any, the files
      afterwards, and whether the generation step ran. */
  datatype Ensured = Ensured(path: Option<Path>, fs: FileSet, generated: bool)

  /** `_ensure_owp_to`. `generate` is the file system after `_generate_owp` has
      downloaded the inputs and run the mapping program. */
  function EnsureOwp(fs: FileSet, generate: FileSet -> FileSet, owpRoot: Path, huc: string,
                     userDt: string, destDir: Path, generateIfMissing: bool): (r: Result<Ensured, Err>)
    ensures r.Failure? <==> ToDate(userDt).None?
    ensures r.Success? ==>
      var e := r.value;
      var want := OwpPathFor(owpRoot, huc, userDt).value;
      var copy := destDir + [want[|want| - 1]];
      && (want in fs ==> e == Ensured(Some(copy), fs + {copy}, false))
      && (want !in fs && !generateIfMissing ==> e == Ensured(None, fs, false))
      && (want !in fs && generateIfMissing && want !in generate(fs) ==> e == Ensured(None, generate(fs), true))
      && (want !in fs && generateIfMissing && want in generate(fs) ==>
            e == Ensured(Some(copy), generate(fs) + {copy}, true))
  {
    var existing :- FindExistingOwp(fs, owpRoot, huc, userDt);
    if existing.Some? then
      var (dst, fs') := CopyTo(fs, existing.value, destDir);
      Success(Ensured(Some(dst), fs', false))
    else if generateIfMissing then
      var after := generate(fs);
      var want := OwpPathFor(owpRoot, huc, userDt).value;
      if want in after then
        var (dst, fs') := CopyTo(after, want, destDir);
        Success(Ensured(Some(dst), fs', true))
      else Success(Ensured(None, after, true))
    else Success(Ensured(None, fs, false))
  }

  /** Whatever happens, an ensured artifact is a file afterwards, carries the
      expected artifact name, and generation only runs for a missing artifact. */
  lemma EnsuredIsPresent(fs: FileSet, generate: FileSet -> FileSet, owpRoot: Path, huc: string,
                         userDt: string, destDir: Path, generateIfMissing: bool)
    requires EnsureOwp(fs, generate, owpRoot, huc, userDt, destDir, generateIfMissing).Success?
    ensures var e := EnsureOwp(fs, generate, owpRoot, huc, userDt, destDir, generateIfMissing).value;
      var want := OwpPathFor(owpRoot, huc, userDt).value;
      && (e.path.Some? ==> e.path.value in e.fs && e.path.value[|e.path.value| - 1] == want[|want| - 1])
      && (e.generated ==> generateIfMissing && want !in fs)
      && (e.path.None? ==> (want !in fs && (generateIfMissing ==> want !in e.fs)))
  {
    var want := OwpPathFor(owpRoot, huc, userDt).value;
    if want in fs {
    } else if generateIfMissing {
      if want in generate(fs) {
      }
    }
  }

  // -------------------------------------------------------------------- query

  datatype Status = Ok | Info | NotFound | Assumed

  /** What `query` returns, its message aside, with the relaxed records its
      printable listing shows. */
  datatype QueryReport = QueryReport(status: Status, matches: seq<Record>, listed: seq<Record>, printable: string)

  /** Whether `query` was given any date, file or range. */
  predicate Filtered(dateInput: Option<string>, fileName: Option<string>, startDate: Option<string>, endDate: Option<string>) {
    dateInput.Some? || fileName.Some? || Truthy(startDate) || Truthy(endDate)
  }

  /** `query`: the strict matches, the relaxed listing, and `ok` when something
      matched strictly, else `info` for a bare HUC and `not_found` otherwise. */
  function QueryHuc(records: seq<Record>, hucId: string, dateInput: Option<string>, fileName: Option<string>,
                    startDate: Option<string>, endDate: Option<string>): (r: Result<QueryReport, Err>)
    ensures var strict := FindStrict(records, Query(Strip(hucId), dateInput, fileName, None, None));
      && (strict.Failure? ==> r.Failure?)
      && (r.Success? ==> strict.Success? && r.value.matches == strict.value)
    ensures r.Success? ==> (r.value.status == Ok <==> |r.value.matches| > 0)
    ensures r.Success? ==>
      (r.value.status == Info <==> |r.value.matches| == 0 && !Filtered(dateInput, fileName, startDate, endDate))
    ensures r.Success? ==> r.value.status != Assumed
    ensures r.Success? ==>
      var relaxed := FindRelaxed(records, Query(Strip(hucId), dateInput, fileName, startDate, endDate));
      relaxed.Success? && r.value.listed == relaxed.value
    ensures r.Success? ==> |r.value.printable| > 0 && !IsSpace(r.value.printable[0])
    ensures r.Success? ==> (|r.value.listed| == 0 <==> StartsWith(r.value.printable, NoMatch))
    ensures (FindStrict(records, Query(Strip(hucId), dateInput, fileName, None, None)).Success? &&
             FindRelaxed(records, Query(Strip(hucId), dateInput, fileName, startDate, endDate)).Success?) ==> r.Success?
  {
    var huc := Strip(hucId);
    var strict :- FindStrict(records, Query(huc, dateInput, fileName, None, None));
    var relaxed :- FindRelaxed(records, Query(huc, dateInput, fileName, startDate, endDate));
    var status :=
      if |strict| > 0 then Ok
      else if dateInput.None? && fileName.None? && !Truthy(startDate) && !Truthy(endDate) then Info
      else NotFound;
    FormatRecordsNoMatch(relaxed);
    Success(QueryReport(status, strict, relaxed, FormatRecords(relaxed, None)))
  }

  /** `info` means the catalog has no record at all for the HUC. */
  lemma InfoMeansUnknownHuc(records: seq<Record>, hucId: string, startDate: Option<string>, endDate: Option<string>)
    requires QueryHuc(records, hucId, None, None, startDate, endDate).Success?
    requires QueryHuc(records, hucId, None, None, startDate, endDate).value.status == Info
    ensures forall x :: x in records ==> !HucIs(x, Strip(hucId))
  {
    var q := Query(Strip(hucId), None, None, None, None);
    StrictSelects(records, q);
    StripIdempotent(hucId);
    assert FindStrict(records, q).value == [];
  }

  // ------------------------------------------------------------------ process

  /** One output folder of `process`: its label, its path, the records it is
      for and the OWP artifact copied into it, if any. */
  datatype Folder = Folder(stamp: string, path: Path, records: seq<Record>, owp: Option<Path>)

  /** What `process` returns, its message and the downloads aside, with the
      files afterwards. */
  datatype ProcessReport = ProcessReport(status: Status, folders: seq<Folder>, matches: seq<Record>, fs: FileSet)

  /** `inputs_root / f"HUC{huc8}_flood{label}"`. */
  function FolderPath(root: Path, huc: string, tag: string): (p: Path)
    ensures |p| == |root| + 3 && p[|p| - 1] == "HUC" + huc + "_flood" + tag
  {
    root + ["FIM_evaluation", "FIM_inputs", "HUC" + huc + "_flood" + tag]
  }

  /** The fallback record for a file name with no strict match: the first record
      of that name on the HUC, else the first of that name anywhere. */
  function FallbackRecord(records: seq<Record>, huc: string, fname: string): (r: Option<Record>)
    ensures r.Some? ==> r.value in records && FileIs(r.value, fname)
    ensures r.None? <==> forall x :: x in records ==> !FileIs(x, fname)
    ensures (exists x :: x in records && FileIs(x, fname) && HucIs(x, huc)) ==>
      r.Some? && HucIs(r.value, huc) && r.value == Filter(records, x => FileIs(x, fname) && HucIs(x, huc))[0]
  {
    var same := Filter(records, x => FileIs(x, fname) && HucIs(x, huc));
    var any := Filter(records, x => FileIs(x, fname));
    if |same| > 0 then
      assert same[0] in same;
      Some(same[0])
    else if |any| > 0 then
      assert any[0] in any;
      Some(any[0])
    else
      assert forall x :: x in records && FileIs(x, fname) ==> x in any;
      None
  }

  /** `download_fim_assets` for each record in turn, stopping at the first
      that raises. */
  function DownloadAll(recs: seq<Record>): (r: Option<Err>)
    ensures r.None? <==> forall x :: x in recs ==> DownloadAssets(x).None?
    ensures r.Some? ==>
      exists i :: 0 <= i < |recs| && r == DownloadAssets(recs[i]) && forall j :: 0 <= j < i ==> DownloadAssets(recs[j]).None?
  {
    if |recs| == 0 then None
    else if DownloadAssets(recs[0]).Some? then DownloadAssets(recs[0])
    else
      var rest := DownloadAll(recs[1..]);
      assert forall x :: x in recs <==> x == recs[0] || x in recs[1..];
      if rest.Some? then
        var i :| 0 <= i < |recs[1..]| && rest == DownloadAssets(recs[1..][i]) && forall j :: 0 <= j < i ==> DownloadAssets(recs[1..][j]).None?;
        assert rest == DownloadAssets(recs[i + 1]);
        assert forall j :: 0 < j < i + 1 ==> recs[j] == recs[1..][j - 1];
        rest
      else rest
  }

  /** A folder of the date path or of the fallback as `process` leaves it, with
      the files afterwards: at its path, holding the artifact `_ensure_owp_to`
      copied into it when asked for and a date is given, and otherwise with no
      artifact and no file changed. */
  predicate Placed(fs: FileSet, generate: FileSet -> FileSet, owpRoot: Path, root: Path, huc: string,
                   dateInput: Option<string>, ensureOwp: bool, generateIfMissing: bool, folder: Folder, after: FileSet) {
    && folder.path == FolderPath(root, huc, folder.stamp)
    && if ensureOwp && Truthy(dateInput) then
         var e := EnsureOwp(fs, generate, owpRoot, huc, dateInput.value, folder.path, generateIfMissing);
         e.Success? && folder.owp == e.value.path && after == e.value.fs
       else folder.owp.None? && after == fs
  }

  /** The one-folder result of the date path and of the fallback: the records
      are downloaded into the folder, then, when asked for and a date is given,
      the OWP artifact is ensured there. */
  function DatedFolder(fs: FileSet, generate: FileSet -> FileSet, owpRoot: Path, root: Path, huc: string,
                       dateInput: Option<string>, tag: string, recs: seq<Record>,
                       ensureOwp: bool, generateIfMissing: bool): (r: Result<(Folder, FileSet), Err>)
    ensures r.Success? ==> r.value.0.stamp == tag && r.value.0.records == recs
    ensures r.Failure? <==> DownloadAll(recs).Some? || (ensureOwp && Truthy(dateInput) && ToDate(dateInput.value).None?)
    ensures r.Success? ==> Placed(fs, generate, owpRoot, root, huc, dateInput, ensureOwp, generateIfMissing, r.value.0, r.value.1)
  {
    var folder := FolderPath(root, huc, tag);
    if DownloadAll(recs).Some? then Failure(DownloadAll(recs).value)
    else if ensureOwp && Truthy(dateInput) then
      var e :- EnsureOwp(fs, generate, owpRoot, huc, dateInput.value, folder, generateIfMissing);
      Success((Folder(tag, folder, recs, e.path), e.fs))
    else Success((Folder(tag, folder, recs, None), fs))
  }

  /** The legacy grouping: one folder per distinct record label, in sorted label
      order, each with the strict matches of that label in catalog order. */
  function LabelFolders(root: Path, huc: string, recs: seq<Record>): (fo: seq<Folder>)
    ensures StrictlySorted(Map(fo, (f: Folder) => f.stamp))
    ensures forall i :: 0 <= i < |fo| ==>
      && fo[i].path == FolderPath(root, huc, fo[i].stamp) && fo[i].owp.None?
      && |fo[i].records| > 0 && IsSubseq(fo[i].records, recs)
      && forall x :: x in fo[i].records <==> x in recs && RecordLabel(x) == fo[i].stamp
    ensures forall x :: x in recs ==> exists i :: 0 <= i < |fo| && fo[i].stamp == RecordLabel(x)
  {
    LabelFoldersSorted(root, huc, recs);
    LabelFoldersGroups(root, huc, recs);
    LabelFoldersCover(root, huc, recs);
    FoldersOf(root, huc, LabelGroups(recs))
  }

  /** The records grouped by label, one group per distinct label in sorted order. */
  function LabelGroups(recs: seq<Record>): seq<(string, seq<Record>)> {
    GroupBy(recs, SortedUniq(Map(recs, RecordLabel)), RecordLabel)
  }

  lemma LabelFoldersSorted(root: Path, huc: string, recs: seq<Record>)
    ensures StrictlySorted(Map(FoldersOf(root, huc, LabelGroups(recs)), (f: Folder) => f.stamp))
  {
    assert Map(FoldersOf(root, huc, LabelGroups(recs)), (f: Folder) => f.stamp) == SortedUniq(Map(recs, RecordLabel));
  }

  lemma LabelFoldersGroups(root: Path, huc: string, recs: seq<Record>)
    ensures var fo := FoldersOf(root, huc, LabelGroups(recs));
      forall i :: 0 <= i < |fo| ==>
        && fo[i].path == FolderPath(root, huc, fo[i].stamp) && fo[i].owp.None?
        && |fo[i].records| > 0 && IsSubseq(fo[i].records, recs)
        && forall x :: x in fo[i].records <==> x in recs && RecordLabel(x) == fo[i].stamp
  {
    var labels := SortedUniq(Map(recs, RecordLabel));
    LabelKeys(recs);
    SortedNoDup(labels);
    GroupByPartitions(recs, labels, RecordLabel);
  }

  lemma LabelFoldersCover(root: Path, huc: string, recs: seq<Record>)
    ensures var fo := FoldersOf(root, huc, LabelGroups(recs));
      forall x :: x in recs ==> exists i :: 0 <= i < |fo| && fo[i].stamp == RecordLabel(x)
  {
    var labels := SortedUniq(Map(recs, RecordLabel));
    var fo := FoldersOf(root, huc, LabelGroups(recs));
    LabelKeys(recs);
    forall x | x in recs
      ensures exists i :: 0 <= i < |fo| && fo[i].stamp == RecordLabel(x)
    {
      var i := FirstIndex(labels, RecordLabel(x));
      assert fo[i].stamp == RecordLabel(x);
    }
  }

  /** The distinct labels are exactly the labels of the records. */
  lemma LabelKeys(recs: seq<Record>)
    ensures forall k :: k in SortedUniq(Map(recs, RecordLabel)) <==> exists x :: x in recs && RecordLabel(x) == k
  {
    MapValues(recs, RecordLabel);
  }

  /** One folder per group, named by the group's label. */
  function FoldersOf(root: Path, huc: string, groups: seq<(string, seq<Record>)>): (fo: seq<Folder>)
    ensures |fo| == |groups|
    ensures forall i :: 0 <= i < |fo| ==> fo[i] == Folder(groups[i].0, FolderPath(root, huc, groups[i].0), groups[i].1, None)
  {
    seq(|groups|, i requires 0 <= i < |groups| => Folder(groups[i].0, FolderPath(root, huc, groups[i].0), groups[i].1, None))
  }

  lemma SortedNoDup(s: seq<string>)
    requires StrictlySorted(s)
    ensures NoDup(s)
  {
    forall i, j | 0 <= i < j < |s|
      ensures s[i] != s[j]
    {
      StrLtIrreflexive(s[i]);
    }
  }

  /** The file-name fallback of `process`: with a file name, the first record
      of that name on the HUC, else the first of that name anywhere. */
  function Fallback(records: seq<Record>, hucId: string, fileName: Option<string>): Option<Record> {
    if Truthy(fileName) then FallbackRecord(records, Strip(hucId), Strip(fileName.value)) else None
  }

  /** The records `process` downloads: the strict matches; without any, the
      file-name fallback, if there is one. */
  function Chosen(records: seq<Record>, hucId: string, fileName: Option<string>, strict: seq<Record>): seq<Record> {
    if |strict| > 0 then strict
    else if Fallback(records, hucId, fileName).Some? then [Fallback(records, hucId, fileName).value]
    else []
  }

  /** `process` with no strict match: the fallback record, if any, is
      downloaded into a folder labelled from the user's date, or else from the
      record, and the OWP artifact is ensured there when asked for and a date is
      given (`assumed`); without one it is `not_found`. */
  function ProcessFallback(records: seq<Record>, hucId: string, dateInput: Option<string>, ensureOwp: bool,
                           generateIfMissing: bool, fileName: Option<string>, root: Path, owpRoot: Path,
                           fs: FileSet, generate: FileSet -> FileSet): (r: Result<ProcessReport, Err>)
    ensures var fb := Fallback(records, hucId, fileName);
      r.Failure? <==> fb.Some? && ((Truthy(dateInput) && ToDate(dateInput.value).None?) || DownloadAll([fb.value]).Some?)
    ensures r.Success? ==>
      var fb := Fallback(records, hucId, fileName);
      && r.value.matches == Chosen(records, hucId, fileName, [])
      && (r.value.status == Assumed <==> fb.Some?)
      && (r.value.status == NotFound <==> fb.None?)
      && (r.value.status == NotFound ==> r.value.folders == [] && r.value.fs == fs)
      && (r.value.status == Assumed ==>
            && |r.value.folders| == 1 && r.value.folders[0].records == [fb.value]
            && r.value.folders[0].stamp ==
                 (if Truthy(dateInput) then UserLabel(dateInput.value).value else RecordLabel(fb.value))
            && Placed(fs, generate, owpRoot, root, hucId, dateInput, ensureOwp, generateIfMissing,
                      r.value.folders[0], r.value.fs))
  {
    match Fallback(records, hucId, fileName)
    case None => Success(ProcessReport(NotFound, [], [], fs))
    case Some(rec) =>
      var tag :- if Truthy(dateInput) then UserLabel(dateInput.value) else Success(RecordLabel(rec));
      var (folder, fs') :- DatedFolder(fs, generate, owpRoot, root, hucId, dateInput, tag, [rec],
                                       ensureOwp, generateIfMissing);
      Success(ProcessReport(Assumed, [folder], [rec], fs'))
  }

  /** `process` with strict matches: one folder labelled from the user's date,
      holding every match and the OWP artifact when asked for, or, without a
      date, one folder per record label. Every match is downloaded. */
  function ProcessStrict(hucId: string, dateInput: Option<string>, ensureOwp: bool, generateIfMissing: bool,
                         root: Path, owpRoot: Path, fs: FileSet, generate: FileSet -> FileSet,
                         strict: seq<Record>): (r: Result<ProcessReport, Err>)
    requires |strict| > 0
    ensures r.Failure? <==> (Truthy(dateInput) && ToDate(dateInput.value).None?) || DownloadAll(strict).Some?
    ensures r.Success? ==> r.value.status == Ok && r.value.matches == strict && |r.value.folders| > 0
    ensures r.Success? && Truthy(dateInput) ==>
      && |r.value.folders| == 1
      && r.value.folders[0].stamp == UserLabel(dateInput.value).value
      && r.value.folders[0].records == strict
      && Placed(fs, generate, owpRoot, root, hucId, dateInput, ensureOwp, generateIfMissing, r.value.folders[0], r.value.fs)
    ensures r.Success? && !Truthy(dateInput) ==> r.value.folders == LabelFolders(root, hucId, strict) && r.value.fs == fs
  {
    if Truthy(dateInput) then
      var tag :- UserLabel(dateInput.value);
      var (folder, fs') :- DatedFolder(fs, generate, owpRoot, root, hucId, dateInput, tag, strict,
                                       ensureOwp, generateIfMissing);
      Success(ProcessReport(Ok, [folder], strict, fs'))
    else if DownloadAll(strict).Some? then Failure(DownloadAll(strict).value)
    else
      assert strict[0] in strict;
      assert exists x :: x in strict && RecordLabel(x) == RecordLabel(strict[0]);
      Success(ProcessReport(Ok, LabelFolders(root, hucId, strict), strict, fs))
  }

  /** `process`: the strict matches go into one folder named from the user's
      date when one is given (with the OWP artifact ensured there), or into one
      folder per record tag otherwise. With no strict match, a file name falls
      back to the first record of that name (`assumed`); anything else is
      `not_found` with no folders. An unreadable date raises, and so does a
      record to download whose folder cannot be worked out. */
  function Process(records: seq<Record>, hucId: string, dateInput: Option<string>, ensureOwp: bool,
                   generateIfMissing: bool, fileName: Option<string>, root: Path, owpRoot: Path,
                   fs: FileSet, generate: FileSet -> FileSet): (r: Result<ProcessReport, Err>)
    ensures var strict := FindStrict(records, Query(Strip(hucId), dateInput, fileName, None, None));
      r.Failure? <==> strict.Failure? || DownloadAll(Chosen(records, hucId, fileName, strict.value)).Some?
    ensures r.Success? ==>
      var strict := FindStrict(records, Query(Strip(hucId), dateInput, fileName, None, None)).value;
      && r.value.matches == Chosen(records, hucId, fileName, strict)
      && (r.value.status == Ok <==> |strict| > 0)
      && (r.value.status == NotFound <==> |r.value.matches| == 0)
      && (r.value.status == NotFound ==> r.value.folders == [] && r.value.fs == fs)
      && (r.value.status != NotFound ==> |r.value.folders| > 0)
      && (|strict| == 0 && Truthy(fileName) ==>
            (r.value.status == Assumed <==> FallbackRecord(records, Strip(hucId), Strip(fileName.value)).Some?))
    ensures r.Success? && r.value.status != NotFound && (Truthy(dateInput) || r.value.status == Assumed) ==>
      Placed(fs, generate, owpRoot, root, hucId, dateInput, ensureOwp, generateIfMissing, r.value.folders[0], r.value.fs)
    ensures r.Success? && r.value.status == Ok && Truthy(dateInput) ==>
      && |r.value.folders| == 1
      && r.value.folders[0].stamp == UserLabel(dateInput.value).value
      && r.value.folders[0].records == r.value.matches
    ensures r.Success? && r.value.status == Ok && !Truthy(dateInput) ==>
      r.value.folders == LabelFolders(root, hucId, r.value.matches) && r.value.fs == fs
    ensures r.Success? && r.value.status == Assumed ==>
      && Truthy(fileName) && |r.value.matches| == 1 && r.value.matches[0] in records
      && FileIs(r.value.matches[0], Strip(fileName.value))
      && |r.value.folders| == 1 && r.value.folders[0].records == r.value.matches
      && r.value.folders[0].stamp ==
           (if Truthy(dateInput) then UserLabel(dateInput.value).value else RecordLabel(r.value.matches[0]))
  {
    var strict :- FindStrict(records, Query(Strip(hucId), dateInput, fileName, None, None));
    if |strict| == 0 then
      ProcessFallback(records, hucId, dateInput, ensureOwp, generateIfMissing, fileName, root, owpRoot, fs, generate)
    else
      ProcessStrict(hucId, dateInput, ensureOwp, generateIfMissing, root, owpRoot, fs, generate, strict)
  }

  /** Every folder `process` reports is `HUC<huc>_flood<label>` under the
      inputs root; with an OWP request and a date, the first folder holds what
      `_ensure_owp_to` copied there and the files are those it left; otherwise
      no folder has an artifact and no file changed. */
  lemma ProcessFolders(records: seq<Record>, hucId: string, dateInput: Option<string>, ensureOwp: bool,
                       generateIfMissing: bool, fileName: Option<string>, root: Path, owpRoot: Path,
                       fs: FileSet, generate: FileSet -> FileSet)
    ensures var r := Process(records, hucId, dateInput, ensureOwp, generateIfMissing, fileName, root, owpRoot, fs, generate);
      r.Success? ==>
        && (forall i :: 0 <= i < |r.value.folders| ==> r.value.folders[i].path == FolderPath(root, hucId, r.value.folders[i].stamp))
        && (!(ensureOwp && Truthy(dateInput)) ==>
              r.value.fs == fs && forall i :: 0 <= i < |r.value.folders| ==> r.value.folders[i].owp.None?)
        && (ensureOwp && Truthy(dateInput) && r.value.status != NotFound ==>
              var e := EnsureOwp(fs, generate, owpRoot, hucId, dateInput.value, r.value.folders[0].path, generateIfMissing);
              e.Success? && r.value.folders[0].owp == e.value.path && r.value.fs == e.value.fs)
  {
    var r := Process(records, hucId, dateInput, ensureOwp, generateIfMissing, fileName, root, owpRoot, fs, generate);
    if r.Success? && r.value.status != NotFound {
      if r.value.status == Ok && !Truthy(dateInput) {
        LegacyFolders(root, hucId, r.value.matches);
      } else {
        PlacedFolder(fs, generate, owpRoot, root, hucId, dateInput, ensureOwp, generateIfMissing, r.value.folders, r.value.fs);
      }
    }
  }

  /** The legacy folders are at their paths and carry no artifact. */
  lemma LegacyFolders(root: Path, huc: string, recs: seq<Record>)
    ensures var fo := LabelFolders(root, huc, recs);
      forall i :: 0 <= i < |fo| ==> fo[i].path == FolderPath(root, huc, fo[i].stamp) && fo[i].owp.None?
  {
  }

  /** A single placed folder, spelled out. */
  lemma PlacedFolder(fs: FileSet, generate: FileSet -> FileSet, owpRoot: Path, root: Path, huc: string,
                     dateInput: Option<string>, ensureOwp: bool, generateIfMissing: bool, folders: seq<Folder>, after: FileSet)
    requires |folders| == 1 && Placed(fs, generate, owpRoot, root, huc, dateInput, ensureOwp, generateIfMissing, folders[0], after)
    ensures forall i :: 0 <= i < |folders| ==> folders[i].path == FolderPath(root, huc, folders[i].stamp)
    ensures !(ensureOwp && Truthy(dateInput)) ==> after == fs && forall i :: 0 <= i < |folders| ==> folders[i].owp.None?
    ensures ensureOwp && Truthy(dateInput) ==>
      var e := EnsureOwp(fs, generate, owpRoot, huc, dateInput.value, folders[0].path, generateIfMissing);
      e.Success? && folders[0].owp == e.value.path && after == e.value.fs
  {
  }


  // ---------------------------------------------------------- fim_lookup list

  const NoMatchIntro := "No" + " benchmark FIMs were matched with the information you provided.\n"
  const ListHeader := "Following" + " are the available benchmark data"

  /** `str(x)` of an optional string. */
  function PyStr(s: Option<string>): string {
    if s.Some? then s.value else "None"
  }

  /** `x or default`. */
  function OrElse(s: Option<string>, default: string): string {
    if Truthy(s) then s.value else default
  }

  /** The no-match text: the sentence, then the
      `(HUC=..., date=..., file_name=..., range=[...])` line. */
  function NoMatchText(hucId: string, dateInput: Option<string>, fileName: Option<string>,
                       startDate: Option<string>, endDate: Option<string>): (t: string)
    ensures StartsWith(t, NoMatchIntro)
  {
    var filters := "(HUC=" + hucId
      + (if Truthy(dateInput) then ", date=" + dateInput.value else "")
      + (if Truthy(fileName) then ", file_name=" + fileName.value else "")
      + (if Truthy(startDate) || Truthy(endDate) then ", range=[" + PyStr(startDate) + " , " + PyStr(endDate) + "]" else "")
      + ")";
    StartsWithAppend(NoMatchIntro, filters);
    NoMatchIntro + filters
  }

  /** The header line of the listing, naming the filters given. */
  function ListPrefix(hucId: string, dateInput: Option<string>, fileName: Option<string>,
                      startDate: Option<string>, endDate: Option<string>): (t: string)
    ensures StartsWith(t, ListHeader)
  {
    var filt :=
      (if |hucId| > 0 then ["HUC " + hucId] else []) +
      (if Truthy(dateInput) then ["date '" + dateInput.value + "'"] else []) +
      (if Truthy(startDate) || Truthy(endDate)
       then ["range [" + OrElse(startDate, "-∞") + " , " + OrElse(endDate, "∞") + "]"] else []) +
      (if Truthy(fileName) then ["file '" + fileName.value + "'"] else []);
    var tail := if |filt| > 0 then " for " + Join(filt, ", ") + ":\n" else ":\n";
    StartsWithAppend(ListHeader, tail);
    ListHeader + tail
  }

  /** The header and the listing `query` printed. */
  function ListAnswer(hucId: string, dateInput: Option<string>, fileName: Option<string>,
                      startDate: Option<string>, endDate: Option<string>, printable: string): (t: string)
    ensures StartsWith(t, ListHeader) && !StartsWith(t, NoMatchIntro)
  {
    var head := ListPrefix(hucId, dateInput, fileName, startDate, endDate);
    StartsWithExtend(head, ListHeader, printable);
    ListHeaderNotNoMatch(head + printable);
    head + printable
  }

  /** `fim_lookup(..., run_handfim=False)` as written, after `query` has answered
      with `q`: the no-match text when the printable listing is blank, else the
      header and the listing. */
  function LookupList(q: QueryReport, hucId: string, dateInput: Option<string>, fileName: Option<string>,
                      startDate: Option<string>, endDate: Option<string>): (t: string)
    ensures |Strip(q.printable)| == 0 <==> StartsWith(t, NoMatchIntro)
  {
    if |Strip(q.printable)| == 0 then NoMatchText(hucId, dateInput, fileName, startDate, endDate)
    else ListAnswer(hucId, dateInput, fileName, startDate, endDate, q.printable)
  }

  /** The two answers of the list mode begin differently. */
  lemma ListHeaderNotNoMatch(t: string)
    requires StartsWith(t, ListHeader)
    ensures !StartsWith(t, NoMatchIntro)
  {
    assert "Following"[0] == 'F' && "No"[0] == 'N';
    assert t[0] == t[..|ListHeader|][0] == ListHeader[0];
  }

  /** The no-match text of the list mode is unreachable: the printable listing
      `query` returns is never blank (it says "not matched" instead), so even a
      query that finds nothing is answered with the listing header. */
  lemma LookupListNeverNoMatch(records: seq<Record>, hucId: string, dateInput: Option<string>,
                               fileName: Option<string>, startDate: Option<string>, endDate: Option<string>)
    requires QueryHuc(records, hucId, dateInput, fileName, startDate, endDate).Success?
    ensures var q := QueryHuc(records, hucId, dateInput, fileName, startDate, endDate).value;
      !StartsWith(LookupList(q, hucId, dateInput, fileName, startDate, endDate), NoMatchIntro)
  {
    var q := QueryHuc(records, hucId, dateInput, fileName, startDate, endDate).value;
    StripNonBlank(q.printable);
  }

  /** A string whose first character is not whitespace does not strip to nothing. */
  lemma StripNonBlank(s: string)
    requires |s| > 0 && !IsSpace(s[0])
    ensures |Strip(s)| > 0
  {
    assert StripStart(s) == 0;
  }

  /** The list mode with the no-match branch keyed on what the query listed:
      the no-match text exactly when there is nothing to list. */
  function LookupListFixed(q: QueryReport, hucId: string, dateInput: Option<string>, fileName: Option<string>,
                           startDate: Option<string>, endDate: Option<string>): (t: string)
    ensures |q.listed| == 0 <==> StartsWith(t, NoMatchIntro)
  {
    if |q.listed| == 0 then NoMatchText(hucId, dateInput, fileName, startDate, endDate)
    else ListAnswer(hucId, dateInput, fileName, startDate, endDate, q.printable)
  }

  /** With the fix, a query that lists nothing gets the no-match text. */
  lemma LookupListFixedReports(records: seq<Record>, hucId: string, dateInput: Option<string>,
                               fileName: Option<string>, startDate: Option<string>, endDate: Option<string>)
    requires QueryHuc(records, hucId, dateInput, fileName, startDate, endDate).Success?
    ensures var q := QueryHuc(records, hucId, dateInput, fileName, startDate, endDate).value;
      var relaxed := FindRelaxed(records, Query(Strip(hucId), dateInput, fileName, startDate, endDate)).value;
      StartsWith(LookupListFixed(q, hucId, dateInput, fileName, startDate, endDate), NoMatchIntro) <==> |relaxed| == 0
  {
  }
}

=== FILE: forecast.dfy ===
/** National Water Model forecasts (`streamflowdata/forecasteddata.py`): which model
    cycle a request uses, which product files it asks the bucket for, how the
    download loop falls back to earlier cycles, and how the per-lead CSV files are
    renamed (short range) or grouped by day and reduced per reach (medium and long
    range). Downloads, NetCDF reading and CSV writing are left to the caller. */
module Forecast {
  import opened Wrappers
  import opened Text
  import opened Seqs
  import opened Dates
  import opened Sorting

  // --------------------------------------------------------------- ranges

  /** The `forecast_range` argument as `adjust_hour` and the per-range processing
      compare it: exactly one of three lower-case names, or another string. The
      folder name of the download step is worked out from the raw text instead
      (`ForecastType` below). */
  datatype Range = ShortRange | MediumRange | LongRange | OtherRange(name: string)

  function RangeOf(s: string): (r: Range)
    ensures r.OtherRange? ==> r.name == s
  {
    if s == "shortrange" then ShortRange
    else if s == "mediumrange" then MediumRange
    else if s == "longrange" then LongRange
    else OtherRange(s)
  }

  function RangeName(r: Range): string {
    match r
    case ShortRange => "shortrange"
    case MediumRange => "mediumrange"
    case LongRange => "longrange"
    case OtherRange(n) => n
  }

  /** Parsing a range name and printing it back are inverse. */
  lemma RangeNameOf(s: string)
    ensures RangeName(RangeOf(s)) == s
  {
  }

  /** The cycles of the medium- and long-range products. */
  const SynopticHours: seq<int> := [0, 6, 12, 18]

  /** `adjust_hour`: the short range clips to 23, the medium and long ranges fall back
      to the latest synoptic cycle not after `hour` (`None` where `max` of an empty
      sequence raises), any other range keeps the hour. */
  function AdjustHour(hour: int, range: Range): (r: Option<int>)
    ensures r.None? <==> (range == MediumRange || range == LongRange) && hour < 0
    ensures r.Some? ==> r.value <= hour || range == ShortRange
    ensures range == ShortRange ==> r.Some? && r.value <= 23 && r.value <= hour && (r.value == hour || r.value == 23)
    ensures (range == MediumRange || range == LongRange) && r.Some? ==>
              && r.value in SynopticHours && r.value <= hour
              && (forall c :: c in SynopticHours && c <= hour ==> c <= r.value)
    ensures range.OtherRange? ==> r == Some(hour)
  {
    match range
    case ShortRange => Some(if hour < 23 then hour else 23)
    case OtherRange(_) => Some(hour)
    case _ =>
      if hour < 0 then None
      else if hour < 6 then Some(0)
      else if hour < 12 then Some(6)
      else if hour < 18 then Some(12)
      else Some(18)
  }

  /** On a clock hour every range gets a cycle in `0..hour`, at most five hours
      back for the synoptic products, and adjusting again changes nothing. */
  lemma AdjustClockHour(hour: int, range: Range)
    requires 0 <= hour < 24
    ensures AdjustHour(hour, range).Some?
    ensures 0 <= AdjustHour(hour, range).value <= hour
    ensures range == MediumRange || range == LongRange ==> hour - AdjustHour(hour, range).value < 6
    ensures AdjustHour(AdjustHour(hour, range).value, range) == AdjustHour(hour, range)
  {
    var a := AdjustHour(hour, range).value;
    if range == MediumRange || range == LongRange {
      assert SynopticHours[0] == 0 && SynopticHours[1] == 6 && SynopticHours[2] == 12 && SynopticHours[3] == 18;
      assert a in SynopticHours;
    }
  }

  // ------------------------------------------------------------- products

  /** The first and last day on which the medium range is published as `medium_range`
      rather than as ensemble member `medium_range_mem1`. */
  const MediumWindowStart := Date(2018, 9, 17)
  const MediumWindowEnd := Date(2019, 6, 18)

  predicate InMediumWindow(d: Date) {
    !DateLt(d, MediumWindowStart) && !DateLt(MediumWindowEnd, d)
  }

  // ------------------------------------------------- range name rewriting

  /** `c` matches the lower-case ASCII letter `l` under `(?i)`: the letter, its
      capital, and the code points Python's case-insensitive matching also
      equates with `i` (dotted capital `İ`, dotless `ı`) and with `s` (long `ſ`). */
  predicate FoldsTo(c: char, l: char) {
    c == l || c as int == l as int - 32 ||
    (l == 'i' && (c == '\U{130}' || c == '\U{131}')) || (l == 's' && c == '\U{17F}')
  }

  /** The lower-case word `w` matches `s` at `i`, case ignored. */
  predicate WordAt(s: string, i: nat, w: string) {
    i + |w| <= |s| && forall k :: 0 <= k < |w| ==> FoldsTo(s[i + k], w[k])
  }

  /** The length of the match of `(?i)<w>range|<w>[-\s]?range` starting at `i`,
      if there is one: the first alternative, or the word, a dash or a blank,
      and `range`. (The second alternative without the separator is the first
      one again.) */
  function RangeMatch(s: string, i: nat, w: string): (n: Option<nat>)
    ensures n.Some? ==> n.value > 0 && i + n.value <= |s|
  {
    if WordAt(s, i, w + "range") then Some(|w| + 5)
    else if i + |w| < |s| && WordAt(s, i, w) && (s[i + |w|] == '-' || IsSpace(s[i + |w|])) && WordAt(s, i + |w| + 1, "range")
    then Some(|w| + 6)
    else None
  }

  /** `re.sub` of that pattern by `repl` on `s[i..]`: left to right, every
      match replaced, the text between the matches kept. */
  function SubFrom(s: string, i: nat, w: string, repl: string): string
    requires i <= |s|
    decreases |s| - i
  {
    if i == |s| then ""
    else
      match RangeMatch(s, i, w)
      case Some(n) => repl + SubFrom(s, i + n, w, repl)
      case None => [s[i]] + SubFrom(s, i + 1, w, repl)
  }

  function RangeSub(s: string, w: string, repl: string): string {
    SubFrom(s, 0, w, repl)
  }

  /** The whole argument is one spelling of `<w> range`. */
  predicate Spells(s: string, w: string) {
    RangeMatch(s, 0, w) == Some(|s|)
  }

  /** No spelling of `<w> range` starts anywhere in `s`. */
  predicate NoMatch(s: string, w: string) {
    forall i :: 0 <= i < |s| ==> RangeMatch(s, i, w).None?
  }

  /** The product folder `download_nc_files` looks in: the medium, short and
      long spellings rewritten in that order, the medium one by the day's
      folder name; anything else in the argument kept as it is. */
  function ForecastType(raw: string, d: Date): (t: string)
    requires Valid(d)
    ensures Spells(raw, "short") ==> t == "short_range"
    ensures Spells(raw, "long") ==> t == "long_range_mem1"
    ensures Spells(raw, "medium") ==> t == "medium_range" || t == "medium_range_mem1"
    ensures Spells(raw, "medium") ==>
              (t == "medium_range" <==> DayNumber(MediumWindowStart) <= DayNumber(d) <= DayNumber(MediumWindowEnd))
    ensures NoMatch(raw, "medium") && NoMatch(raw, "short") && NoMatch(raw, "long") ==> t == raw
  {
    var medium := if InMediumWindow(d) then "medium_range" else "medium_range_mem1";
    var t := Rewrites(raw, medium);
    ForecastTypeCases(raw, medium);
    DateLtIffDayNumber(d, MediumWindowStart);
    DateLtIffDayNumber(MediumWindowEnd, d);
    t
  }

  /** The three rewrites in order, as `download_nc_files` applies them. */
  function Rewrites(raw: string, medium: string): string {
    RangeSub(RangeSub(RangeSub(raw, "medium", medium), "short", "short_range"), "long", "long_range_mem1")
  }

  /** The three rewrites on the whole-argument spellings and on an argument
      with no spelling at all. */
  lemma ForecastTypeCases(raw: string, medium: string)
    requires medium == "medium_range" || medium == "medium_range_mem1"
    ensures Spells(raw, "short") ==> Rewrites(raw, medium) == "short_range"
    ensures Spells(raw, "long") ==> Rewrites(raw, medium) == "long_range_mem1"
    ensures Spells(raw, "medium") ==> Rewrites(raw, medium) == medium
    ensures NoMatch(raw, "medium") && NoMatch(raw, "short") && NoMatch(raw, "long") ==> Rewrites(raw, medium) == raw
  {
    if Spells(raw, "short") { ShortCase(raw, medium); }
    if Spells(raw, "long") { LongCase(raw, medium); }
    if Spells(raw, "medium") { MediumCase(raw, medium); }
    if NoMatch(raw, "medium") && NoMatch(raw, "short") && NoMatch(raw, "long") {
      SubUnchanged(raw, "medium", medium);
      SubUnchanged(raw, "short", "short_range");
      SubUnchanged(raw, "long", "long_range_mem1");
    }
  }

  lemma ShortCase(raw: string, medium: string)
    requires Spells(raw, "short")
    ensures Rewrites(raw, medium) == "short_range"
  {
    SpellingFolds(raw, "short");
    NoFoldsNoMatch(raw, "medium");
    SubUnchanged(raw, "medium", medium);
    SubSpelled(raw, "short", "short_range");
    NoFoldsNoMatch("short_range", "long");
    SubUnchanged("short_range", "long", "long_range_mem1");
  }

  lemma LongCase(raw: string, medium: string)
    requires Spells(raw, "long")
    ensures Rewrites(raw, medium) == "long_range_mem1"
  {
    SpellingFolds(raw, "long");
    NoFoldsNoMatch(raw, "medium");
    SubUnchanged(raw, "medium", medium);
    NoFoldsNoMatch(raw, "short");
    SubUnchanged(raw, "short", "short_range");
    SubSpelled(raw, "long", "long_range_mem1");
  }

  lemma MediumCase(raw: string, medium: string)
    requires medium == "medium_range" || medium == "medium_range_mem1"
    requires Spells(raw, "medium")
    ensures Rewrites(raw, medium) == medium
  {
    SubSpelled(raw, "medium", medium);
    MediumFolderKept(medium);
  }

  /** Neither medium folder name holds a short or a long spelling. */
  lemma MediumFolderKept(medium: string)
    requires medium == "medium_range" || medium == "medium_range_mem1"
    ensures RangeSub(RangeSub(medium, "short", "short_range"), "long", "long_range_mem1") == medium
  {
    NoFoldsNoMatch(medium, "short");
    SubUnchanged(medium, "short", "short_range");
    NoFoldsNoMatch(medium, "long");
    SubUnchanged(medium, "long", "long_range_mem1");
  }

  /** Three spellings a user may type: the dashed and run-together medium
      range, by day inside and outside the ensemble window, and the spaced
      short range. */
  lemma ForecastTypeExamples()
    ensures ForecastType("medium-range", Date(2019, 1, 1)) == "medium_range"
    ensures ForecastType("MediumRange", Date(2020, 1, 1)) == "medium_range_mem1"
    ensures ForecastType("Short Range", Date(2020, 1, 1)) == "short_range"
  {
    DashedMedium();
    JoinedMedium();
    SpacedShort();
    assert DayNumber(MediumWindowStart) <= DayNumber(Date(2019, 1, 1)) <= DayNumber(MediumWindowEnd) by {
      DateLtIffDayNumber(Date(2019, 1, 1), MediumWindowStart);
      DateLtIffDayNumber(MediumWindowEnd, Date(2019, 1, 1));
    }
    assert DayNumber(MediumWindowEnd) < DayNumber(Date(2020, 1, 1)) by {
      DateLtIffDayNumber(MediumWindowEnd, Date(2020, 1, 1));
    }
  }

  lemma DashedMedium()
    ensures Spells("medium-range", "medium")
  {
    var a := "medium-range";
    assert "medium" + "range" == "mediumrange";
    assert !WordAt(a, 0, "mediumrange") by { assert !FoldsTo(a[6], "mediumrange"[6]); }
    forall k | 0 <= k < 6 ensures FoldsTo(a[k], "medium"[k]) {
      assert k == 0 || k == 1 || k == 2 || k == 3 || k == 4 || k == 5;
    }
    forall k | 0 <= k < 5 ensures FoldsTo(a[7 + k], "range"[k]) {
      assert k == 0 || k == 1 || k == 2 || k == 3 || k == 4;
    }
    assert WordAt(a, 0, "medium") && a[6] == '-' && WordAt(a, 7, "range");
  }

  lemma JoinedMedium()
    ensures Spells("MediumRange", "medium")
  {
    var b := "MediumRange";
    assert "medium" + "range" == "mediumrange";
    forall k | 0 <= k < 11 ensures FoldsTo(b[k], "mediumrange"[k]) {
      assert k == 0 || k == 1 || k == 2 || k == 3 || k == 4 || k == 5 || k == 6 || k == 7 || k == 8 || k == 9 || k == 10;
    }
  }

  lemma SpacedShort()
    ensures Spells("Short Range", "short")
  {
    var c := "Short Range";
    assert "short" + "range" == "shortrange";
    assert !WordAt(c, 0, "shortrange") by { assert !FoldsTo(c[5], "shortrange"[5]); }
    assert IsSpace(c[5]);
    forall k | 0 <= k < 5 ensures FoldsTo(c[k], "short"[k]) {
      assert k == 0 || k == 1 || k == 2 || k == 3 || k == 4;
    }
    forall k | 0 <= k < 5 ensures FoldsTo(c[6 + k], "range"[k]) {
      assert k == 0 || k == 1 || k == 2 || k == 3 || k == 4;
    }
    assert WordAt(c, 0, "short") && WordAt(c, 6, "range");
  }

  /** A whole-argument spelling is replaced as a whole. */
  lemma SubSpelled(s: string, w: string, repl: string)
    requires Spells(s, w) && |s| > 0
    ensures RangeSub(s, w, repl) == repl
  {
    assert SubFrom(s, |s|, w, repl) == "";
  }

  /** A rewrite leaves a string without a match alone, and changes any string
      with a match, because its replacement has `_` where a match has `r`, a
      dash or a blank. */
  lemma SubChangesExactlyOnMatch(s: string, w: string, repl: string)
    requires |repl| > |w| && repl[|w|] == '_'
    ensures RangeSub(s, w, repl) == s <==> NoMatch(s, w)
  {
    if NoMatch(s, w) {
      SubUnchanged(s, w, repl);
    } else {
      var k :| 0 <= k < |s| && RangeMatch(s, k, w).Some?;
      SubChanges(s, 0, w, repl, k);
      assert s[0..] == s;
    }
  }

  lemma SubUnchanged(s: string, w: string, repl: string)
    requires NoMatch(s, w)
    ensures RangeSub(s, w, repl) == s
  {
    SubSkips(s, 0, |s|, w, repl);
    assert s[0..|s|] == s;
  }

  /** Positions without a match are copied one character at a time. */
  lemma {:induction false} SubSkips(s: string, i: nat, p: nat, w: string, repl: string)
    requires i <= p <= |s| && forall k :: i <= k < p ==> RangeMatch(s, k, w).None?
    ensures SubFrom(s, i, w, repl) == s[i..p] + SubFrom(s, p, w, repl)
    decreases p - i
  {
    if i < p {
      assert RangeMatch(s, i, w).None?;
      assert SubFrom(s, i, w, repl) == [s[i]] + SubFrom(s, i + 1, w, repl);
      SubSkips(s, i + 1, p, w, repl);
      assert s[i..p] == [s[i]] + s[i + 1..p];
    }
  }

  /** A match at or after `i` makes the rewrite of `s[i..]` differ from it. */
  lemma {:induction false} SubChanges(s: string, i: nat, w: string, repl: string, k: nat)
    requires |repl| > |w| && repl[|w|] == '_'
    requires i <= k < |s| && RangeMatch(s, k, w).Some?
    ensures SubFrom(s, i, w, repl) != s[i..]
    decreases |s| - i
  {
    match RangeMatch(s, i, w)
    case Some(n) =>
      var rest := SubFrom(s, i + n, w, repl);
      assert SubFrom(s, i, w, repl) == repl + rest;
      MatchSeparator(s, i, w);
      assert (repl + rest)[|w|] == '_';
      assert s[i..][|w|] == s[i + |w|];
    case None =>
      assert k != i;
      SubChanges(s, i + 1, w, repl, k);
      assert s[i..] == [s[i]] + s[i + 1..];
  }

  /** Right after the word a match has an `r` or a separator, never `_`. */
  lemma MatchSeparator(s: string, i: nat, w: string)
    requires RangeMatch(s, i, w).Some?
    ensures i + |w| < |s| && s[i + |w|] != '_'
  {
    if WordAt(s, i, w + "range") {
      assert (w + "range")[|w|] == 'r';
      assert FoldsTo(s[i + |w|], 'r');
    }
  }

  /** No character of `s` matches `l`. */
  predicate NoFolds(s: string, l: char) {
    forall i :: 0 <= i < |s| ==> !FoldsTo(s[i], l)
  }

  /** Without a character matching the word's first letter there is no match. */
  lemma NoFoldsNoMatch(s: string, w: string)
    requires |w| > 0 && NoFolds(s, w[0])
    ensures NoMatch(s, w)
  {
    forall i | 0 <= i < |s|
      ensures RangeMatch(s, i, w).None?
    {
      assert (w + "range")[0] == w[0];
    }
  }

  /** Two lower-case letters a character matches are the same letter. */
  lemma FoldsUnique(c: char, a: char, b: char)
    requires 'a' <= a <= 'z' && 'a' <= b <= 'z' && FoldsTo(c, a) && FoldsTo(c, b)
    ensures a == b
  {
  }

  /** The characters of a whole-argument spelling of `short`, `long` match only
      letters of `shortrange`, `longrange`, so none matches `m`, and those of
      `long` none matching `s`. */
  lemma SpellingFolds(s: string, w: string)
    requires w == "short" || w == "long"
    requires Spells(s, w)
    ensures NoFolds(s, 'm')
    ensures w == "long" ==> NoFolds(s, 's')
  {
    var full := w + "range";
    forall i | 0 <= i < |s|
      ensures !FoldsTo(s[i], 'm') && (w == "long" ==> !FoldsTo(s[i], 's'))
    {
      if WordAt(s, 0, full) {
        assert FoldsTo(s[i], full[i]);
        LetterOf(w, i);
        if FoldsTo(s[i], 'm') { FoldsUnique(s[i], full[i], 'm'); }
        if w == "long" && FoldsTo(s[i], 's') { FoldsUnique(s[i], full[i], 's'); }
      } else if i < |w| {
        assert FoldsTo(s[i], w[i]);
        LetterOf(w, i);
        if FoldsTo(s[i], 'm') { FoldsUnique(s[i], w[i], 'm'); }
        if w == "long" && FoldsTo(s[i], 's') { FoldsUnique(s[i], w[i], 's'); }
      } else if i > |w| {
        assert FoldsTo(s[i], "range"[i - |w| - 1]);
        LetterOf("", i - |w| - 1);
        if FoldsTo(s[i], 'm') { FoldsUnique(s[i], "range"[i - |w| - 1], 'm'); }
        if w == "long" && FoldsTo(s[i], 's') { FoldsUnique(s[i], "range"[i - |w| - 1], 's'); }
      }
    }
  }

  /** The letters of `shortrange`, `longrange` and `range`: lower case, never
      `m`, and never `s` outside `short`. */
  lemma LetterOf(w: string, i: nat)
    requires w == "short" || w == "long" || w == ""
    requires i < |w| + 5
    ensures var c := (w + "range")[i];
      'a' <= c <= 'z' && c != 'm' && (w != "short" ==> c != 's')
  {
  }

  /** One product's file naming: the stem between cycle and lead, and leads
      `step, 2*step, ..., count*step`. */
  datatype Product = Product(stem: string, step: nat, count: nat)

  const ShortStem := "short_range.channel_rt"
  const MediumStem := "medium_range.channel_rt"
  const MediumMemberStem := "medium_range.channel_rt_1"
  const LongStem := "long_range.channel_rt_1"

  /** A stem in which no `.f` can start a lead mark. */
  predicate NoLeadMark(stem: string) {
    && |stem| > 0 && stem[0] != 'f'
    && forall i, j :: 0 <= i < |stem| && j == i + 1 && j < |stem| && stem[i] == '.' ==> stem[j] != 'f'
  }

  /** The products `download_nc_files` knows; `None` where `forecast_range_files` is never bound. */
  function ProductOf(t: string): (p: Option<Product>)
    ensures p.Some? <==> t in {"short_range", "medium_range", "medium_range_mem1", "long_range_mem1"}
    ensures p.Some? ==> p.value.step > 0 && NoLeadMark(p.value.stem) && p.value.step * p.value.count < 1000
  {
    assert NoLeadMark(ShortStem) && NoLeadMark(MediumStem) && NoLeadMark(MediumMemberStem) && NoLeadMark(LongStem);
    if t == "short_range" then Some(Product(ShortStem, 1, 17))
    else if t == "medium_range" then Some(Product(MediumStem, 3, 79))
    else if t == "medium_range_mem1" then Some(Product(MediumMemberStem, 3, 79))
    else if t == "long_range_mem1" then Some(Product(LongStem, 6, 119))
    else None
  }

  /** `nwm.t{cycle:02d}z.` */
  function CycleHead(cycle: int): string {
    "nwm.t" + PadInt(cycle, 2) + "z."
  }

  /** A product file name: cycle, stem, lead mark `.fNNN.` and whatever follows it. */
  function LeadName(cycle: int, stem: string, lead: int, tail: string): string {
    CycleHead(cycle) + stem + ".f" + PadInt(lead, 3) + "." + tail
  }

  /** The files `download_nc_files` requests for product `t` and cycle `cycle`. */
  function ExpectedFiles(t: string, cycle: int): (r: Option<seq<string>>)
    ensures r.Some? <==> ProductOf(t).Some?
    ensures r.Some? ==> |r.value| == ProductOf(t).value.count
    ensures r.Some? ==> forall i :: 0 <= i < |r.value| ==>
              ParseLead(r.value[i]) == Some(ProductOf(t).value.step * (i + 1))
    ensures r.Some? ==> NoDup(r.value)
  {
    match ProductOf(t)
    case None => None
    case Some(p) =>
      var files := seq(p.count, i requires 0 <= i < p.count => LeadName(cycle, p.stem, p.step * (i + 1), "conus.nc"));
      forall i | 0 <= i < p.count
        ensures ParseLead(files[i]) == Some(p.step * (i + 1))
      {
        MulMonotone(p.step, i + 1, p.count);
        assert files[i] == LeadName(cycle, p.stem, p.step * (i + 1), "conus.nc");
        ParseLeadOfName(cycle, p.stem, p.step * (i + 1), "conus.nc");
      }
      forall i, j | 0 <= i < j < |files|
        ensures files[i] != files[j]
      {
        assert p.step * (j + 1) == p.step * (i + 1) + p.step * (j - i);
        assert p.step * (j - i) >= j - i;
      }
      Some(files)
  }

  /** The three lists: leads f001..f017 hourly for the short range, f003..f237 every
      three hours for both medium-range folders, f006..f714 every six hours for the
      long range; every name starts with the zero-padded cycle `nwm.tHHz.`. */
  lemma ExpectedFileLeads(t: string, cycle: int)
    requires ProductOf(t).Some?
    ensures var fs := ExpectedFiles(t, cycle).value;
      && (t == "short_range" ==> |fs| == 17 && forall i :: 0 <= i < |fs| ==> ParseLead(fs[i]) == Some(i + 1))
      && (t == "medium_range" || t == "medium_range_mem1" ==>
            |fs| == 79 && forall i :: 0 <= i < |fs| ==> ParseLead(fs[i]) == Some(3 * i + 3))
      && (t == "long_range_mem1" ==> |fs| == 119 && forall i :: 0 <= i < |fs| ==> ParseLead(fs[i]) == Some(6 * i + 6))
    ensures forall f :: f in ExpectedFiles(t, cycle).value ==> StartsWith(f, CycleHead(cycle))
  {
    var p := ProductOf(t).value;
    var fs := ExpectedFiles(t, cycle).value;
    forall f | f in fs
      ensures StartsWith(f, CycleHead(cycle))
    {
      var i :| 0 <= i < |fs| && fs[i] == f;
      assert f == LeadName(cycle, p.stem, p.step * (i + 1), "conus.nc");
      LeadNameCycle(cycle, p.stem, p.step * (i + 1), "conus.nc");
    }
  }

  lemma LeadNameCycle(cycle: int, stem: string, lead: int, tail: string)
    ensures StartsWith(LeadName(cycle, stem, lead, tail), CycleHead(cycle))
  {
    var h := CycleHead(cycle);
    StartsWithAppend(h, stem);
    StartsWithExtend(h + stem, h, ".f");
    StartsWithExtend(h + stem + ".f", h, PadInt(lead, 3));
    StartsWithExtend(h + stem + ".f" + PadInt(lead, 3), h, ".");
    StartsWithExtend(h + stem + ".f" + PadInt(lead, 3) + ".", h, tail);
  }

  lemma MulMonotone(a: nat, b: nat, c: nat)
    requires b <= c
    ensures a * b <= a * c
  {
    assert a * c == a * b + a * (c - b);
  }

  // ----------------------------------------------------------- lead marks

  /** The regex `\.f(\d{3})\.` matches at position `i`. */
  predicate LeadAt(s: string, i: nat) {
    i + 6 <= |s| && s[i] == '.' && s[i + 1] == 'f' && IsDigit(s[i + 2]) && IsDigit(s[i + 3]) && IsDigit(s[i + 4]) && s[i + 5] == '.'
  }

  /** `re.search(r"\.f(\d{3})\.", s[i:])`, converted with `int`. */
  function LeadFrom(s: string, i: nat): (r: Option<int>)
    ensures r.Some? ==> 0 <= r.value < 1000
    decreases |s| - i
  {
    if i + 6 > |s| then None
    else if LeadAt(s, i) then
      DigitsValBound(s[i + 2..i + 5]);
      assert Pow10(3) == 1000;
      Some(DigitsVal(s[i + 2..i + 5]))
    else LeadFrom(s, i + 1)
  }

  /** `LeadFrom` is a leftmost search: it finds nothing exactly when no mark starts at
      or after `i`, and otherwise reads the first such mark. */
  lemma {:induction false} LeadFromSearches(s: string, i: nat)
    ensures LeadFrom(s, i).None? <==> forall j :: i <= j ==> !LeadAt(s, j)
    ensures LeadFrom(s, i).Some? ==>
              exists j :: i <= j && LeadAt(s, j) && (forall k :: i <= k < j ==> !LeadAt(s, k))
                          && LeadFrom(s, i).value == DigitsVal(s[j + 2..j + 5])
    decreases |s| - i
  {
    if i + 6 <= |s| && !LeadAt(s, i) {
      LeadFromSearches(s, i + 1);
      if LeadFrom(s, i).Some? {
        var j :| i + 1 <= j && LeadAt(s, j) && (forall k :: i + 1 <= k < j ==> !LeadAt(s, k))
                 && LeadFrom(s, i).value == DigitsVal(s[j + 2..j + 5]);
        assert forall k :: i <= k < j ==> !LeadAt(s, k);
      }
    }
  }

  /** The forecast lead of a file name: the first lead mark's number. */
  function ParseLead(s: string): (r: Option<int>)
    ensures r.Some? ==> 0 <= r.value < 1000
  {
    LeadFrom(s, 0)
  }

  predicate HasLead(s: string) {
    ParseLead(s).Some?
  }

  function LeadOf(s: string): (lead: int)
    requires HasLead(s)
    ensures 0 <= lead < 1000
  {
    ParseLead(s).value
  }

  /** The first lead mark at or after `i` is at `k`. */
  lemma LeadFromFirst(s: string, i: nat, k: nat)
    requires i <= k && LeadAt(s, k) && forall j :: i <= j < k ==> !LeadAt(s, j)
    ensures LeadFrom(s, i) == Some(DigitsVal(s[k + 2..k + 5]))
  {
    LeadFromSearches(s, i);
    var r := LeadFrom(s, i);
    var j :| i <= j && LeadAt(s, j) && (forall m :: i <= m < j ==> !LeadAt(s, m)) && r.value == DigitsVal(s[j + 2..j + 5]);
    assert j == k;
  }

  lemma PadIntNoDot(n: int, w: nat)
    ensures forall j :: 0 <= j < |PadInt(n, w)| ==> PadInt(n, w)[j] != '.'
  {
    if n < 0 {
      assert PadInt(n, w) == "-" + ZeroPad(NatStr(-n), w - 1);
    }
  }

  /** In `nwm.tCCz.` only the fourth and the last characters are dots. */
  lemma CycleHeadDots(cycle: int)
    ensures |CycleHead(cycle)| >= 9 && CycleHead(cycle)[4] == 't'
    ensures CycleHead(cycle)[|CycleHead(cycle)| - 1] == '.'
    ensures forall j :: 0 <= j < |CycleHead(cycle)| && CycleHead(cycle)[j] == '.' ==> j == 3 || j == |CycleHead(cycle)| - 1
  {
    var c := PadInt(cycle, 2);
    PadIntNoDot(cycle, 2);
    var h := CycleHead(cycle);
    assert |c| >= 2 by {
      if cycle >= 0 {
        assert |NatStr(cycle)| >= 1;
      }
    }
    forall j | 0 <= j < |h|
      ensures h[j] == '.' ==> j == 3 || j == |h| - 1
    {
      if 5 <= j < 5 + |c| {
        assert h[j] == c[j - 5];
      }
    }
  }

  /** No `.f` pair inside `pre`, and `pre` is followed by a dot. */
  predicate NoDotF(pre: string) {
    forall j, k :: 0 <= j < |pre| && k == j + 1 && k < |pre| && pre[j] == '.' ==> pre[k] != 'f'
  }

  /** A lead mark cannot start inside a prefix free of `.f` that is followed by a dot. */
  lemma NoLeadBefore(pre: string, rest: string)
    requires NoDotF(pre) && |rest| > 0 && rest[0] == '.'
    ensures forall j :: 0 <= j < |pre| ==> !LeadAt(pre + rest, j)
  {
    var s := pre + rest;
    forall j | 0 <= j < |pre|
      ensures !LeadAt(s, j)
    {
      if j + 1 < |pre| {
        assert s[j] == pre[j] && s[j + 1] == pre[j + 1];
      } else {
        assert s[j + 1] == rest[0];
      }
    }
  }

  /** A cycle head followed by a stem that starts no lead mark has no `.f` pair. */
  lemma HeadStemNoDotF(cycle: int, stem: string)
    requires NoLeadMark(stem)
    ensures NoDotF(CycleHead(cycle) + stem)
  {
    var h := CycleHead(cycle);
    CycleHeadDots(cycle);
    forall j, k | 0 <= j < |h| && k == j + 1 && k < |h|
      ensures h[j] == '.' ==> h[k] != 'f'
    {
      if j == 3 {
        assert h[k] == h[4];
      }
    }
    NoDotFConcat(h, stem);
  }

  /** Joining two strings free of `.f` creates one only across the seam. */
  lemma NoDotFConcat(a: string, b: string)
    requires NoDotF(a) && NoDotF(b) && |a| > 0 && |b| > 0 && b[0] != 'f'
    ensures NoDotF(a + b)
  {
    var s := a + b;
    forall j, k | 0 <= j < |s| && k == j + 1 && k < |s|
      ensures s[j] == '.' ==> s[k] != 'f'
    {
      if k < |a| {
        assert s[j] == a[j] && s[k] == a[k];
      } else if j >= |a| {
        assert s[j] == b[j - |a|] && s[k] == b[k - |a|];
      } else {
        assert s[k] == b[0];
      }
    }
  }

  /** A three-digit lead mark right after a prefix free of `.f` is the first one. */
  lemma LeadAfter(pre: string, d: string, tail: string)
    requires NoDotF(pre) && |d| == 3 && AllDigits(d)
    ensures ParseLead(pre + (".f" + d + "." + tail)) == Some(DigitsVal(d))
  {
    var rest := ".f" + d + "." + tail;
    var s := pre + rest;
    NoLeadBefore(pre, rest);
    var k := |pre|;
    assert s[k] == '.' && s[k + 1] == 'f' && s[k + 5] == '.';
    assert s[k + 2..k + 5] == d;
    LeadFromFirst(s, 0, k);
  }

  /** Reading the lead back from a generated name gives the lead it was written with. */
  lemma ParseLeadOfName(cycle: int, stem: string, lead: int, tail: string)
    requires NoLeadMark(stem) && 0 <= lead < 1000
    ensures ParseLead(LeadName(cycle, stem, lead, tail)) == Some(lead)
  {
    var d := PadInt(lead, 3);
    assert Pow10(3) == 1000;
    NatStrLength(lead, 3);
    PadIntValue(lead, 3);
    HeadStemNoDotF(cycle, stem);
    assert LeadName(cycle, stem, lead, tail) == (CycleHead(cycle) + stem) + (".f" + d + "." + tail);
    LeadAfter(CycleHead(cycle) + stem, d, tail);
  }

  // --------------------------------------------------------- retry loop

  /** The hour the `k`-th retry (0-based) asks for: one less each time, modulo 24. */
  function TriedHour(hour0: int, k: nat): int {
    if k == 0 then hour0 else (hour0 - k) % 24
  }

  /** The date the `k`-th retry asks for, as written: the requested date until the hour
      first wraps to 23, and from then on the day before `today`. */
  function TriedDate(start: Date, hour0: int, today: Date, k: nat): Date
    requires Valid(today)
  {
    if k > hour0 % 24 then PrevDay(today) else start
  }

  /** Stepping an hour back modulo 24 lands on 23 exactly at the wrap. */
  lemma HourWraps(hour0: int, k: nat)
    requires 1 <= k <= 24
    ensures (TriedHour(hour0, k - 1) - 1) % 24 == TriedHour(hour0, k)
    ensures TriedHour(hour0, k) == 23 <==> k == hour0 % 24 + 1
  {
    var m := hour0 % 24;
    var q := hour0 / 24;
    if m - k >= 0 {
      ModOf(hour0 - k, q, m - k);
    } else {
      ModOf(hour0 - k, q - 1, m - k + 24);
    }
    if k > 1 {
      var a := hour0 - (k - 1);
      var ma := a % 24;
      if ma >= 1 {
        ModOf(a - 1, a / 24, ma - 1);
        ModOf(ma - 1, 0, ma - 1);
      } else {
        ModOf(a - 1, a / 24 - 1, 23);
        ModOf(ma - 1, -1, 23);
      }
    }
  }

  /** Euclidean remainders are unique. */
  lemma ModOf(x: int, q: int, r: int)
    requires x == 24 * q + r && 0 <= r < 24
    ensures x % 24 == r
  {
  }

  /** The download loop of `main`, as written: up to 24 attempts, each one hour earlier;
      when the hour wraps past midnight the date becomes yesterday (relative to
      `today`, the clock's date). `succeeds` says whether an attempt reports success. */
  method RetryDownload(start: Date, hour0: int, today: Date, succeeds: (Date, int) -> bool)
    returns (success: bool, date: Date, hour: int, attempts: nat)
    requires Valid(today)
    ensures 1 <= attempts <= 24
    ensures forall k :: 0 <= k < attempts - 1 ==> !succeeds(TriedDate(start, hour0, today, k), TriedHour(hour0, k))
    ensures success <==> succeeds(TriedDate(start, hour0, today, attempts - 1), TriedHour(hour0, attempts - 1))
    ensures !success ==> attempts == 24
    ensures success ==> date == TriedDate(start, hour0, today, attempts - 1) && hour == TriedHour(hour0, attempts - 1)
  {
    success, date, hour, attempts := false, start, hour0, 0;
    while !success && attempts < 24
      invariant 0 <= attempts <= 24
      invariant success ==> attempts >= 1
      invariant forall k :: 0 <= k < attempts - 1 ==> !succeeds(TriedDate(start, hour0, today, k), TriedHour(hour0, k))
      invariant attempts >= 1 ==> (success <==> succeeds(TriedDate(start, hour0, today, attempts - 1), TriedHour(hour0, attempts - 1)))
      invariant success ==> date == TriedDate(start, hour0, today, attempts - 1) && hour == TriedHour(hour0, attempts - 1)
      invariant !success ==> date == TriedDate(start, hour0, today, attempts) && hour == TriedHour(hour0, attempts)
      decreases 24 - attempts
    {
      attempts := attempts + 1;
      success := succeeds(date, hour);
      if !success {
        HourWraps(hour0, attempts);
        hour := (hour - 1) % 24;
        if hour == 23 {
          date := PrevDay(today);
        }
      }
    }
  }

  /** The as-written loop loses the requested date: after a failed midnight cycle of
      any day other than today it asks for yesterday's 23:00 run, not the previous
      hour's. */
  lemma RetryForgetsRequestedDay(start: Date, today: Date)
    requires Valid(start) && Valid(today) && DayNumber(start) != DayNumber(today)
    ensures ValidTime(DateTime(TriedDate(start, 0, today, 1), TriedHour(0, 1), 0, 0))
    ensures HourNumber(DateTime(TriedDate(start, 0, today, 1), TriedHour(0, 1), 0, 0))
         != HourNumber(DateTime(start, 0, 0, 0)) - 1
  {
    PrevDayCount(today);
  }

  /** `t` moved back by `k` hours. */
  function HoursBack(t: DateTime, k: nat): (r: DateTime)
    requires ValidTime(t)
    ensures ValidTime(r)
  {
    if k == 0 then t else PrevHour(HoursBack(t, k - 1))
  }

  /** Each step back is exactly one hour, so `HoursBack(t, k)` is `k` hours before `t`. */
  lemma {:induction false} HoursBackCount(t: DateTime, k: nat)
    requires ValidTime(t)
    ensures HourNumber(HoursBack(t, k)) == HourNumber(t) - k
  {
    if k > 0 {
      var p := HoursBack(t, k - 1);
      HoursBackCount(t, k - 1);
      PrevHourCount(p);
      assert HoursBack(t, k) == PrevHour(p);
    }
  }

  /** Whether the attempt `k` hours back from `start` succeeds. */
  function AttemptOk(start: DateTime, succeeds: (Date, int) -> bool): nat -> bool
    requires ValidTime(start)
  {
    (k: nat) => succeeds(HoursBack(start, k).date, HoursBack(start, k).hour)
  }

  /** The first `n` hourly attempts back from `start` all fail. */
  predicate FailsFirst(start: DateTime, succeeds: (Date, int) -> bool, n: nat)
    requires ValidTime(start)
  {
    FailsUpTo(AttemptOk(start, succeeds), n)
  }

  /** `FailsFirst` says that each of the first `n` attempts, `k` hours back, fails. */
  lemma FailsFirstAll(start: DateTime, succeeds: (Date, int) -> bool, n: nat)
    requires ValidTime(start)
    ensures FailsFirst(start, succeeds, n)
        <==> forall k: nat :: k < n ==> !succeeds(HoursBack(start, k).date, HoursBack(start, k).hour)
  {
    var ok := AttemptOk(start, succeeds);
    FailsUpToAll(ok, n);
    assert FailsFirst(start, succeeds, n) == FailsUpTo(ok, n);
    if FailsUpTo(ok, n) {
      forall k: nat | k < n
        ensures !succeeds(HoursBack(start, k).date, HoursBack(start, k).hour)
      {
        assert !ok(k);
      }
    } else {
      var k: nat :| k < n && ok(k);
      assert succeeds(HoursBack(start, k).date, HoursBack(start, k).hour);
    }
  }

  /** None of `ok(0) .. ok(n - 1)` holds, stated step by step. */
  predicate FailsUpTo(ok: nat -> bool, n: nat) {
    n == 0 || (FailsUpTo(ok, n - 1) && !ok(n - 1))
  }

  lemma {:induction false} FailsUpToAll(ok: nat -> bool, n: nat)
    ensures FailsUpTo(ok, n) <==> forall k: nat :: k < n ==> !ok(k)
  {
    if n > 0 {
      FailsUpToAll(ok, n - 1);
    }
  }

  /** The retry loop as evidently intended: each attempt is exactly one hour before
      the previous one, so the date steps back from the requested date. */
  method RetryDownloadFixed(start: DateTime, succeeds: (Date, int) -> bool)
    returns (success: bool, tried: DateTime, attempts: nat)
    requires ValidTime(start)
    ensures 1 <= attempts <= 24
    ensures tried == HoursBack(start, attempts - 1)
    ensures FailsFirst(start, succeeds, attempts - 1)
    ensures success <==> succeeds(tried.date, tried.hour)
    ensures !success ==> attempts == 24
  {
    success, tried, attempts := false, start, 0;
    var next := start;
    while !success && attempts < 24
      invariant 0 <= attempts <= 24
      invariant next == HoursBack(start, attempts)
      invariant !success ==> FailsFirst(start, succeeds, attempts)
      invariant !success && attempts >= 1 ==> tried == HoursBack(start, attempts - 1) && !succeeds(tried.date, tried.hour)
      invariant success ==> attempts >= 1 && tried == HoursBack(start, attempts - 1) && succeeds(tried.date, tried.hour)
      invariant success ==> FailsFirst(start, succeeds, attempts - 1)
      decreases 24 - attempts
    {
      tried := next;
      success := succeeds(tried.date, tried.hour);
      attempts := attempts + 1;
      next := PrevHour(next);
    }
    assert attempts >= 1;
  }

  // ----------------------------------------------------------- downloads

  /** How one file request ends: saved, answered 404 (which `download_public_file`
      returns from silently), or raised a request error. */
  datatype Fetch = Saved | NotFound | Failed

  /** `download_nc_files` after the requests: the files it lists as downloaded and
      its success flag. */
  datatype Downloads = Downloads(listed: seq<string>, success: bool)

  /** As written: every request that did not raise counts, a 404 included. */
  function DownloadFiles(files: seq<string>, fetch: string -> Fetch): (r: Downloads)
    ensures IsSubseq(r.listed, files)
    ensures forall f :: f in r.listed <==> f in files && fetch(f) != Failed
    ensures r.success <==> exists f :: f in files && fetch(f) != Failed
  {
    var listed := Filter(files, f => fetch(f) != Failed);
    Downloads(listed, |listed| > 0)
  }

  /** The files actually written to disk. */
  function SavedFiles(files: seq<string>, fetch: string -> Fetch): (r: seq<string>)
    ensures forall f :: f in r <==> f in files && fetch(f) == Saved
  {
    Filter(files, f => fetch(f) == Saved)
  }

  /** A cycle the bucket does not have (every file 404) is reported as a success with
      nothing saved, so the retry loop stops at it. */
  lemma MissingCycleCountsAsSuccess(files: seq<string>, fetch: string -> Fetch)
    requires |files| > 0 && forall f :: f in files ==> fetch(f) == NotFound
    ensures DownloadFiles(files, fetch).success
    ensures |SavedFiles(files, fetch)| == 0
  {
    assert files[0] in files;
    assert forall f :: f !in SavedFiles(files, fetch);
  }

  /** As evidently intended: the listing and the flag count saved files only. */
  function DownloadFilesFixed(files: seq<string>, fetch: string -> Fetch): (r: Downloads)
    ensures forall f :: f in r.listed <==> f in files && fetch(f) == Saved
    ensures r.success <==> |SavedFiles(files, fetch)| > 0
    ensures r.success <==> exists f :: f in files && fetch(f) == Saved
  {
    var listed := SavedFiles(files, fetch);
    assert |listed| > 0 ==> listed[0] in listed;
    Downloads(listed, |listed| > 0)
  }

  // ------------------------------------------------------ requested date

  /** The `forecast_date` `main` works with: a given `%Y-%m-%d` string parsed (`None`
      where `strptime` raises), otherwise the clock's `today`. */
  function ForecastDay(given: Option<string>, today: Date): (r: Option<Date>)
    requires Valid(today) && 1 <= today.year <= 9999
    ensures r.Some? ==> Valid(r.value) && 1 <= r.value.year <= 9999
    ensures r.Some? ==> StrptimeCompact(Ymd(r.value)) == r
    ensures !Truthy(given) ==> r == Some(today)
    ensures Truthy(given) ==> r == StrptimeIso(given.value)
  {
    var d := if Truthy(given) then StrptimeIso(given.value) else Some(today);
    if d.Some? then StrptimeCompactOfYmd(d.value); d else d
  }

  /** A date given in ISO form is the date used. */
  lemma ForecastDayOfIso(d: Date, today: Date)
    requires Valid(d) && 1 <= d.year <= 9999 && Valid(today) && 1 <= today.year <= 9999
    ensures ForecastDay(Some(IsoDate(d)), today) == Some(d)
  {
    StrptimeIsoOfIsoDate(d);
    IsoDateShape(d);
  }

  // ------------------------------------------------------- CSV selection

  /** The CSV files of one cycle and product family, in sorted order (the listing of a
      directory has no repeated names, so `sorted` is `sorted(set(...))`). */
  function CycleCsvs(listing: seq<string>, cycle: int, family: string): (r: seq<string>)
    ensures StrictlySorted(r)
    ensures forall f :: f in r <==> f in listing && EndsWith(f, ".csv") && StartsWith(f, CycleHead(cycle) + family)
  {
    SortedUniq(Filter(listing, f => EndsWith(f, ".csv") && StartsWith(f, CycleHead(cycle) + family)))
  }

  // --------------------------------------------------- short-range renames

  /** A short-range CSV and where it is filed: `shift` days after the forecast date, at `hour`. */
  datatype Renamed = Renamed(source: string, shift: int, hour: int)

  /** The short-range loop of `ProcessForecasts`, as written, over the listed files that
      carry a lead mark (the others are skipped): the hour is reduced modulo 24, and the
      day advances only when a reduced hour is exactly 0. */
  function ShortRenames(leads: seq<string>, base: int, shift: int): (r: seq<Renamed>)
    requires base >= 0 && forall f :: f in leads ==> HasLead(f)
    ensures |r| == |leads|
    ensures forall i :: 0 <= i < |r| ==> r[i].source == leads[i] && r[i].hour == (base + LeadOf(leads[i])) % 24
  {
    if |leads| == 0 then []
    else
      var adjusted := base + LeadOf(leads[0]);
      var shift' := if adjusted >= 24 && adjusted % 24 == 0 then shift + 1 else shift;
      [Renamed(leads[0], shift', adjusted % 24)] + ShortRenames(leads[1..], base, shift')
  }

  /** The as-written day shift never goes back, grows by at most one day per file, and
      grows only on a file filed at hour 0. */
  lemma {:induction false} ShortShifts(leads: seq<string>, base: int, shift: int)
    requires base >= 0 && forall f :: f in leads ==> HasLead(f)
    ensures var r := ShortRenames(leads, base, shift);
            && (forall i :: 0 <= i < |r| ==> shift <= r[i].shift)
            && (|r| > 0 ==> r[0].shift <= shift + 1 && (r[0].shift == shift + 1 ==> r[0].hour == 0))
            && (forall i, j :: 0 <= i < |r| && j == i + 1 && j < |r| ==>
                  && r[i].shift <= r[j].shift <= r[i].shift + 1
                  && (r[j].shift == r[i].shift + 1 ==> r[j].hour == 0))
    decreases |leads|
  {
    if |leads| > 0 {
      var adjusted := base + LeadOf(leads[0]);
      var shift' := if adjusted >= 24 && adjusted % 24 == 0 then shift + 1 else shift;
      var r := ShortRenames(leads, base, shift);
      var t := ShortRenames(leads[1..], base, shift');
      ShortShifts(leads[1..], base, shift');
      assert r == [Renamed(leads[0], shift', adjusted % 24)] + t;
      forall i, j | 0 <= i < |r| && j == i + 1 && j < |r|
        ensures r[i].shift <= r[j].shift <= r[i].shift + 1
        ensures r[j].shift == r[i].shift + 1 ==> r[j].hour == 0
      {
        assert r[j] == t[i];
        if i > 0 {
          assert r[i] == t[i - 1];
        }
      }
    }
  }

  /** The timestamp a renamed file is filed under. */
  function FiledAt(day: Date, x: Renamed): (t: DateTime)
    requires Valid(day) && 0 <= x.hour < 24
    ensures ValidTime(t) && HourNumber(t) == HourNumber(DateTime(day, 0, 0, 0)) + 24 * x.shift + x.hour
  {
    DateTime(AddDays(day, x.shift), x.hour, 0, 0)
  }

  /** `{range}_{YYYYmmdd}_{HH}UTC.csv` */
  function ShortName(range: string, day: Date, x: Renamed): string
    requires Valid(day)
  {
    range + "_" + Ymd(AddDays(day, x.shift)) + "_" + PadInt(x.hour, 2) + "UTC.csv"
  }

  /** A renamed file is named by the range, the day its reading is filed at,
      and the two-digit hour. */
  lemma ShortNameShape(range: string, day: Date, x: Renamed)
    requires Valid(day) && 0 <= x.hour < 24
    ensures var name := ShortName(range, day, x);
      && StartsWith(name, range + "_" + Ymd(FiledAt(day, x).date) + "_")
      && EndsWith(name, PadInt(x.hour, 2) + "UTC.csv")
      && |PadInt(x.hour, 2)| == 2 && AllDigits(PadInt(x.hour, 2)) && DigitsVal(PadInt(x.hour, 2)) == x.hour
  {
    var head := range + "_" + Ymd(AddDays(day, x.shift)) + "_";
    StartsWithAppend(head, PadInt(x.hour, 2) + "UTC.csv");
    EndsWithAppend(head, PadInt(x.hour, 2) + "UTC.csv");
    assert ShortName(range, day, x) == head + (PadInt(x.hour, 2) + "UTC.csv");
    Pad2Val(x.hour);
  }

  /** When the lead that reaches midnight is missing (here cycle 18 with leads 5 and 7,
      lead 6 absent), the as-written loop files lead 7 a whole day early. */
  lemma ShortRenameSkipsMidnight(day: Date)
    requires Valid(day)
    ensures var leads := [LeadName(18, ShortStem, 5, "conus.csv"), LeadName(18, ShortStem, 7, "conus.csv")];
            && (forall f :: f in leads ==> HasLead(f))
            && var r := ShortRenames(leads, 18, 0);
               && r[1].source == leads[1]
               && HourNumber(FiledAt(day, r[1])) == HourNumber(DateTime(day, 18, 0, 0)) + 7 - 24
  {
    var leads := [LeadName(18, ShortStem, 5, "conus.csv"), LeadName(18, ShortStem, 7, "conus.csv")];
    assert NoLeadMark(ShortStem);
    ParseLeadOfName(18, ShortStem, 5, "conus.csv");
    ParseLeadOfName(18, ShortStem, 7, "conus.csv");
    assert LeadOf(leads[0]) == 5 && LeadOf(leads[1]) == 7;
    var r := ShortRenames(leads, 18, 0);
    ShortShifts(leads, 18, 0);
    assert r[0].hour == 23 && r[1].hour == 1;
  }

  /** One file renamed as evidently intended: the day and hour of cycle plus lead. */
  function FixedRename(base: int, f: string): (x: Renamed)
    requires HasLead(f)
    ensures x.source == f && 0 <= x.hour < 24 && 24 * x.shift + x.hour == base + LeadOf(f)
  {
    var adjusted := base + LeadOf(f);
    Renamed(f, adjusted / 24, adjusted % 24)
  }

  /** The short-range renames as evidently intended. */
  function ShortRenamesFixed(leads: seq<string>, base: int): (r: seq<Renamed>)
    requires forall f :: f in leads ==> HasLead(f)
    ensures |r| == |leads|
    ensures forall i :: 0 <= i < |r| ==> r[i].source == leads[i] && 0 <= r[i].hour < 24
    ensures Exact(leads, r, base)
  {
    seq(|leads|, i requires 0 <= i < |leads| => FixedRename(base, leads[i]))
  }

  /** One step of the as-written day shift on the next consecutive lead: while the
      hours stay below two days it is the quotient by 24. */
  lemma ShiftStep(base: int, shift: int, prev: int)
    requires 0 <= shift <= 1 && 24 * shift <= base + prev < 24 * shift + 24 && base + prev + 1 < 48
    ensures var a := base + prev + 1;
            var shift' := if a >= 24 && a % 24 == 0 then shift + 1 else shift;
            && shift' == a / 24 && 0 <= shift' <= 1 && 24 * shift' <= a < 24 * shift' + 24
            && 24 * shift' + a % 24 == a
  {
  }

  /** Each renamed file is filed exactly `lead` hours after cycle hour `base`. */
  predicate Exact(leads: seq<string>, r: seq<Renamed>, base: int)
    requires forall f :: f in leads ==> HasLead(f)
  {
    |r| == |leads| && forall i :: 0 <= i < |r| ==> 24 * r[i].shift + r[i].hour == base + LeadOf(leads[i])
  }

  lemma ExactCons(leads: seq<string>, base: int, x: Renamed, t: seq<Renamed>)
    requires |leads| > 0 && forall f :: f in leads ==> HasLead(f)
    requires 24 * x.shift + x.hour == base + LeadOf(leads[0]) && Exact(leads[1..], t, base)
    ensures Exact(leads, [x] + t, base)
  {
    var r := [x] + t;
    forall i | 0 < i < |r|
      ensures 24 * r[i].shift + r[i].hour == base + LeadOf(leads[i])
    {
      assert r[i] == t[i - 1] && leads[i] == leads[1..][i - 1];
    }
  }

  /** An exact rename files the `i`-th file at the cycle's timestamp plus its lead. */
  lemma ExactFiledAt(leads: seq<string>, r: seq<Renamed>, base: int, day: Date, i: int)
    requires Valid(day) && forall f :: f in leads ==> HasLead(f)
    requires Exact(leads, r, base) && 0 <= i < |r| && 0 <= r[i].hour < 24
    ensures HourNumber(FiledAt(day, r[i])) == HourNumber(DateTime(day, 0, 0, 0)) + base + LeadOf(leads[i])
  {
    assert 24 * r[i].shift + r[i].hour == base + LeadOf(leads[i]);
  }

  /** On consecutive leads the as-written loop is exact: no lead is skipped on the way
      past midnight, so (within two days) every file lands `lead` hours after the
      cycle, as in the corrected version. */
  lemma {:induction false} ShortRenamesExactOnConsecutive(leads: seq<string>, base: int, shift: int, prev: int)
    requires 0 <= base && 0 <= shift <= 1 && 24 * shift <= base + prev < 24 * shift + 24
    requires forall f :: f in leads ==> HasLead(f)
    requires forall i :: 0 <= i < |leads| ==> LeadOf(leads[i]) == prev + 1 + i
    requires base + prev + |leads| < 48
    ensures Exact(leads, ShortRenames(leads, base, shift), base)
    decreases |leads|
  {
    if |leads| > 0 {
      var adjusted := base + LeadOf(leads[0]);
      var shift' := if adjusted >= 24 && adjusted % 24 == 0 then shift + 1 else shift;
      ShiftStep(base, shift, prev);
      var tail := leads[1..];
      assert forall i :: 0 <= i < |tail| ==> LeadOf(tail[i]) == prev + 2 + i;
      ShortRenamesExactOnConsecutive(tail, base, shift', prev + 1);
      ShortRenamesCons(leads, base, shift);
      ExactCons(leads, base, Renamed(leads[0], shift', adjusted % 24), ShortRenames(tail, base, shift'));
    }
  }

  lemma ShortRenamesCons(leads: seq<string>, base: int, shift: int)
    requires base >= 0 && |leads| > 0 && forall f :: f in leads ==> HasLead(f)
    ensures var adjusted := base + LeadOf(leads[0]);
            var shift' := if adjusted >= 24 && adjusted % 24 == 0 then shift + 1 else shift;
            ShortRenames(leads, base, shift) == [Renamed(leads[0], shift', adjusted % 24)] + ShortRenames(leads[1..], base, shift')
  {
  }

  // ------------------------------------------- medium/long daily groups

  /** The day a lead falls on: `forecast_date + (lead + hour) // 24` days. */
  function GroupDate(day: Date, hour: int, lead: int): (g: Date)
    requires Valid(day)
    ensures Valid(g)
    ensures HourNumber(DateTime(g, 0, 0, 0)) <= HourNumber(DateTime(day, 0, 0, 0)) + hour + lead
                                           < HourNumber(DateTime(g, 0, 0, 0)) + 24
  {
    AddDays(day, (lead + hour) / 24)
  }

  /** The `%Y%m%d` key a file is grouped under. */
  function GroupKey(day: Date, hour: int, f: string): string
    requires Valid(day)
  {
    if HasLead(f) then Ymd(GroupDate(day, hour, LeadOf(f))) else ""
  }

  /** `daily_groups` of `ProcessForecasts`: one group per day key in order of first
      appearance, each holding the lead files of that day in listing order. */
  function DailyGroups(files: seq<string>, day: Date, hour: int): (r: seq<(string, seq<string>)>)
    requires Valid(day)
    ensures forall i, j :: 0 <= i < j < |r| ==> r[i].0 != r[j].0
    ensures forall i :: 0 <= i < |r| ==> |r[i].1| > 0
    ensures forall i, x :: 0 <= i < |r| ==>
              (x in r[i].1 <==> x in files && HasLead(x) && GroupKey(day, hour, x) == r[i].0)
    ensures forall x :: x in files && HasLead(x) ==> exists i :: 0 <= i < |r| && x in r[i].1
    ensures forall i :: 0 <= i < |r| ==> IsSubseq(r[i].1, Filter(files, HasLead))
  {
    var leads := Filter(files, HasLead);
    var key := f => GroupKey(day, hour, f);
    var keys := Dedup(Map(leads, key));
    MapValues(leads, key);
    GroupByPartitions(leads, keys, key);
    GroupBy(leads, keys, key)
  }

  /** Files in one group fall on one day. */
  lemma GroupHoldsOneDay(files: seq<string>, day: Date, hour: int, i: int, x: string, y: string)
    requires Valid(day) && 0 <= i < |DailyGroups(files, day, hour)|
    requires x in DailyGroups(files, day, hour)[i].1 && y in DailyGroups(files, day, hour)[i].1
    requires HasLead(x) && HasLead(y)
    requires 1 <= GroupDate(day, hour, LeadOf(x)).year <= 9999 && 1 <= GroupDate(day, hour, LeadOf(y)).year <= 9999
    ensures GroupDate(day, hour, LeadOf(x)) == GroupDate(day, hour, LeadOf(y))
  {
    StrptimeCompactOfYmd(GroupDate(day, hour, LeadOf(x)));
    StrptimeCompactOfYmd(GroupDate(day, hour, LeadOf(y)));
  }

  /** `{hour:02d}UTC_{range}_{key}.csv` */
  function DailyName(hour: int, range: string, key: string): string {
    PadInt(hour, 2) + "UTC_" + range + "_" + key + ".csv"
  }

  /** A daily file is named by the cycle hour, the range and the group's day. */
  lemma DailyNameShape(hour: int, range: string, key: string)
    ensures var name := DailyName(hour, range, key);
      && StartsWith(name, PadInt(hour, 2) + "UTC_" + range + "_") && EndsWith(name, "_" + key + ".csv")
  {
    KeyedName(PadInt(hour, 2) + "UTC_" + range, key);
  }

  lemma KeyedName(g: string, key: string)
    ensures StartsWith(g + "_" + key + ".csv", g + "_") && EndsWith(g + "_" + key + ".csv", "_" + key + ".csv")
  {
    StartsWithAppend(g + "_", key);
    StartsWithExtend(g + "_" + key, g + "_", ".csv");
    EndsWithAppend(g, "_" + key + ".csv");
    assert g + "_" + key + ".csv" == g + ("_" + key + ".csv");
  }

  /** Different groups of one run write different files. */
  lemma DailyNamesDiffer(hour: int, range: string, a: string, b: string)
    requires a != b
    ensures DailyName(hour, range, a) != DailyName(hour, range, b)
  {
    var p := PadInt(hour, 2) + "UTC_" + range + "_";
    var na, nb := DailyName(hour, range, a), DailyName(hour, range, b);
    assert na == p + a + ".csv" && nb == p + b + ".csv";
    if |a| == |b| {
      assert na[|p|..|p| + |a|] == a && nb[|p|..|p| + |b|] == b;
    } else {
      assert |na| != |nb|;
    }
  }

  // ------------------------------------------------------------ reduction

  /** The `sort_by` argument; anything but "minimum" and "median" is the maximum. */
  datatype Aggregate = Minimum | Median | Maximum

  function AggregateOf(sortBy: string): Aggregate {
    if sortBy == "minimum" then Minimum else if sortBy == "median" then Median else Maximum
  }

  /** One CSV row: a reach and its discharge (only the order of discharges matters). */
  datatype Row = Row(featureId: int, discharge: int)

  function IdsOf(rows: seq<Row>): (r: seq<int>)
    ensures |r| == |rows| && forall i :: 0 <= i < |rows| ==> r[i] == rows[i].featureId
  {
    Map(rows, (x: Row) => x.featureId)
  }

  predicate Increasing(s: seq<int>) {
    forall i, j :: 0 <= i < j < |s| ==> s[i] < s[j]
  }

  function InsertId(x: int, s: seq<int>): (r: seq<int>)
    requires Increasing(s)
    ensures Increasing(r)
    ensures forall y :: y in r <==> y == x || y in s
  {
    if |s| == 0 then [x]
    else if x == s[0] then s
    else if x < s[0] then [x] + s
    else
      var t := InsertId(x, s[1..]);
      assert forall y :: y in s[1..] ==> s[0] < y;
      var r := [s[0]] + t;
      forall i, j | 0 <= i < j < |r|
        ensures r[i] < r[j]
      {
        assert r[j] == t[j - 1] && t[j - 1] in t;
        if i > 0 {
          assert r[i] == t[i - 1];
        }
      }
      r
  }

  /** The distinct reach ids in increasing order (the index `groupby` produces). */
  function SortedIds(xs: seq<int>): (r: seq<int>)
    ensures Increasing(r)
    ensures forall y :: y in r <==> y in xs
  {
    if |xs| == 0 then [] else InsertId(xs[0], SortedIds(xs[1..]))
  }

  /** The discharges of one reach. */
  function DischargesOf(rows: seq<Row>, id: int): (r: seq<int>)
    ensures forall v :: v in r <==> Row(id, v) in rows
  {
    if |rows| == 0 then []
    else
      assert rows == [rows[0]] + rows[1..];
      (if rows[0].featureId == id then [rows[0].discharge] else []) + DischargesOf(rows[1..], id)
  }

  /** The least or greatest of a non-empty list. */
  function Extreme(vs: seq<int>, agg: Aggregate): (v: int)
    requires |vs| > 0 && agg != Median
    ensures v in vs
    ensures forall w :: w in vs ==> (agg == Minimum ==> v <= w) && (agg == Maximum ==> w <= v)
  {
    if |vs| == 1 then vs[0]
    else
      var rest := Extreme(vs[1..], agg);
      assert vs == [vs[0]] + vs[1..];
      if (agg == Minimum && vs[0] <= rest) || (agg == Maximum && rest <= vs[0]) then vs[0] else rest
  }

  /** One reach's reduced row. */
  function ReduceOne(rows: seq<Row>, id: int, agg: Aggregate): (x: Row)
    requires agg != Median && id in IdsOf(rows)
    ensures x.featureId == id && x in rows
    ensures forall v :: Row(id, v) in rows ==> (agg == Minimum ==> x.discharge <= v) && (agg == Maximum ==> v <= x.discharge)
  {
    var k :| 0 <= k < |IdsOf(rows)| && IdsOf(rows)[k] == id;
    assert Row(id, rows[k].discharge) == rows[k];
    Row(id, Extreme(DischargesOf(rows, id), agg))
  }

  /** The reduced row of each id in turn. */
  function ReduceIds(rows: seq<Row>, ids: seq<int>, agg: Aggregate): (r: seq<Row>)
    requires agg != Median
    requires forall id :: id in ids ==> id in IdsOf(rows)
    ensures |r| == |ids|
    ensures forall i :: 0 <= i < |r| ==> r[i] == ReduceOne(rows, ids[i], agg)
  {
    seq(|ids|, i requires 0 <= i < |ids| => assert ids[i] in ids; ReduceOne(rows, ids[i], agg))
  }

  /** `combined_df.groupby("feature_id")["discharge"].min()` (or `.max()`): one row per
      reach in increasing id order, holding one of that reach's discharges that is no
      greater (no smaller) than any other. */
  function Reduce(rows: seq<Row>, agg: Aggregate): (r: seq<Row>)
    requires agg != Median
    ensures Increasing(IdsOf(r))
    ensures forall id :: id in IdsOf(r) <==> id in IdsOf(rows)
    ensures forall i :: 0 <= i < |r| ==> r[i] in rows
    ensures forall i, v :: 0 <= i < |r| && Row(r[i].featureId, v) in rows ==>
              (agg == Minimum ==> r[i].discharge <= v) && (agg == Maximum ==> v <= r[i].discharge)
  {
    var ids := SortedIds(IdsOf(rows));
    var r := ReduceIds(rows, ids, agg);
    assert IdsOf(r) == ids;
    r
  }
}

=== FILE: retrospective.dfy ===
/** The pure part of the NWM retrospective step (nwmretrospective.py): how an
    event time is classified, the one-day or one-hour window fetched around it,
    the names of the fetched parquet file and of the discharge CSV, the
    `nwm30-` location ids and the rows kept for a time, the argument check, and
    what the runs leave in the file set. Fetching from the retrospective store is
    an abstract step `fetch` on the file set. */
module Retrospective {
  import opened Wrappers
  import opened Text
  import opened Seqs
  import opened Dates
  import opened Files
  import opened DataDownload

  /** An event time as the caller passes it: a pandas `Timestamp` or a string. */
  datatype TimeInput = TimestampValue(t: DateTime) | TextValue(s: string)

  /** A `Timestamp` is always a real instant. */
  predicate ValidInput(x: TimeInput) {
    x.TimestampValue? ==> ValidTime(x.t)
  }

  /** The answer of `determinedatatimeformat`. */
  datatype TimeKind = DateKind | DateTimeKind | Invalid

  /** What the step raises: the argument check's `ValueError`; `pd.to_datetime`
      on text it cannot read; `pd.read_csv` of a file that is not there; `df`
      read when no parquet file was found in the folder; and `time` read in the
      final message before any loop bound it. */
  datatype Err =
    | MissingArguments
    | BadTime(input: string)
    | MissingFile(path: Path)
    | NoParquet(dir: Path)
    | UnboundTime

  // ------------------------------------------------------ classification

  /** `determinedatatimeformat`: a `Timestamp` is a datetime; a string is a date
      when `%Y-%m-%d` reads it, else a datetime when `%Y-%m-%d %H:%M:%S` does,
      else invalid. */
  function Classify(x: TimeInput): (k: TimeKind)
    ensures k == DateKind ==> x.TextValue? && StrptimeIso(x.s).Some?
    ensures k == Invalid <==> x.TextValue? && StrptimeIso(x.s).None? && StrptimeIsoTime(x.s).None?
  {
    if x.TimestampValue? then DateTimeKind
    else if StrptimeIso(x.s).Some? then DateKind
    else if StrptimeIsoTime(x.s).Some? then DateTimeKind
    else Invalid
  }

  /** No string is both a date and a datetime, so the order of the two tries
      does not decide anything. */
  lemma FormatsExclusive(s: string)
    ensures !(StrptimeIso(s).Some? && StrptimeIsoTime(s).Some?)
  {
    match MatchIsoFields(s)
    case None =>
    case Some(f) =>
      if StrptimeIso(s).Some? {
        assert |f.3| == 0 && MatchSpaces(f.3).None?;
      }
  }

  /** A rendered date is classified as a date. */
  lemma ClassifyIsoDate(d: Date)
    requires Valid(d) && 1 <= d.year <= 9999
    ensures Classify(TextValue(IsoDate(d))) == DateKind
  {
    StrptimeIsoOfIsoDate(d);
  }

  /** A rendered timestamp is classified as a datetime. */
  lemma ClassifyIsoDateTime(t: DateTime)
    requires ValidTime(t) && 1 <= t.date.year <= 9999
    ensures Classify(TextValue(IsoDateTime(t))) == DateTimeKind
  {
    StrptimeIsoOfIsoDateTime(t);
    StrptimeIsoTimeOfIsoDateTime(t);
  }

  /** `pd.to_datetime(time)` for a time that is not invalid: a date is its
      midnight. */
  function TimeOf(x: TimeInput): (t: DateTime)
    requires ValidInput(x) && Classify(x) != Invalid
    ensures ValidTime(t)
    ensures Classify(x) == DateKind ==> t == DateTime(StrptimeIso(x.s).value, 0, 0, 0)
    ensures x.TextValue? && Classify(x) == DateTimeKind ==> Some(t) == StrptimeIsoTime(x.s)
  {
    match x
    case TimestampValue(t) => t
    case TextValue(s) =>
      if StrptimeIso(s).Some? then DateTime(StrptimeIso(s).value, 0, 0, 0) else StrptimeIsoTime(s).value
  }

  // ------------------------------------------------------------- windows

  /** The `(lag, lead)` bounds fetched around a time: a day either side as
      `%Y-%m-%d` for a date, an hour either side as `%Y-%m-%d %H:%M:%S` for a
      datetime, none for an invalid time. */
  function Window(x: TimeInput): (w: Option<(string, string)>)
    requires ValidInput(x)
    ensures w.None? <==> Classify(x) == Invalid
  {
    if Classify(x) == Invalid then None else Some(Bounds(Classify(x), TimeOf(x)))
  }

  /** The bounds around a time of a known kind. */
  function Bounds(kind: TimeKind, t: DateTime): (string, string)
    requires ValidTime(t)
  {
    if kind == DateKind then (IsoDate(PrevDay(t.date)), IsoDate(NextDay(t.date)))
    else (IsoDateTime(PrevHour(t)), IsoDateTime(NextHour(t)))
  }

  /** A date's window reads back as the day before and the day after. */
  lemma WindowOfDate(x: TimeInput)
    requires ValidInput(x) && Classify(x) == DateKind
    requires 2 <= TimeOf(x).date.year <= 9998
    ensures var d := TimeOf(x).date;
      && StrptimeIso(Window(x).value.0) == Some(PrevDay(d)) && DayNumber(PrevDay(d)) == DayNumber(d) - 1
      && StrptimeIso(Window(x).value.1) == Some(NextDay(d)) && DayNumber(NextDay(d)) == DayNumber(d) + 1
  {
    var d := TimeOf(x).date;
    NeighbourDayYears(d);
    PrevDayCount(d);
    NextDayCount(d);
    StrptimeIsoOfIsoDate(PrevDay(d));
    StrptimeIsoOfIsoDate(NextDay(d));
  }

  /** A datetime's window reads back as the hour before and the hour after. */
  lemma WindowOfDateTime(x: TimeInput)
    requires ValidInput(x) && Classify(x) == DateTimeKind
    requires 2 <= TimeOf(x).date.year <= 9998
    ensures var t := TimeOf(x);
      && StrptimeIsoTime(Window(x).value.0) == Some(PrevHour(t)) && HourNumber(PrevHour(t)) == HourNumber(t) - 1
      && StrptimeIsoTime(Window(x).value.1) == Some(NextHour(t)) && HourNumber(NextHour(t)) == HourNumber(t) + 1
  {
    var t := TimeOf(x);
    NeighbourHourYears(t);
    PrevHourCount(t);
    NextHourCount(t);
    StrptimeIsoTimeOfIsoDateTime(PrevHour(t));
    StrptimeIsoTimeOfIsoDateTime(NextHour(t));
  }

  // --------------------------------------------------------------- names

  /** `f"{start.replace('-', '')}_{end.replace('-', '')}.parquet"`. */
  function ParquetName(startDate: string, endDate: string): string {
    ReplaceAll(startDate, "-", "") + "_" + ReplaceAll(endDate, "-", "") + ".parquet"
  }

  /** The parquet name of a date window is the two days as `YYYYMMDD`. */
  lemma ParquetNameOfDates(d: Date)
    requires Valid(d) && 2 <= d.year <= 9998
    ensures ParquetName(IsoDate(PrevDay(d)), IsoDate(NextDay(d))) == Ymd(PrevDay(d)) + "_" + Ymd(NextDay(d)) + ".parquet"
  {
    NeighbourDayYears(d);
    DashesOfIsoDate(PrevDay(d));
    DashesOfIsoDate(NextDay(d));
  }

  /** `%Y%m%d %H:%M:%S`: a timestamp with the dashes of its date removed. */
  function CompactDateTime(t: DateTime): string {
    Ymd(t.date) + " " + ClockText(t.hour, t.minute, t.second)
  }

  /** The parquet name of a datetime window keeps the blank and the colons of
      the two bounds. */
  lemma ParquetNameOfDateTimes(t: DateTime)
    requires ValidTime(t) && 2 <= t.date.year <= 9998
    ensures ParquetName(IsoDateTime(PrevHour(t)), IsoDateTime(NextHour(t))) ==
      CompactDateTime(PrevHour(t)) + "_" + CompactDateTime(NextHour(t)) + ".parquet"
  {
    NeighbourHourYears(t);
    DashesOfIsoDateTime(PrevHour(t));
    DashesOfIsoDateTime(NextHour(t));
  }

  /** Removing the dashes of `YYYY-MM-DD` leaves `YYYYMMDD`. */
  lemma DashesOfIsoDate(d: Date)
    requires Valid(d) && 0 <= d.year <= 9999
    ensures ReplaceAll(IsoDate(d), "-", "") == Ymd(d)
  {
    var y, m, dd := PadInt(d.year, 4), PadInt(d.month, 2), PadInt(d.day, 2);
    Pad4Val(d.year);
    Pad2Val(d.month);
    Pad2Val(d.day);
    assert IsoDate(d) == y + "-" + m + "-" + dd;
    DashesOfParts(y, m, dd);
  }

  lemma DashesOfParts(y: string, m: string, dd: string)
    requires AllDigits(y) && AllDigits(m) && AllDigits(dd)
    ensures ReplaceAll(y + "-" + m + "-" + dd, "-", "") == y + m + dd
  {
    NoDashes(y);
    NoDashes(m);
    NoDashes(dd);
    DashThen(y, y, m);
    DashThen(y + "-" + m, y + m, dd);
  }

  /** The dash between a cleaned prefix and a dash-free part disappears. */
  lemma DashThen(c: string, a: string, b: string)
    requires ReplaceAll(c, "-", "") == a && ReplaceAll(b, "-", "") == b
    ensures ReplaceAll(c + "-" + b, "-", "") == a + b
  {
    ReplaceAllConcat1(c, "-" + b, "-", "");
    ReplaceAllPrefix("-", b, "");
    ConcatAssoc(c, "-", b);
  }

  lemma NoDashes(s: string)
    requires DashFree(s)
    ensures ReplaceAll(s, "-", "") == s
  {
    ReplaceAllAbsent(s, "-", "");
  }

  /** Removing the dashes of `YYYY-MM-DD HH:MM:SS` leaves `YYYYMMDD HH:MM:SS`. */
  lemma DashesOfIsoDateTime(t: DateTime)
    requires ValidTime(t) && 0 <= t.date.year <= 9999
    ensures ReplaceAll(IsoDateTime(t), "-", "") == CompactDateTime(t)
  {
    var c := ClockText(t.hour, t.minute, t.second);
    var clock := " " + c;
    ConcatAssoc(IsoDate(t.date), " ", c);
    ConcatAssoc(Ymd(t.date), " ", c);
    ReplaceAllConcat1(IsoDate(t.date), clock, "-", "");
    DashesOfIsoDate(t.date);
    ClockDashFree(t.hour, t.minute, t.second);
    NoDashes(clock);
  }

  predicate DashFree(s: string) {
    forall i :: 0 <= i < |s| ==> s[i] != '-'
  }

  lemma DashFreeConcat(a: string, b: string)
    requires DashFree(a) && DashFree(b)
    ensures DashFree(a + b)
  {
    forall i | 0 <= i < |a + b|
      ensures (a + b)[i] != '-'
    {
      if i >= |a| {
        assert (a + b)[i] == b[i - |a|];
      }
    }
  }

  /** A blank and a clock reading hold no dash. */
  lemma ClockDashFree(h: int, mi: int, sec: int)
    requires 0 <= h < 24 && 0 <= mi < 60 && 0 <= sec < 60
    ensures DashFree(" " + ClockText(h, mi, sec))
  {
    Pad2Val(h);
    Pad2Val(mi);
    Pad2Val(sec);
    DigitsDashFree(PadInt(h, 2));
    DigitsDashFree(PadInt(mi, 2));
    DigitsDashFree(PadInt(sec, 2));
    ClockPartsDashFree(PadInt(h, 2), PadInt(mi, 2), PadInt(sec, 2));
  }

  lemma DigitsDashFree(s: string)
    requires AllDigits(s)
    ensures DashFree(s)
  {
  }

  lemma ClockPartsDashFree(hh: string, mm: string, ss: string)
    requires DashFree(hh) && DashFree(mm) && DashFree(ss)
    ensures DashFree(" " + (hh + ":" + mm + ":" + ss))
  {
    DashFreeConcat(hh, ":");
    DashFreeConcat(hh + ":", mm);
    DashFreeConcat(hh + ":" + mm, ":");
    DashFreeConcat(hh + ":" + mm + ":", ss);
    DashFreeConcat(" ", hh + ":" + mm + ":" + ss);
  }

  /** `f"{t:%Y%m%d}_{huc}.csv"` in date mode, `f"{t:%Y%m%d%H%M%S}_{huc}.csv"`
      otherwise. */
  function CsvName(kind: TimeKind, t: DateTime, huc: string): string {
    CsvStamp(kind, t) + ("_" + huc + ".csv")
  }

  function CsvStamp(kind: TimeKind, t: DateTime): string {
    if kind == DateKind then Ymd(t.date) else Ymd(t.date) + Hms(t)
  }

  /** `%H%M%S`. */
  function Hms(t: DateTime): string {
    PadInt(t.hour, 2) + PadInt(t.minute, 2) + PadInt(t.second, 2)
  }

  /** The CSV name starts with the time's day as `YYYYMMDD`; in date mode the
      HUC follows at once, otherwise the hour, minute and second come first. */
  lemma CsvNameReads(kind: TimeKind, t: DateTime, huc: string)
    requires ValidTime(t) && 1 <= t.date.year <= 9999
    ensures var n := CsvName(kind, t, huc);
      && |n| > 8 && StrptimeCompact(n[..8]) == Some(t.date)
      && (kind == DateKind ==> n[8] == '_')
      && (kind != DateKind ==>
            && |n| > 14 && n[14] == '_'
            && AllDigits(n[8..10]) && AllDigits(n[10..12]) && AllDigits(n[12..14])
            && DigitsVal(n[8..10]) == t.hour && DigitsVal(n[10..12]) == t.minute && DigitsVal(n[12..14]) == t.second)
  {
    var tail := "_" + huc + ".csv";
    YmdShape(t.date);
    StrptimeCompactOfYmd(t.date);
    if kind == DateKind {
      AfterEight(Ymd(t.date), tail);
    } else {
      Pad2Val(t.hour);
      Pad2Val(t.minute);
      Pad2Val(t.second);
      StampLayout(Ymd(t.date), PadInt(t.hour, 2), PadInt(t.minute, 2), PadInt(t.second, 2), tail);
    }
  }

  lemma AfterEight(ymd: string, tail: string)
    requires |ymd| == 8 && |tail| > 0
    ensures |ymd + tail| > 8 && (ymd + tail)[..8] == ymd && (ymd + tail)[8] == tail[0]
  {
  }

  lemma StampLayout(ymd: string, hh: string, mm: string, ss: string, tail: string)
    requires |ymd| == 8 && |hh| == 2 && |mm| == 2 && |ss| == 2 && |tail| > 0
    ensures var n := ymd + (hh + mm + ss) + tail;
      |n| > 14 && n[..8] == ymd && n[8..10] == hh && n[10..12] == mm && n[12..14] == ss && n[14] == tail[0]
  {
    var h := hh + mm + ss;
    var n := ymd + h + tail;
    assert n[..8] == ymd;
    assert n[8..14] == h;
    assert h[..2] == hh && h[2..4] == mm && h[4..] == ss;
    assert n[8..10] == h[..2] && n[10..12] == h[2..4] && n[12..14] == h[4..];
  }

  // ---------------------------------------------------------- location ids

  /** `f"nwm30-{int(fid)}"`. */
  function LocationId(fid: int): (loc: string)
    ensures StartsWith(loc, "nwm30-") && FeatureIdOf(loc) == IntStr(fid)
  {
    StartsWithAppend("nwm30-", IntStr(fid));
    ReplaceAllPrefix("nwm30-", IntStr(fid), "");
    IntStrChars(fid);
    ReplaceAllAbsent(IntStr(fid), "nwm30-", "");
    "nwm30-" + IntStr(fid)
  }

  /** `location_id.str.replace("nwm30-", "")`. */
  function FeatureIdOf(loc: string): string {
    ReplaceAll(loc, "nwm30-", "")
  }

  /** Stripping the prefix gives back the decimal feature id, so distinct feature
      ids get distinct location ids. */
  lemma FeatureIdOfLocationId(fid: int)
    ensures FeatureIdOf(LocationId(fid)) == IntStr(fid)
    ensures PyInt(FeatureIdOf(LocationId(fid))) == Some(fid)
  {
    PyIntOfIntStr(fid);
  }

  lemma LocationIdInjective(a: int, b: int)
    requires LocationId(a) == LocationId(b)
    ensures a == b
  {
    FeatureIdOfLocationId(a);
    FeatureIdOfLocationId(b);
  }

  // ------------------------------------------------------------------ rows

  /** A row of the retrospective table; the discharge value is opaque. */
  datatype Row<V> = Row(locationId: string, valueTime: DateTime, value: V)

  /** The rows kept for a time: a wanted location, and the same day in date
      mode or the same instant otherwise. */
  predicate Wanted<V>(r: Row<V>, ids: seq<string>, kind: TimeKind, t: DateTime) {
    r.locationId in ids && (if kind == DateKind then r.valueTime.date == t.date else r.valueTime == t)
  }

  /** The `(feature_id, value)` pairs of the wanted rows, in table order, before
      the per-feature mean of date mode: exactly the wanted rows are reported. */
  function Selected<V(==,!new)>(rows: seq<Row<V>>, fids: seq<int>, kind: TimeKind, t: DateTime): (out: seq<(string, V)>)
    ensures |out| <= |rows|
    ensures forall r :: r in rows && Wanted(r, Map(fids, LocationId), kind, t) ==> (FeatureIdOf(r.locationId), r.value) in out
    ensures forall p :: p in out ==> exists r :: r in rows && Wanted(r, Map(fids, LocationId), kind, t) && p == (FeatureIdOf(r.locationId), r.value)
    ensures forall p :: p in out ==> exists fid :: fid in fids && p.0 == IntStr(fid)
  {
    SelectedKeeps(rows, fids, kind, t);
    SelectedIds(rows, fids, kind, t);
    SelectedPairs(rows, Map(fids, LocationId), kind, t)
  }

  function SelectedPairs<V(==,!new)>(rows: seq<Row<V>>, ids: seq<string>, kind: TimeKind, t: DateTime): seq<(string, V)> {
    Map(Filter(rows, (r: Row<V>) => Wanted(r, ids, kind, t)), (r: Row<V>) => (FeatureIdOf(r.locationId), r.value))
  }

  /** The selected pairs are the pairs of exactly the wanted rows. */
  lemma SelectedKeeps<V(!new)>(rows: seq<Row<V>>, fids: seq<int>, kind: TimeKind, t: DateTime)
    ensures forall r :: r in rows && Wanted(r, Map(fids, LocationId), kind, t) ==>
      (FeatureIdOf(r.locationId), r.value) in SelectedPairs(rows, Map(fids, LocationId), kind, t)
    ensures forall p :: p in SelectedPairs(rows, Map(fids, LocationId), kind, t) ==>
      exists r :: r in rows && Wanted(r, Map(fids, LocationId), kind, t) && p == (FeatureIdOf(r.locationId), r.value)
  {
    var ids := Map(fids, LocationId);
    var wanted := (r: Row<V>) => Wanted(r, ids, kind, t);
    var pair := (r: Row<V>) => (FeatureIdOf(r.locationId), r.value);
    var kept := Filter(rows, wanted);
    MapValues(kept, pair);
    forall r | r in rows && Wanted(r, ids, kind, t)
      ensures pair(r) in Map(kept, pair)
    {
      assert r in kept;
    }
    forall p | p in Map(kept, pair)
      ensures exists r :: r in rows && Wanted(r, ids, kind, t) && p == pair(r)
    {
      var r :| r in kept && pair(r) == p;
      assert r in rows && wanted(r);
    }
  }

  lemma SelectedIds<V(!new)>(rows: seq<Row<V>>, fids: seq<int>, kind: TimeKind, t: DateTime)
    ensures forall p :: p in SelectedPairs(rows, Map(fids, LocationId), kind, t) ==> exists fid :: fid in fids && p.0 == IntStr(fid)
  {
    var ids := Map(fids, LocationId);
    var wanted := (r: Row<V>) => Wanted(r, ids, kind, t);
    var pair := (r: Row<V>) => (FeatureIdOf(r.locationId), r.value);
    var kept := Filter(rows, wanted);
    MapValues(kept, pair);
    MapValues(fids, LocationId);
    forall p: (string, V) | p in Map(kept, pair)
      ensures exists fid :: fid in fids && p.0 == IntStr(fid)
    {
      var r :| r in kept && pair(r) == p;
      assert r.locationId in ids;
      var fid :| fid in fids && LocationId(fid) == r.locationId;
      assert p.0 == FeatureIdOf(LocationId(fid));
    }
  }

  /** `getdischargeforspecifiedtime` as written: every parquet file is read and
      concatenated, but the rows are then taken from `df`, the last file read.
      With no parquet file at all `df` is unbound. */
  function SpecifiedRows<V(==,!new)>(tables: seq<seq<Row<V>>>, fids: seq<int>, kind: TimeKind, t: DateTime): (r: Option<seq<(string, V)>>)
    ensures r.None? <==> |tables| == 0
    ensures r.Some? ==> forall row :: row in tables[|tables| - 1] && Wanted(row, Map(fids, LocationId), kind, t) ==>
      (FeatureIdOf(row.locationId), row.value) in r.value
    ensures r.Some? ==> forall p :: p in r.value ==>
      exists row :: row in tables[|tables| - 1] && Wanted(row, Map(fids, LocationId), kind, t) && p == (FeatureIdOf(row.locationId), row.value)
  {
    if |tables| == 0 then None else Some(Selected(tables[|tables| - 1], fids, kind, t))
  }

  /** The same step taking the rows from the concatenation of all files: a
      wanted row of any file is reported, and nothing else. */
  function SpecifiedRowsFixed<V(==,!new)>(tables: seq<seq<Row<V>>>, fids: seq<int>, kind: TimeKind, t: DateTime): (r: Option<seq<(string, V)>>)
    ensures r.None? <==> |tables| == 0
    ensures r.Some? ==> forall i, row :: 0 <= i < |tables| && row in tables[i] && Wanted(row, Map(fids, LocationId), kind, t) ==>
      (FeatureIdOf(row.locationId), row.value) in r.value
    ensures r.Some? ==> forall p :: p in r.value ==>
      exists i, row :: 0 <= i < |tables| && row in tables[i] && Wanted(row, Map(fids, LocationId), kind, t) && p == (FeatureIdOf(row.locationId), row.value)
  {
    if |tables| == 0 then None
    else
      forall row
        ensures row in Flatten(tables) <==> exists i :: 0 <= i < |tables| && row in tables[i]
      {
        FlattenHas(tables, row);
      }
      Some(Selected(Flatten(tables), fids, kind, t))
  }

  /** With two parquet files and a wanted row in the first, the step as
      written reports nothing while the fixed step reports the row. */
  lemma SpecifiedRowsDropsEarlierFiles<V(!new)>(row: Row<V>, fids: seq<int>, kind: TimeKind, t: DateTime)
    requires Wanted(row, Map(fids, LocationId), kind, t)
    ensures SpecifiedRows([[row], []], fids, kind, t) == Some([])
    ensures (FeatureIdOf(row.locationId), row.value) in SpecifiedRowsFixed([[row], []], fids, kind, t).value
  {
    var tables := [[row], []];
    assert row in tables[0];
    assert Filter([], (r: Row<V>) => Wanted(r, Map(fids, LocationId), kind, t)) == [];
  }

  /** Such a row exists: feature 42 at the requested instant. */
  lemma WantedExample()
    ensures var t := DateTime(Date(2020, 1, 5), 12, 0, 0);
      Wanted(Row(LocationId(42), t, 7), Map([42], LocationId), DateTimeKind, t)
  {
    assert Map([42], LocationId) == [LocationId(42)];
  }

  // ------------------------------------------------------------- arguments

  /** The two ways the step can be asked for data. */
  datatype Mode = EventMode | RangeMode

  /** The argument check: an event dictionary wins; without one, the HUC, both
      dates and the value times must all be given. */
  function RequestMode(huc: Option<string>, startDate: Option<string>, endDate: Option<string>,
                       valueTimes: seq<TimeInput>, events: seq<(string, seq<TimeInput>)>): (r: Result<Mode, Err>)
    ensures r == Success(EventMode) <==> |events| > 0
    ensures r == Success(RangeMode) <==>
      |events| == 0 && Truthy(huc) && Truthy(startDate) && Truthy(endDate) && |valueTimes| > 0
    ensures r.Failure? ==> r.error == MissingArguments
  {
    if |events| > 0 then Success(EventMode)
    else if !Truthy(huc) || !(Truthy(startDate) && Truthy(endDate)) || |valueTimes| == 0 then Failure(MissingArguments)
    else Success(RangeMode)
  }

  // ------------------------------------------------------------ file steps

  function DischargeDir(root: Path): Path {
    root + ["discharge"]
  }

  /** `<root>/discharge/<version>_retrospective`. */
  function RetroDir(root: Path, version: string): Path {
    root + ["discharge", version + "_retrospective"]
  }

  function ParquetPath(root: Path, version: string, startDate: string, endDate: string): Path {
    RetroDir(root, version) + [ParquetName(startDate, endDate)]
  }

  /** `<hucDir>/feature_IDs.csv`, the `fids` both modes pass. */
  function IdsFile(hucDir: Path): Path {
    hucDir + ["feature_IDs.csv"]
  }

  /** `fetch` only adds files. */
  ghost predicate Grows(fetch: FileSet -> FileSet) {
    forall s :: s <= fetch(s)
  }

  /** What a run leaves behind: the files present, and the error it raised, if
      any. Files written before the error stay. */
  datatype Run = Run(files: FileSet, raised: Option<Err>)

  /** `getnwm_discharge`: nothing is fetched when the parquet file for the window
      is already there; otherwise the feature ids are read from `fids`, which
      raises when that file is missing, and then `fetch` gives the files after
      the download. */
  function GetNwmDischarge(fs: FileSet, fetch: FileSet -> FileSet, fids: Path, root: Path, version: string,
                           startDate: string, endDate: string): (r: Run)
    ensures ParquetPath(root, version, startDate, endDate) in fs ==> r == Run(fs, None)
    ensures r.raised.Some? <==> ParquetPath(root, version, startDate, endDate) !in fs && fids !in fs
    ensures r.raised.Some? ==> r == Run(fs, Some(MissingFile(fids)))
    ensures ParquetPath(root, version, startDate, endDate) !in fs && r.raised.None? ==> r.files == fetch(fs)
  {
    if ParquetPath(root, version, startDate, endDate) in fs then Run(fs, None)
    else if fids !in fs then Run(fs, Some(MissingFile(fids)))
    else Run(fetch(fs), None)
  }

  /** Once a download has written the window's file, asking again fetches
      nothing and changes nothing. */
  lemma GetNwmDischargeIdempotent(fs: FileSet, fetch: FileSet -> FileSet, fids: Path, root: Path, version: string,
                                  startDate: string, endDate: string)
    requires ParquetPath(root, version, startDate, endDate) in fetch(fs)
    ensures var first := GetNwmDischarge(fs, fetch, fids, root, version, startDate, endDate);
      first.raised.None? ==> GetNwmDischarge(first.files, fetch, fids, root, version, startDate, endDate) == first
  {
  }

  /** `retrospective_dir.glob("*.parquet")` finds a file: some file directly in
      `dir` has a name ending in `.parquet`. */
  predicate HasParquet(fs: FileSet, dir: Path) {
    exists p :: p in fs && |p| == |dir| + 1 && p[..|dir|] == dir && EndsWith(p[|dir|], ".parquet")
  }

  /** What `getdischargeforspecifiedtime` reads before it looks at the time: a
      parquet file in the HUC's retrospective folder, then its `feature_IDs.csv`. */
  predicate Ready(fs: FileSet, hucDir: Path) {
    HasParquet(fs, RetroDir(hucDir, "nwm30")) && IdsFile(hucDir) in fs
  }

  /** Adding files keeps a folder ready. */
  lemma ReadyGrows(fs: FileSet, more: FileSet, hucDir: Path)
    requires Ready(fs, hucDir) && fs <= more
    ensures Ready(more, hucDir)
  {
    var dir := RetroDir(hucDir, "nwm30");
    var p :| p in fs && |p| == |dir| + 1 && p[..|dir|] == dir && EndsWith(p[|dir|], ".parquet");
    assert p in more;
  }

  /** The window's parquet file is one the folder's glob finds. */
  lemma ParquetPathFound(fs: FileSet, root: Path, startDate: string, endDate: string)
    requires ParquetPath(root, "nwm30", startDate, endDate) in fs
    ensures HasParquet(fs, RetroDir(root, "nwm30"))
  {
    var dir := RetroDir(root, "nwm30");
    var p := ParquetPath(root, "nwm30", startDate, endDate);
    ParquetNameEnds(startDate, endDate);
    assert p[..|dir|] == dir && p[|dir|] == ParquetName(startDate, endDate);
  }

  // -------------------------------------------------------------- pandas

  /** `pd.to_datetime` on a string: the instant pandas reads, or `None` where it
      raises. Its parsing rules are not modelled; `ReadsInstants` and
      `AgreesWithStrptime` say what is assumed of it. */
  type Reader = string -> Option<DateTime>

  /** What pandas reads is a real instant. */
  ghost predicate ReadsInstants(pandas: Reader) {
    forall s :: pandas(s).Some? ==> ValidTime(pandas(s).value)
  }

  /** pandas reads the two `strptime` formats as `strptime` does, a date as its
      midnight. */
  ghost predicate AgreesWithStrptime(pandas: Reader) {
    forall s :: (StrptimeIso(s).Some? ==> pandas(s) == Some(DateTime(StrptimeIso(s).value, 0, 0, 0)))
             && (StrptimeIsoTime(s).Some? ==> pandas(s) == StrptimeIsoTime(s))
  }

  /** `pd.to_datetime(x)`: a `Timestamp` is returned as it is. */
  function ToDatetime(pandas: Reader, x: TimeInput): Option<DateTime> {
    match x
    case TimestampValue(t) => Some(t)
    case TextValue(s) => pandas(s)
  }

  /** `pd.to_datetime(x)` returns rather than raises. */
  predicate Readable(pandas: Reader, x: TimeInput) {
    ToDatetime(pandas, x).Some?
  }

  /** Where pandas agrees with `strptime`, a date or a datetime is read as
      `TimeOf` reads it, so it never raises. */
  lemma ToDatetimeOfClassified(pandas: Reader, x: TimeInput)
    requires AgreesWithStrptime(pandas) && ValidInput(x) && Classify(x) != Invalid
    ensures Readable(pandas, x) && ToDatetime(pandas, x) == Some(TimeOf(x))
  {
  }

  /** The CSV `getdischargeforspecifiedtime` writes for a time pandas reads: in
      date form for a date, in datetime form otherwise, an invalid time
      included. */
  function TimeCsv(pandas: Reader, dataDir: Path, huc: string, x: TimeInput): Path
    requires Readable(pandas, x)
  {
    dataDir + [CsvName(Classify(x), ToDatetime(pandas, x).value, huc)]
  }

  // ------------------------------------------------------------ event mode

  /** One event time of one HUC: `pd.to_datetime` runs first and raises on text
      it cannot read; an invalid time it reads is skipped; any other is handled
      by `EventStepAt` at the time pandas read. */
  function EventStep(fs: FileSet, fetch: FileSet -> FileSet, pandas: Reader, hucDir: Path, dataDir: Path,
                     huc: string, x: TimeInput): (r: Run)
    requires ReadsInstants(pandas) && ValidInput(x)
    requires Grows(fetch) && IdsFile(hucDir) in fs
    ensures r.raised.Some? <==> !Readable(pandas, x)
    ensures forall p :: p in fs && !Under(p, DischargeDir(hucDir)) ==> p in r.files
    ensures Readable(pandas, x) && Classify(x) == Invalid ==> r.files == fs
    ensures Readable(pandas, x) && Classify(x) != Invalid ==> TimeCsv(pandas, dataDir, huc, x) in r.files
  {
    if !Readable(pandas, x) then Run(fs, Some(BadTime(x.s)))
    else
      var t, kind := ToDatetime(pandas, x).value, Classify(x);
      if kind == Invalid then Run(fs, None)
      else
        assert ValidTime(t) by {
          if x.TextValue? {
            assert pandas(x.s) == Some(t);
          }
        }
        Run(EventStepAt(fs, fetch, hucDir, dataDir, huc, kind, t), None)
  }

  /** One valid event time: fetch the window unless its file is there (the
      HUC's `feature_IDs.csv` is there, so the read of it succeeds), write the
      CSV for the time, then delete the window's parquet file, its path rebuilt
      from the same two bounds. */
  function EventStepAt(fs: FileSet, fetch: FileSet -> FileSet, hucDir: Path, dataDir: Path, huc: string,
                       kind: TimeKind, t: DateTime): (r: FileSet)
    requires ValidTime(t) && Grows(fetch) && IdsFile(hucDir) in fs
    ensures dataDir + [CsvName(kind, t, huc)] in r
    ensures ParquetPath(hucDir, "nwm30", Bounds(kind, t).0, Bounds(kind, t).1) !in r
    ensures forall p :: p in fs && !Under(p, DischargeDir(hucDir)) ==> p in r
  {
    var (lag, lead) := Bounds(kind, t);
    var fetched := GetNwmDischarge(fs, fetch, IdsFile(hucDir), hucDir, "nwm30", lag, lead);
    assert fetched.raised.None?;
    var got := fetched.files;
    var csv := dataDir + [CsvName(kind, t, huc)];
    var stale := hucDir + ["discharge", "nwm30_retrospective"] + [ParquetName(lag, lead)];
    SameParquet(hucDir, lag, lead);
    CsvNameEnds(kind, t, huc);
    ParquetNameEnds(lag, lead);
    CsvNotParquet(dataDir, CsvName(kind, t, huc), stale, ParquetName(lag, lead));
    (got + {csv}) - {stale}
  }

  /** The file deleted is the file `getnwm_discharge` looked for, and it lies in
      the HUC's discharge folder. */
  lemma SameParquet(hucDir: Path, lag: string, lead: string)
    ensures hucDir + ["discharge", "nwm30_retrospective"] + [ParquetName(lag, lead)] == ParquetPath(hucDir, "nwm30", lag, lead)
    ensures Under(ParquetPath(hucDir, "nwm30", lag, lead), DischargeDir(hucDir))
  {
    assert "nwm30" + "_retrospective" == "nwm30_retrospective";
    var p := ParquetPath(hucDir, "nwm30", lag, lead);
    assert p[..|DischargeDir(hucDir)|] == DischargeDir(hucDir);
  }

  /** A CSV path is never a parquet path: the names end differently. */
  lemma CsvNotParquet(dataDir: Path, name: string, stale: Path, pq: string)
    requires EndsWith(name, ".csv") && EndsWith(pq, ".parquet")
    requires |stale| > 0 && stale[|stale| - 1] == pq
    ensures dataDir + [name] != stale
  {
    assert pq[|pq| - 1] == pq[|pq| - 8..][7] == 't';
    assert name[|name| - 1] == name[|name| - 4..][3] == 'v';
  }

  lemma ParquetNameEnds(lag: string, lead: string)
    ensures EndsWith(ParquetName(lag, lead), ".parquet")
  {
    EndsWithAppend(ReplaceAll(lag, "-", "") + "_" + ReplaceAll(lead, "-", ""), ".parquet");
  }

  /** The time's CSV name ends in `.csv`. */
  lemma CsvNameEnds(kind: TimeKind, t: DateTime, huc: string)
    ensures EndsWith(CsvName(kind, t, huc), ".csv")
  {
    EndsWithAppend("_" + huc, ".csv");
    EndsWithPrepend(CsvStamp(kind, t), "_" + huc + ".csv", ".csv");
  }

  /** The event times of one HUC, in order, until one raises. */
  function EventSteps(fs: FileSet, fetch: FileSet -> FileSet, pandas: Reader, hucDir: Path, dataDir: Path,
                      huc: string, xs: seq<TimeInput>): (r: Run)
    requires ReadsInstants(pandas) && forall x :: x in xs ==> ValidInput(x)
    requires Grows(fetch) && IdsFile(hucDir) in fs
    ensures r.raised.Some? <==> exists x :: x in xs && !Readable(pandas, x)
    decreases |xs|
  {
    if |xs| == 0 then Run(fs, None)
    else
      var first := EventStep(fs, fetch, pandas, hucDir, dataDir, huc, xs[0]);
      assert forall x :: x in xs ==> x == xs[0] || x in xs[1..];
      if first.raised.Some? then first
      else EventSteps(first.files, fetch, pandas, hucDir, dataDir, huc, xs[1..])
  }

  /** The first time pandas cannot read ends the loop: the files are those the
      earlier times left, and no later time is looked at. */
  lemma {:induction false} EventStepsStop(fs: FileSet, fetch: FileSet -> FileSet, pandas: Reader, hucDir: Path,
                                          dataDir: Path, huc: string, xs: seq<TimeInput>, i: nat)
    requires ReadsInstants(pandas) && forall x :: x in xs ==> ValidInput(x)
    requires Grows(fetch) && IdsFile(hucDir) in fs
    requires i < |xs| && !Readable(pandas, xs[i]) && forall j :: 0 <= j < i ==> Readable(pandas, xs[j])
    ensures EventSteps(fs, fetch, pandas, hucDir, dataDir, huc, xs) ==
      Run(EventSteps(fs, fetch, pandas, hucDir, dataDir, huc, xs[..i]).files, Some(BadTime(xs[i].s)))
    decreases i
  {
    if i > 0 {
      var first := EventStep(fs, fetch, pandas, hucDir, dataDir, huc, xs[0]);
      assert Readable(pandas, xs[0]);
      assert first.raised.None?;
      var tail, pre := xs[1..], xs[..i];
      assert pre[0] == xs[0] && pre[1..] == tail[..i - 1];
      assert forall x :: x in tail ==> x in xs;
      assert forall j :: 0 <= j < i - 1 ==> Readable(pandas, tail[j]) by {
        forall j | 0 <= j < i - 1
          ensures Readable(pandas, tail[j])
        {
          assert tail[j] == xs[j + 1];
        }
      }
      assert tail[i - 1] == xs[i];
      EventStepsStop(first.files, fetch, pandas, hucDir, dataDir, huc, tail, i - 1);
      assert EventSteps(fs, fetch, pandas, hucDir, dataDir, huc, xs) == EventSteps(first.files, fetch, pandas, hucDir, dataDir, huc, tail);
      assert EventSteps(fs, fetch, pandas, hucDir, dataDir, huc, pre) == EventSteps(first.files, fetch, pandas, hucDir, dataDir, huc, pre[1..]);
    }
  }

  /** Files outside the HUC's discharge folder survive the event times, whether
      or not one of them raises. */
  lemma {:induction false} EventStepsKeep(fs: FileSet, fetch: FileSet -> FileSet, pandas: Reader, hucDir: Path,
                                          dataDir: Path, huc: string, xs: seq<TimeInput>, p: Path)
    requires ReadsInstants(pandas) && forall x :: x in xs ==> ValidInput(x)
    requires Grows(fetch) && IdsFile(hucDir) in fs && p in fs && !Under(p, DischargeDir(hucDir))
    ensures p in EventSteps(fs, fetch, pandas, hucDir, dataDir, huc, xs).files
    decreases |xs|
  {
    if |xs| > 0 {
      var first := EventStep(fs, fetch, pandas, hucDir, dataDir, huc, xs[0]);
      if first.raised.None? {
        EventStepsKeep(first.files, fetch, pandas, hucDir, dataDir, huc, xs[1..], p);
      }
    }
  }

  /** Every date or datetime reached before any time raises leaves its CSV, when
      the data folder is not inside the HUC's discharge folder. */
  lemma {:induction false} EventStepsWrite(fs: FileSet, fetch: FileSet -> FileSet, pandas: Reader, hucDir: Path,
                                           dataDir: Path, huc: string, xs: seq<TimeInput>)
    requires ReadsInstants(pandas) && forall x :: x in xs ==> ValidInput(x)
    requires Grows(fetch) && IdsFile(hucDir) in fs && forall name :: !Under(dataDir + [name], DischargeDir(hucDir))
    ensures forall i :: 0 <= i < |xs| && Classify(xs[i]) != Invalid && (forall j :: 0 <= j <= i ==> Readable(pandas, xs[j])) ==>
      TimeCsv(pandas, dataDir, huc, xs[i]) in EventSteps(fs, fetch, pandas, hucDir, dataDir, huc, xs).files
    decreases |xs|
  {
    if |xs| > 0 && Readable(pandas, xs[0]) {
      var first := EventStep(fs, fetch, pandas, hucDir, dataDir, huc, xs[0]);
      var tail := xs[1..];
      EventStepsWrite(first.files, fetch, pandas, hucDir, dataDir, huc, tail);
      if Classify(xs[0]) != Invalid {
        EventStepsKeep(first.files, fetch, pandas, hucDir, dataDir, huc, tail, TimeCsv(pandas, dataDir, huc, xs[0]));
      }
      forall i | 0 < i < |xs| && Classify(xs[i]) != Invalid && (forall j :: 0 <= j <= i ==> Readable(pandas, xs[j]))
        ensures TimeCsv(pandas, dataDir, huc, xs[i]) in EventSteps(fs, fetch, pandas, hucDir, dataDir, huc, xs).files
      {
        assert xs[i] == tail[i - 1];
        forall j | 0 <= j <= i - 1
          ensures Readable(pandas, tail[j])
        {
          assert tail[j] == xs[j + 1];
        }
      }
    }
  }

  /** The final message of a HUC reads `time`, which its own loop binds only when
      it has times; when none of its own and none from an earlier HUC's loop is
      bound, removing a discharge folder that was not there at the start is
      followed by an `UnboundLocalError`. */
  predicate Unbinds(fs: FileSet, hucDir: Path, xs: seq<TimeInput>, bound: bool) {
    |xs| == 0 && !bound && !DirExists(fs, RetroDir(hucDir, "nwm30")) && DirExists(fs, DischargeDir(hucDir))
  }

  /** One HUC of the event dictionary: skipped without its folder or its
      `feature_IDs.csv`; otherwise its event times, and then, unless one raised,
      the discharge folder removed when the retrospective folder was not there
      at the start. `bound` says whether an earlier HUC's loop has bound `time`. */
  function HucRun(fs: FileSet, fetch: FileSet -> FileSet, pandas: Reader, outputDir: Path, dataDir: Path,
                  huc: string, xs: seq<TimeInput>, bound: bool): (r: Run)
    requires ReadsInstants(pandas) && Grows(fetch) && forall x :: x in xs ==> ValidInput(x)
    ensures !DirExists(fs, HucDir(outputDir, huc)) || FeatureIdsPath(outputDir, huc) !in fs ==> r == Run(fs, None)
    ensures r.raised.Some? <==> (FeatureIdsPath(outputDir, huc) in fs &&
      ((exists x :: x in xs && !Readable(pandas, x)) || Unbinds(fs, HucDir(outputDir, huc), xs, bound)))
  {
    var hucDir := HucDir(outputDir, huc);
    assert FeatureIdsPath(outputDir, huc) in fs ==> DirExists(fs, hucDir) by {
      assert Under(FeatureIdsPath(outputDir, huc), hucDir);
    }
    if !DirExists(fs, hucDir) || FeatureIdsPath(outputDir, huc) !in fs then Run(fs, None)
    else
      var initial := DirExists(fs, RetroDir(hucDir, "nwm30"));
      var after := EventSteps(fs, fetch, pandas, hucDir, dataDir, huc, xs);
      if after.raised.Some? then after
      else if !initial && DirExists(after.files, DischargeDir(hucDir)) then
        var cleaned := RemoveTree(after.files, DischargeDir(hucDir));
        if |xs| == 0 && !bound then Run(cleaned, Some(UnboundTime)) else Run(cleaned, None)
      else after
  }

  /** What one HUC's run leaves: files outside its discharge folder stay; it
      raises exactly when it has its `feature_IDs.csv` and either pandas cannot
      read one of its times, and then nothing is cleaned up, or `time` is
      unbound, and then only after the discharge folder is removed; when every
      time is readable a discharge folder the run created is gone; and each date
      or datetime reached before a raise has its CSV, when the data folder lies
      outside the discharge folder. */
  lemma HucRunEffects(fs: FileSet, fetch: FileSet -> FileSet, pandas: Reader, outputDir: Path, dataDir: Path,
                      huc: string, xs: seq<TimeInput>, bound: bool)
    requires ReadsInstants(pandas) && forall x :: x in xs ==> ValidInput(x)
    requires Grows(fetch)
    ensures var hucDir := HucDir(outputDir, huc);
      var ids := FeatureIdsPath(outputDir, huc);
      var r := HucRun(fs, fetch, pandas, outputDir, dataDir, huc, xs, bound);
      && (forall p :: p in fs && !Under(p, DischargeDir(hucDir)) ==> p in r.files)
      && (r.raised.Some? <==> ids in fs && ((exists x :: x in xs && !Readable(pandas, x)) || Unbinds(fs, hucDir, xs, bound)))
      && (ids in fs && (exists x :: x in xs && !Readable(pandas, x)) ==> r == EventSteps(fs, fetch, pandas, hucDir, dataDir, huc, xs))
      && (ids in fs && Unbinds(fs, hucDir, xs, bound) ==> r == Run(RemoveTree(fs, DischargeDir(hucDir)), Some(UnboundTime)))
      && (ids in fs && !DirExists(fs, RetroDir(hucDir, "nwm30")) && (forall x :: x in xs ==> Readable(pandas, x)) ==>
            forall p :: p in r.files ==> !Under(p, DischargeDir(hucDir)))
      && (ids in fs && (forall name :: !Under(dataDir + [name], DischargeDir(hucDir))) ==>
            forall i :: 0 <= i < |xs| && Classify(xs[i]) != Invalid && (forall j :: 0 <= j <= i ==> Readable(pandas, xs[j])) ==>
              TimeCsv(pandas, dataDir, huc, xs[i]) in r.files)
  {
    var hucDir := HucDir(outputDir, huc);
    var ids := FeatureIdsPath(outputDir, huc);
    if ids in fs {
      assert Under(ids, hucDir);
      assert IdsFile(hucDir) in fs;
      forall p | p in fs && !Under(p, DischargeDir(hucDir))
        ensures p in EventSteps(fs, fetch, pandas, hucDir, dataDir, huc, xs).files
      {
        EventStepsKeep(fs, fetch, pandas, hucDir, dataDir, huc, xs, p);
      }
      if forall name :: !Under(dataDir + [name], DischargeDir(hucDir)) {
        EventStepsWrite(fs, fetch, pandas, hucDir, dataDir, huc, xs);
      }
    }
  }

  /** In the working folders the data folder lies outside every HUC folder, so
      each date or datetime of a HUC with its `feature_IDs.csv` that comes
      before any unreadable time leaves its CSV. */
  lemma HucRunWritesCsvs(cwd: Path, fs: FileSet, fetch: FileSet -> FileSet, pandas: Reader, huc: string,
                         xs: seq<TimeInput>, bound: bool)
    requires ReadsInstants(pandas) && forall x :: x in xs ==> ValidInput(x)
    requires Grows(fetch)
    requires FeatureIdsPath(Directories(cwd).2, huc) in fs
    ensures var dirs := Directories(cwd);
      forall i :: 0 <= i < |xs| && Classify(xs[i]) != Invalid && (forall j :: 0 <= j <= i ==> Readable(pandas, xs[j])) ==>
        TimeCsv(pandas, dirs.1, huc, xs[i]) in HucRun(fs, fetch, pandas, dirs.2, dirs.1, huc, xs, bound).files
  {
    var dirs := Directories(cwd);
    forall name
      ensures !Under(dirs.1 + [name], DischargeDir(HucDir(dirs.2, huc)))
    {
      DataOutsideHucs(cwd, huc, name, ["discharge"]);
    }
    HucRunEffects(fs, fetch, pandas, dirs.2, dirs.1, huc, xs, bound);
  }

  /** After a HUC, `time` is bound when it was before or the HUC's loop ran with
      at least one time. */
  function BoundAfter(fs: FileSet, outputDir: Path, huc: string, xs: seq<TimeInput>, bound: bool): bool {
    bound || (FeatureIdsPath(outputDir, huc) in fs && |xs| > 0)
  }

  /** The event dictionary, HUC by HUC, until one raises; a run of the whole
      dictionary starts with `bound` false. */
  function EventsRun(fs: FileSet, fetch: FileSet -> FileSet, pandas: Reader, outputDir: Path, dataDir: Path,
                     events: seq<(string, seq<TimeInput>)>, bound: bool): (r: Run)
    requires ReadsInstants(pandas) && Grows(fetch) && forall e, x :: e in events && x in e.1 ==> ValidInput(x)
    ensures r.raised.Some? ==>
      (exists e, x :: e in events && x in e.1 && !Readable(pandas, x)) ||
      (r.raised == Some(UnboundTime) && !bound && exists e :: e in events && |e.1| == 0)
    decreases |events|
  {
    if |events| == 0 then Run(fs, None)
    else
      assert events[0] in events;
      assert forall e :: e in events[1..] ==> e in events;
      var first := HucRun(fs, fetch, pandas, outputDir, dataDir, events[0].0, events[0].1, bound);
      if first.raised.Some? then
        assert first.raised != Some(UnboundTime) ==> exists x :: x in events[0].1 && !Readable(pandas, x);
        first
      else EventsRun(first.files, fetch, pandas, outputDir, dataDir, events[1..],
                     BoundAfter(fs, outputDir, events[0].0, events[0].1, bound))
  }

  /** The event runs remove nothing outside the discharge folders of the HUCs
      they were given, raise or not. */
  lemma {:induction false} EventsRunKeep(fs: FileSet, fetch: FileSet -> FileSet, pandas: Reader, outputDir: Path,
                                         dataDir: Path, events: seq<(string, seq<TimeInput>)>, bound: bool, p: Path)
    requires ReadsInstants(pandas) && forall e, x :: e in events && x in e.1 ==> ValidInput(x)
    requires Grows(fetch) && p in fs
    requires forall e :: e in events ==> !Under(p, DischargeDir(HucDir(outputDir, e.0)))
    ensures p in EventsRun(fs, fetch, pandas, outputDir, dataDir, events, bound).files
    decreases |events|
  {
    if |events| > 0 {
      assert events[0] in events;
      HucRunEffects(fs, fetch, pandas, outputDir, dataDir, events[0].0, events[0].1, bound);
      var first := HucRun(fs, fetch, pandas, outputDir, dataDir, events[0].0, events[0].1, bound);
      if first.raised.None? {
        EventsRunKeep(first.files, fetch, pandas, outputDir, dataDir, events[1..],
                      BoundAfter(fs, outputDir, events[0].0, events[0].1, bound), p);
      }
    }
  }

  // ------------------------------------------------------------ range mode

  /** The one fetch of the range mode, with the HUC's `feature_IDs.csv`. */
  function RangeFetch(fs: FileSet, fetch: FileSet -> FileSet, outputDir: Path, huc: string,
                      startDate: string, endDate: string): Run {
    GetNwmDischarge(fs, fetch, FeatureIdsPath(outputDir, huc), HucDir(outputDir, huc), "nwm30", startDate, endDate)
  }

  /** The range fetch raises nothing and leaves the HUC ready when the HUC has
      its `feature_IDs.csv`, `fetch` only adds files, and the window's parquet
      file is there before or after the fetch. */
  lemma RangeFetchReady(fs: FileSet, fetch: FileSet -> FileSet, outputDir: Path, huc: string,
                        startDate: string, endDate: string)
    requires Grows(fetch) && FeatureIdsPath(outputDir, huc) in fs
    requires var pq := ParquetPath(HucDir(outputDir, huc), "nwm30", startDate, endDate); pq in fs || pq in fetch(fs)
    ensures var got := RangeFetch(fs, fetch, outputDir, huc, startDate, endDate);
      got.raised.None? && Ready(got.files, HucDir(outputDir, huc))
  {
    var hucDir := HucDir(outputDir, huc);
    var got := RangeFetch(fs, fetch, outputDir, huc, startDate, endDate);
    assert IdsFile(hucDir) == FeatureIdsPath(outputDir, huc);
    assert fs <= got.files;
    ParquetPathFound(got.files, hucDir, startDate, endDate);
  }

  /** The range mode: one fetch for the whole range, raising when the window's
      file is missing and so is `feature_IDs.csv`; then the CSV of each time
      until one raises. */
  function RangeRun(fs: FileSet, fetch: FileSet -> FileSet, pandas: Reader, outputDir: Path, dataDir: Path,
                    huc: string, startDate: string, endDate: string, xs: seq<TimeInput>): (r: Run)
    ensures var got := RangeFetch(fs, fetch, outputDir, huc, startDate, endDate);
      && got.files <= r.files
      && (got.raised.Some? ==> r == got)
      && (r.raised.Some? <==> (got.raised.Some? ||
            (|xs| > 0 && !Ready(got.files, HucDir(outputDir, huc))) ||
            exists x :: x in xs && !Readable(pandas, x)))
      && (got.raised.None? && Ready(got.files, HucDir(outputDir, huc)) ==>
            forall i :: 0 <= i < |xs| && (forall j :: 0 <= j <= i ==> Readable(pandas, xs[j])) ==>
              TimeCsv(pandas, dataDir, huc, xs[i]) in r.files)
  {
    var got := RangeFetch(fs, fetch, outputDir, huc, startDate, endDate);
    if got.raised.Some? then got
    else
      RangeCsvsWrite(got.files, pandas, HucDir(outputDir, huc), dataDir, huc, xs);
      RangeCsvs(got.files, pandas, HucDir(outputDir, huc), dataDir, huc, xs)
  }

  /** `getdischargeforspecifiedtime` for each time in turn. Each call first
      reads the parquet files of the retrospective folder, raising when there is
      none, then `feature_IDs.csv`, raising when it is missing, then the time,
      where `pd.to_datetime` raises on text it cannot read; any time it reads
      gets its CSV, and only those CSVs are added. */
  function RangeCsvs(fs: FileSet, pandas: Reader, hucDir: Path, dataDir: Path, huc: string, xs: seq<TimeInput>): (r: Run)
    ensures fs <= r.files
    ensures |xs| > 0 && !Ready(fs, hucDir) ==>
      r == Run(fs, Some(if HasParquet(fs, RetroDir(hucDir, "nwm30")) then MissingFile(IdsFile(hucDir))
                        else NoParquet(RetroDir(hucDir, "nwm30"))))
    ensures r.raised.Some? <==> |xs| > 0 && (!Ready(fs, hucDir) || exists x :: x in xs && !Readable(pandas, x))
    ensures forall p :: p in r.files && p !in fs ==>
      exists x :: x in xs && Readable(pandas, x) && p == TimeCsv(pandas, dataDir, huc, x)
    decreases |xs|
  {
    var retro := RetroDir(hucDir, "nwm30");
    if |xs| == 0 then Run(fs, None)
    else if !HasParquet(fs, retro) then Run(fs, Some(NoParquet(retro)))
    else if IdsFile(hucDir) !in fs then Run(fs, Some(MissingFile(IdsFile(hucDir))))
    else if !Readable(pandas, xs[0]) then
      assert xs[0] in xs;
      Run(fs, Some(BadTime(xs[0].s)))
    else
      var csv := TimeCsv(pandas, dataDir, huc, xs[0]);
      var tail := xs[1..];
      var r := RangeCsvs(fs + {csv}, pandas, hucDir, dataDir, huc, tail);
      ReadyGrows(fs, fs + {csv}, hucDir);
      RangeCsvsExtend(fs, pandas, dataDir, huc, xs, r);
      r
  }

  /** The step of `RangeCsvs` from the rest of the times to all of them, when
      the first one is readable and its CSV was added. */
  lemma RangeCsvsExtend(fs: FileSet, pandas: Reader, dataDir: Path, huc: string, xs: seq<TimeInput>, r: Run)
    requires |xs| > 0 && Readable(pandas, xs[0])
    requires r.raised.Some? <==> exists x :: x in xs[1..] && !Readable(pandas, x)
    requires forall p :: p in r.files && p !in fs + {TimeCsv(pandas, dataDir, huc, xs[0])} ==>
      exists x :: x in xs[1..] && Readable(pandas, x) && p == TimeCsv(pandas, dataDir, huc, x)
    ensures r.raised.Some? <==> exists x :: x in xs && !Readable(pandas, x)
    ensures forall p :: p in r.files && p !in fs ==>
      exists x :: x in xs && Readable(pandas, x) && p == TimeCsv(pandas, dataDir, huc, x)
  {
    var tail := xs[1..];
    assert xs[0] in xs;
    assert forall x :: x in xs <==> x == xs[0] || x in tail;
    forall p | p in r.files && p !in fs
      ensures exists x :: x in xs && Readable(pandas, x) && p == TimeCsv(pandas, dataDir, huc, x)
    {
      if p != TimeCsv(pandas, dataDir, huc, xs[0]) {
        var x :| x in tail && Readable(pandas, x) && p == TimeCsv(pandas, dataDir, huc, x);
      }
    }
  }

  /** When the HUC is ready, every time reached before any time raises has its
      CSV. */
  lemma {:induction false} RangeCsvsWrite(fs: FileSet, pandas: Reader, hucDir: Path, dataDir: Path, huc: string,
                                          xs: seq<TimeInput>)
    ensures Ready(fs, hucDir) ==>
      forall i :: 0 <= i < |xs| && (forall j :: 0 <= j <= i ==> Readable(pandas, xs[j])) ==>
        TimeCsv(pandas, dataDir, huc, xs[i]) in RangeCsvs(fs, pandas, hucDir, dataDir, huc, xs).files
    decreases |xs|
  {
    if Ready(fs, hucDir) && |xs| > 0 && Readable(pandas, xs[0]) {
      var tail := xs[1..];
      var next := fs + {TimeCsv(pandas, dataDir, huc, xs[0])};
      ReadyGrows(fs, next, hucDir);
      RangeCsvsWrite(next, pandas, hucDir, dataDir, huc, tail);
      forall i | 0 < i < |xs| && (forall j :: 0 <= j <= i ==> Readable(pandas, xs[j]))
        ensures TimeCsv(pandas, dataDir, huc, xs[i]) in RangeCsvs(fs, pandas, hucDir, dataDir, huc, xs).files
      {
        assert xs[i] == tail[i - 1];
        forall j | 0 <= j <= i - 1
          ensures Readable(pandas, tail[j])
        {
          assert tail[j] == xs[j + 1];
        }
      }
    }
  }

  /** When the HUC is ready, the first time pandas cannot read ends the range
      mode with the CSVs of the earlier times written; no later time gets one. */
  lemma {:induction false} RangeCsvsStop(fs: FileSet, pandas: Reader, hucDir: Path, dataDir: Path, huc: string,
                                         xs: seq<TimeInput>, i: nat)
    requires i < |xs| && !Readable(pandas, xs[i]) && forall j :: 0 <= j < i ==> Readable(pandas, xs[j])
    ensures Ready(fs, hucDir) ==>
      RangeCsvs(fs, pandas, hucDir, dataDir, huc, xs) ==
        Run(RangeCsvs(fs, pandas, hucDir, dataDir, huc, xs[..i]).files, Some(BadTime(xs[i].s)))
    decreases i
  {
    if i > 0 && Ready(fs, hucDir) {
      assert Readable(pandas, xs[0]);
      var tail := xs[1..];
      assert forall j :: 0 <= j < i - 1 ==> Readable(pandas, tail[j]) by {
        forall j | 0 <= j < i - 1
          ensures Readable(pandas, tail[j])
        {
          assert tail[j] == xs[j + 1];
        }
      }
      assert tail[i - 1] == xs[i];
      var next, pre := fs + {TimeCsv(pandas, dataDir, huc, xs[0])}, xs[..i];
      assert pre[0] == xs[0] && pre[1..] == tail[..i - 1];
      ReadyGrows(fs, next, hucDir);
      RangeCsvsStop(next, pandas, hucDir, dataDir, huc, tail, i - 1);
      assert RangeCsvs(fs, pandas, hucDir, dataDir, huc, xs) == RangeCsvs(next, pandas, hucDir, dataDir, huc, tail);
      assert RangeCsvs(fs, pandas, hucDir, dataDir, huc, pre) == RangeCsvs(next, pandas, hucDir, dataDir, huc, pre[1..]);
    }
  }

  /** Text that pandas reads but neither `strptime` format does is written under
      its `%Y%m%d%H%M%S` name, as a datetime. */
  lemma RangeCsvOfInvalid(pandas: Reader, dataDir: Path, huc: string, x: TimeInput)
    requires Readable(pandas, x) && Classify(x) == Invalid
    ensures TimeCsv(pandas, dataDir, huc, x) == dataDir + [CsvName(DateTimeKind, ToDatetime(pandas, x).value, huc)]
  {
  }

  /** For example `2020/01/05`, which pandas reads as that day's midnight, is
      written by a ready HUC as `20200105000000_<huc>.csv`. */
  lemma RangeCsvOfSlashDate(fs: FileSet, pandas: Reader, hucDir: Path, dataDir: Path, huc: string)
    requires pandas("2020/01/05") == Some(DateTime(Date(2020, 1, 5), 0, 0, 0))
    ensures Ready(fs, hucDir) ==>
      RangeCsvs(fs, pandas, hucDir, dataDir, huc, [TextValue("2020/01/05")]) ==
        Run(fs + {dataDir + ["20200105000000" + "_" + huc + ".csv"]}, None)
  {
    var x := TextValue("2020/01/05");
    var t := DateTime(Date(2020, 1, 5), 0, 0, 0);
    SlashDateInvalid();
    ExampleCsvName(huc);
    assert TimeCsv(pandas, dataDir, huc, x) == dataDir + ["20200105000000" + "_" + huc + ".csv"];
    RangeCsvsSingle(fs, pandas, hucDir, dataDir, huc, x);
  }

  lemma ExampleCsvName(huc: string)
    ensures CsvName(Invalid, DateTime(Date(2020, 1, 5), 0, 0, 0), huc) == "20200105000000" + "_" + huc + ".csv"
  {
    StampOfExample();
  }

  /** In a ready HUC one time pandas reads adds its CSV and raises nothing. */
  lemma RangeCsvsSingle(fs: FileSet, pandas: Reader, hucDir: Path, dataDir: Path, huc: string, x: TimeInput)
    requires Readable(pandas, x)
    ensures Ready(fs, hucDir) ==>
      RangeCsvs(fs, pandas, hucDir, dataDir, huc, [x]) == Run(fs + {TimeCsv(pandas, dataDir, huc, x)}, None)
  {
    assert [x][1..] == [];
  }


  lemma SlashDateInvalid()
    ensures Classify(TextValue("2020/01/05")) == Invalid
  {
    NoDashAfterYear("2020/01/05");
  }

  lemma StampOfExample()
    ensures CsvStamp(DateTimeKind, DateTime(Date(2020, 1, 5), 0, 0, 0)) == "20200105000000"
  {
    NatStrOfYear();
    assert PadInt(2020, 4) == "2020";
    PadDigit(1);
    PadDigit(5);
    PadDigit(0);
  }

  lemma NatStrOfYear()
    ensures NatStr(2020) == "2020"
  {
    assert NatStr(2) == "2";
    assert NatStr(20) == NatStr(2) + "0";
    assert NatStr(202) == NatStr(20) + "2";
    assert NatStr(2020) == NatStr(202) + "0";
  }

  lemma PadDigit(n: nat)
    requires n < 10
    ensures PadInt(n, 2) == ['0', DigitChar(n)]
  {
    assert NatStr(n) == [DigitChar(n)];
    assert Zeros(1) == "0";
  }

  /** Text without a dash after its first four characters is neither a date
      nor a datetime. */
  lemma NoDashAfterYear(s: string)
    requires |s| > 4 && s[4] != '-'
    ensures StrptimeIso(s).None? && StrptimeIsoTime(s).None?
  {
    var y := MatchYear(s);
    if y.Some? {
      assert y.value.rest[0] == s[4];
    }
    assert MatchIsoFields(s).None?;
  }

  /** Where pandas agrees with `strptime` and every time is a date or a datetime,
      a range run whose fetch left the HUC ready raises nothing and every time
      has the CSV its `strptime` reading names; one with times whose fetch
      raised or left it unready raises. */
  lemma RangeRunClassified(fs: FileSet, fetch: FileSet -> FileSet, pandas: Reader, outputDir: Path, dataDir: Path,
                           huc: string, startDate: string, endDate: string, xs: seq<TimeInput>)
    requires AgreesWithStrptime(pandas)
    requires forall x :: x in xs ==> ValidInput(x) && Classify(x) != Invalid
    ensures var got := RangeFetch(fs, fetch, outputDir, huc, startDate, endDate);
      var r := RangeRun(fs, fetch, pandas, outputDir, dataDir, huc, startDate, endDate, xs);
      && (got.raised.None? && Ready(got.files, HucDir(outputDir, huc)) ==>
            r.raised.None? && forall x :: x in xs ==> dataDir + [CsvName(Classify(x), TimeOf(x), huc)] in r.files)
      && (|xs| > 0 && !(got.raised.None? && Ready(got.files, HucDir(outputDir, huc))) ==> r.raised.Some?)
  {
    forall x | x in xs
      ensures Readable(pandas, x) && ToDatetime(pandas, x) == Some(TimeOf(x))
    {
      ToDatetimeOfClassified(pandas, x);
    }
    var got := RangeFetch(fs, fetch, outputDir, huc, startDate, endDate);
    if got.raised.None? && Ready(got.files, HucDir(outputDir, huc)) {
      forall x | x in xs
        ensures dataDir + [CsvName(Classify(x), TimeOf(x), huc)] in RangeRun(fs, fetch, pandas, outputDir, dataDir, huc, startDate, endDate, xs).files
      {
        var i :| 0 <= i < |xs| && xs[i] == x;
        assert forall j :: 0 <= j <= i ==> Readable(pandas, xs[j]);
      }
    }
  }
}

=== FILE: seqs.dfy ===
/** Sequence utilities shared by the catalog filters, the forecast grouping and
    the feature-id de-duplication: order-preserving filtering, subsequences,
    first-occurrence de-duplication and grouping by key. */
module Seqs {

  /** `a` can be obtained from `b` by deleting elements (order preserved). */
  predicate IsSubseq<T(==)>(a: seq<T>, b: seq<T>)
    decreases |b|
  {
    |a| == 0 ||
    (|b| > 0 && (if a[0] == b[0] then IsSubseq(a[1..], b[1..]) else IsSubseq(a, b[1..])))
  }

  /** List comprehension `[x for x in s if p(x)]`. */
  function Filter<T(==,!new)>(s: seq<T>, p: T -> bool): (r: seq<T>)
    ensures |r| <= |s|
    ensures forall x :: x in r <==> x in s && p(x)
    ensures IsSubseq(r, s)
    ensures multiset(r) <= multiset(s)
  {
    if |s| == 0 then []
    else
      assert s == [s[0]] + s[1..];
      if p(s[0]) then [s[0]] + Filter(s[1..], p) else Filter(s[1..], p)
  }

  /** Nothing passes a filter no element satisfies. */
  lemma {:induction false} FilterNone<T(!new)>(s: seq<T>, p: T -> bool)
    requires forall x :: x in s ==> !p(x)
    ensures Filter(s, p) == []
  {
    if |s| > 0 {
      assert s[0] in s;
      assert forall x :: x in s[1..] ==> x in s;
      FilterNone(s[1..], p);
    }
  }

  /** Filtering twice is filtering once by the conjunction. */
  lemma {:induction false} FilterFuse<T(!new)>(s: seq<T>, p: T -> bool, q: T -> bool, pq: T -> bool)
    requires forall x :: pq(x) == (p(x) && q(x))
    ensures Filter(Filter(s, p), q) == Filter(s, pq)
  {
    if |s| > 0 {
      FilterFuse(s[1..], p, q, pq);
      if p(s[0]) {
        assert Filter(s, p) == [s[0]] + Filter(s[1..], p);
        assert Filter(s, p)[1..] == Filter(s[1..], p);
      }
    }
  }

  /** Filtering by a predicate every element already satisfies changes nothing. */
  lemma {:induction false} FilterKeepsAll<T(!new)>(s: seq<T>, p: T -> bool)
    requires forall x :: x in s ==> p(x)
    ensures Filter(s, p) == s
  {
    if |s| > 0 {
      FilterKeepsAll(s[1..], p);
    }
  }

  /** Two predicates that agree on the elements select the same subsequence. */
  lemma {:induction false} FilterAgree<T(!new)>(s: seq<T>, p: T -> bool, q: T -> bool)
    requires forall x :: x in s ==> p(x) == q(x)
    ensures Filter(s, p) == Filter(s, q)
  {
    if |s| > 0 {
      FilterAgree(s[1..], p, q);
    }
  }

  /** A stronger predicate selects a sub-multiset. */
  lemma {:induction false} FilterMonotone<T(!new)>(s: seq<T>, p: T -> bool, q: T -> bool)
    requires forall x :: p(x) ==> q(x)
    ensures multiset(Filter(s, p)) <= multiset(Filter(s, q))
  {
    if |s| > 0 {
      FilterMonotone(s[1..], p, q);
    }
  }

  /** No element occurs twice. */
  predicate NoDup<T(==)>(s: seq<T>) {
    forall i, j :: 0 <= i < j < |s| ==> s[i] != s[j]
  }

  /** Position of the first occurrence of `x` (Python's `s.index(x)`). */
  function FirstIndex<T(==)>(s: seq<T>, x: T): (i: nat)
    requires x in s
    ensures i < |s| && s[i] == x
    ensures forall k :: 0 <= k < i ==> s[k] != x
  {
    if s[0] == x then 0 else 1 + FirstIndex(s[1..], x)
  }

  lemma FirstIndexTail<T>(s: seq<T>, x: T)
    requires |s| > 0 && x in s && s[0] != x
    ensures x in s[1..] && FirstIndex(s, x) == FirstIndex(s[1..], x) + 1
  {
  }

  /** First-occurrence de-duplication skipping the values in `seen`. */
  function DedupFrom<T(==,!new)>(s: seq<T>, seen: set<T>): (r: seq<T>)
    ensures NoDup(r)
    ensures forall x :: x in r <==> x in s && x !in seen
    ensures forall i, j :: 0 <= i < j < |r| ==> FirstIndex(s, r[i]) < FirstIndex(s, r[j])
  {
    if |s| == 0 then []
    else
      var rest := if s[0] in seen then DedupFrom(s[1..], seen) else DedupFrom(s[1..], seen + {s[0]});
      assert forall y :: y in rest ==> y != s[0] && y in s[1..];
      forall y | y in rest
        ensures FirstIndex(s, y) == FirstIndex(s[1..], y) + 1
      {
        FirstIndexTail(s, y);
      }
      if s[0] in seen then rest else [s[0]] + rest
  }

  /** `list(dict.fromkeys(s))` / pandas `drop_duplicates()`: every value once, in the
      order of its first occurrence. */
  function Dedup<T(==,!new)>(s: seq<T>): (r: seq<T>)
    ensures NoDup(r)
    ensures forall x :: x in r <==> x in s
    ensures forall i, j :: 0 <= i < j < |r| ==> FirstIndex(s, r[i]) < FirstIndex(s, r[j])
  {
    DedupFrom(s, {})
  }

  /** `pd.concat(tables)`: the elements of every sequence, one sequence after another. */
  function Flatten<T>(ss: seq<seq<T>>): seq<T> {
    if |ss| == 0 then [] else ss[0] + Flatten(ss[1..])
  }

  /** An element of the concatenation comes from one of the parts, and every
      part's elements are in it. */
  lemma {:induction false} FlattenHas<T>(ss: seq<seq<T>>, x: T)
    ensures x in Flatten(ss) <==> exists i :: 0 <= i < |ss| && x in ss[i]
  {
    if |ss| > 0 {
      FlattenHas(ss[1..], x);
      if exists i :: 0 <= i < |ss| && x in ss[i] {
        var i :| 0 <= i < |ss| && x in ss[i];
        if i > 0 {
          assert x in ss[1..][i - 1];
        }
      }
      if x in Flatten(ss[1..]) {
        var i :| 0 <= i < |ss[1..]| && x in ss[1..][i];
        assert x in ss[i + 1];
      }
    }
  }

  /** `[f(x) for x in s]`. */
  function Map<T, U>(s: seq<T>, f: T -> U): (r: seq<U>)
    ensures |r| == |s|
    ensures forall i :: 0 <= i < |s| ==> r[i] == f(s[i])
  {
    seq(|s|, i requires 0 <= i < |s| => f(s[i]))
  }

  /** The values of `[f(x) for x in s]` are exactly the images of the elements of `s`. */
  lemma MapValues<T, U>(s: seq<T>, f: T -> U)
    ensures forall y :: y in Map(s, f) <==> exists x :: x in s && f(x) == y
  {
    forall y | y in Map(s, f)
      ensures exists x :: x in s && f(x) == y
    {
      var i :| 0 <= i < |s| && Map(s, f)[i] == y;
      assert s[i] in s;
    }
    forall y | exists x :: x in s && f(x) == y
      ensures y in Map(s, f)
    {
      var x :| x in s && f(x) == y;
      var i :| 0 <= i < |s| && s[i] == x;
      assert Map(s, f)[i] == y;
    }
  }

  /** One group per key, in the order of `keys`, each holding the elements of `s`
      with that key in their original order. */
  function GroupBy<T(==,!new), K(==)>(s: seq<T>, keys: seq<K>, keyOf: T -> K): (r: seq<(K, seq<T>)>)
    ensures |r| == |keys|
    ensures forall i :: 0 <= i < |r| ==> r[i].0 == keys[i]
    ensures forall i, x :: 0 <= i < |r| ==> (x in r[i].1 <==> x in s && keyOf(x) == keys[i])
    ensures forall i :: 0 <= i < |r| ==> IsSubseq(r[i].1, s)
  {
    seq(|keys|, i requires 0 <= i < |keys| => (keys[i], Filter(s, x => keyOf(x) == keys[i])))
  }

  /** When the keys are exactly the distinct keys of `s`, the groups partition `s`:
      every element sits in exactly one group, the one of its key, and no group is empty. */
  lemma GroupByPartitions<T(!new), K>(s: seq<T>, keys: seq<K>, keyOf: T -> K)
    requires NoDup(keys)
    requires forall k :: k in keys <==> exists x :: x in s && keyOf(x) == k
    ensures forall x :: x in s ==> exists i :: 0 <= i < |keys| && x in GroupBy(s, keys, keyOf)[i].1
    ensures forall x, i, j ::
              (0 <= i < |keys| && 0 <= j < |keys| && x in GroupBy(s, keys, keyOf)[i].1 && x in GroupBy(s, keys, keyOf)[j].1)
              ==> i == j
    ensures forall i :: 0 <= i < |keys| ==> |GroupBy(s, keys, keyOf)[i].1| > 0
  {
    var g := GroupBy(s, keys, keyOf);
    forall x | x in s
      ensures exists i :: 0 <= i < |keys| && x in g[i].1
    {
      var i := FirstIndex(keys, keyOf(x));
      assert x in g[i].1;
    }
    forall i | 0 <= i < |keys|
      ensures |g[i].1| > 0
    {
      assert keys[i] in keys;
      var x :| x in s && keyOf(x) == keys[i];
      assert x in g[i].1;
    }
  }
}

=== FILE: sorting.dfy ===
/** Python's `list.sort(key=...)` for keys that are pairs of strings, and
    `sorted(set(xs))` for strings: a stable insertion sort and an insertion into
    a strictly increasing list. */
module Sorting {
  import opened Text
  import opened Seqs

  /** A `(str, str)` sort key; tuples compare component by component. */
  type Key = (string, string)

  predicate KeyLt(a: Key, b: Key) {
    StrLt(a.0, b.0) || (a.0 == b.0 && StrLt(a.1, b.1))
  }

  predicate KeyLe(a: Key, b: Key) {
    a == b || KeyLt(a, b)
  }

  /** Tuple order is a strict total order. */
  lemma KeyLtTotal(a: Key, b: Key)
    ensures a != b ==> KeyLt(a, b) || KeyLt(b, a)
    ensures !(KeyLt(a, b) && KeyLt(b, a))
    ensures !KeyLt(a, a)
  {
    StrLtTotal(a.0, b.0);
    StrLtTotal(a.1, b.1);
    StrLtIrreflexive(a.0);
    StrLtIrreflexive(a.1);
  }

  lemma KeyLtTransitive(a: Key, b: Key, c: Key)
    requires KeyLt(a, b) && KeyLt(b, c)
    ensures KeyLt(a, c)
  {
    if StrLt(a.0, b.0) && StrLt(b.0, c.0) {
      StrLtTransitive(a.0, b.0, c.0);
    } else if a.0 == b.0 && b.0 == c.0 {
      StrLtTransitive(a.1, b.1, c.1);
    }
  }

  lemma KeyLeTransitive(a: Key, b: Key, c: Key)
    requires KeyLe(a, b) && KeyLe(b, c)
    ensures KeyLe(a, c)
  {
    if a != b && b != c {
      KeyLtTransitive(a, b, c);
    }
  }

  /** Every element's key is at most every later element's key. */
  predicate SortedBy<T>(s: seq<T>, key: T -> Key) {
    forall i, j :: 0 <= i < j < |s| ==> KeyLe(key(s[i]), key(s[j]))
  }

  /** Inserts `x` before the first element whose key is not below `key(x)`. */
  function Insert<T>(x: T, s: seq<T>, key: T -> Key): (r: seq<T>)
    ensures multiset(r) == multiset(s) + multiset{x}
    ensures |r| == |s| + 1
    ensures SortedBy(s, key) ==> SortedBy(r, key)
  {
    if |s| == 0 then [x]
    else if KeyLe(key(x), key(s[0])) then
      InsertFrontSorted(x, s, key);
      [x] + s
    else
      var t := Insert(x, s[1..], key);
      assert s == [s[0]] + s[1..];
      InsertBehindSorted(x, s, t, key);
      [s[0]] + t
  }

  lemma InsertFrontSorted<T>(x: T, s: seq<T>, key: T -> Key)
    requires |s| > 0 && KeyLe(key(x), key(s[0]))
    ensures SortedBy(s, key) ==> SortedBy([x] + s, key)
  {
    if SortedBy(s, key) {
      var r := [x] + s;
      forall i, j | 0 <= i < j < |r|
        ensures KeyLe(key(r[i]), key(r[j]))
      {
        if i == 0 && j > 1 {
          KeyLeTransitive(key(x), key(s[0]), key(s[j - 1]));
        }
      }
    }
  }

  lemma InsertBehindSorted<T>(x: T, s: seq<T>, t: seq<T>, key: T -> Key)
    requires |s| > 0 && !KeyLe(key(x), key(s[0]))
    requires multiset(t) == multiset(s[1..]) + multiset{x}
    requires SortedBy(s[1..], key) ==> SortedBy(t, key)
    ensures SortedBy(s, key) ==> SortedBy([s[0]] + t, key)
  {
    if SortedBy(s, key) {
      KeyLtTotal(key(x), key(s[0]));
      var r := [s[0]] + t;
      forall j | 0 < j < |r|
        ensures KeyLe(key(s[0]), key(r[j]))
      {
        assert r[j] in multiset(t);
        if r[j] == x {
        } else {
          assert r[j] in multiset(s[1..]);
          var k :| 0 <= k < |s[1..]| && s[1..][k] == r[j];
          assert s[k + 1] == r[j];
        }
      }
    }
  }

  /** `sorted(s, key=key)`: a stable sort. */
  function SortBy<T>(s: seq<T>, key: T -> Key): (r: seq<T>)
    ensures SortedBy(r, key)
    ensures multiset(r) == multiset(s) && |r| == |s|
  {
    if |s| == 0 then []
    else
      assert s == [s[0]] + s[1..];
      Insert(s[0], SortBy(s[1..], key), key)
  }

  /** The elements of `s` whose key is `k`, in order. */
  ghost function KeyGroup<T(!new)>(s: seq<T>, key: T -> Key, k: Key): seq<T> {
    Filter(s, y => key(y) == k)
  }

  /** Insertion keeps, among the elements of any one key, their relative order. */
  lemma {:induction false} InsertStable<T(!new)>(x: T, s: seq<T>, key: T -> Key, k: Key)
    ensures KeyGroup(Insert(x, s, key), key, k)
         == (if key(x) == k then [x] + KeyGroup(s, key, k) else KeyGroup(s, key, k))
  {
    var p := y => key(y) == k;
    if |s| > 0 {
      if KeyLe(key(x), key(s[0])) {
        assert ([x] + s)[1..] == s;
      } else {
        InsertStable(x, s[1..], key, k);
        KeyLtTotal(key(x), key(s[0]));
        var t := Insert(x, s[1..], key);
        assert ([s[0]] + t)[1..] == t;
        if key(x) == k {
          assert key(s[0]) != k;
          assert ([x] + Filter(s[1..], p))[1..] == Filter(s[1..], p);
        }
      }
    }
  }

  /** Stability: the elements with any given key appear in the result in their
      input order. */
  lemma {:induction false} SortByStable<T(!new)>(s: seq<T>, key: T -> Key, k: Key)
    ensures KeyGroup(SortBy(s, key), key, k) == KeyGroup(s, key, k)
  {
    if |s| > 0 {
      SortByStable(s[1..], key, k);
      InsertStable(s[0], SortBy(s[1..], key), key, k);
    }
  }

  // ------------------------------------------------------ sorted(set(xs))

  /** Strictly increasing in string order, hence free of duplicates. */
  predicate StrictlySorted(s: seq<string>) {
    forall i, j :: 0 <= i < j < |s| ==> StrLt(s[i], s[j])
  }

  /** Inserts `x` into a strictly increasing list unless it is already there. */
  function InsertUniq(x: string, s: seq<string>): (r: seq<string>)
    requires StrictlySorted(s)
    ensures StrictlySorted(r)
    ensures forall y :: y in r <==> y == x || y in s
  {
    if |s| == 0 then [x]
    else if x == s[0] then s
    else if StrLt(x, s[0]) then
      assert forall j :: 0 < j < |s| ==> StrLt(s[0], s[j]);
      forall j | 0 < j < |s|
        ensures StrLt(x, s[j])
      {
        StrLtTransitive(x, s[0], s[j]);
      }
      [x] + s
    else
      StrLtTotal(x, s[0]);
      var t := InsertUniq(x, s[1..]);
      assert forall y :: y in s[1..] ==> StrLt(s[0], y);
      [s[0]] + t
  }

  /** `sorted(set(xs))`. */
  function SortedUniq(xs: seq<string>): (r: seq<string>)
    ensures StrictlySorted(r)
    ensures forall y :: y in r <==> y in xs
  {
    if |xs| == 0 then [] else InsertUniq(xs[0], SortedUniq(xs[1..]))
  }

  /** The head of a strictly increasing list is its least element. */
  lemma HeadIsLeast(a: seq<string>, y: string)
    requires StrictlySorted(a) && y in a
    ensures a[0] == y || StrLt(a[0], y)
  {
    var j :| 0 <= j < |a| && a[j] == y;
    if j > 0 {
      assert StrLt(a[0], a[j]);
    }
  }

  /** A strictly increasing list is determined by its elements, so `sorted(set(xs))`
      is the one canonical listing of the distinct values. */
  lemma {:induction false} StrictlySortedUnique(a: seq<string>, b: seq<string>)
    requires StrictlySorted(a) && StrictlySorted(b)
    requires forall y :: y in a <==> y in b
    ensures a == b
    decreases |a|
  {
    if |a| > 0 {
      assert a[0] in b;
    }
    if |b| > 0 {
      assert b[0] in a;
    }
    if |a| > 0 && |b| > 0 {
      HeadIsLeast(a, b[0]);
      HeadIsLeast(b, a[0]);
      StrLtTotal(a[0], b[0]);
      forall y
        ensures y in a[1..] <==> y in b[1..]
      {
        if y in a[1..] {
          var i :| 0 <= i < |a[1..]| && a[1..][i] == y;
          assert StrLt(a[0], a[i + 1]);
          StrLtIrreflexive(y);
          assert a[i + 1] in a;
          var j :| 0 <= j < |b| && b[j] == y;
          assert j > 0 && b[1..][j - 1] == y;
        }
        if y in b[1..] {
          var i :| 0 <= i < |b[1..]| && b[1..][i] == y;
          assert StrLt(b[0], b[i + 1]);
          StrLtIrreflexive(y);
          assert b[i + 1] in b;
          var j :| 0 <= j < |a| && a[j] == y;
          assert j > 0 && a[1..][j - 1] == y;
        }
      }
      StrictlySortedUnique(a[1..], b[1..]);
    }
  }
}

=== FILE: text.dfy ===
/** The parts of Python's `str` that the modelled code relies on: whitespace
    (`str.strip`, regex `\s`), character replacement, `str.replace`, `str.find`,
    `str.split`, `str(int)`, `int(str)`, zero-padded `format` and the code-point
    ordering used by `sorted`. Strings are `seq<char>`; only ASCII digits are digits. */
module Text {
  import opened Wrappers

  /** Python's `str.isspace` (also what regex `\s` matches in a `str` pattern). */
  predicate IsSpace(c: char) {
    ('\t' <= c <= '\r') || ('\U{1C}' <= c <= '\U{1F}') || c == ' ' || c == '\U{85}' || c == '\U{A0}' ||
    c == '\U{1680}' || ('\U{2000}' <= c <= '\U{200A}') || c == '\U{2028}' || c == '\U{2029}' ||
    c == '\U{202F}' || c == '\U{205F}' || c == '\U{3000}'
  }

  predicate IsDigit(c: char) {
    '0' <= c <= '9'
  }

  predicate AllDigits(s: string) {
    forall i :: 0 <= i < |s| ==> IsDigit(s[i])
  }

  function DigitVal(c: char): nat
    requires IsDigit(c)
  {
    c as int - '0' as int
  }

  function DigitChar(d: nat): (c: char)
    requires d < 10
    ensures IsDigit(c) && DigitVal(c) == d
  {
    ('0' as int + d) as char
  }

  // ---------------------------------------------------------------- whitespace

  /** `s.startswith(p)`. */
  predicate StartsWith(s: string, p: string) {
    |p| <= |s| && s[..|p|] == p
  }

  lemma ConcatAssoc(a: string, b: string, c: string)
    ensures a + b + c == a + (b + c)
  {
  }

  lemma StartsWithAppend(p: string, t: string)
    ensures StartsWith(p + t, p)
  {
    assert (p + t)[..|p|] == p;
  }

  lemma StartsWithExtend(s: string, p: string, t: string)
    requires StartsWith(s, p)
    ensures StartsWith(s + t, p)
  {
    assert (s + t)[..|p|] == s[..|p|];
  }

  /** `s.endswith(p)`. */
  predicate EndsWith(s: string, p: string) {
    |p| <= |s| && s[|s| - |p|..] == p
  }

  lemma EndsWithAppend(s: string, p: string)
    ensures EndsWith(s + p, p)
  {
    assert (s + p)[|s|..] == p;
  }

  lemma EndsWithPrepend(s: string, t: string, p: string)
    requires EndsWith(t, p)
    ensures EndsWith(s + t, p)
  {
    assert (s + t)[|s + t| - |p|..] == t[|t| - |p|..];
  }

  /** `s.lstrip()`: a suffix of `s`, having dropped only whitespace. */
  function LStrip(s: string): (r: string)
    ensures |r| <= |s| && r == s[|s| - |r|..]
    ensures forall i :: 0 <= i < |s| - |r| ==> IsSpace(s[i])
    ensures |r| == 0 || !IsSpace(r[0])
  {
    if |s| > 0 && IsSpace(s[0]) then LStrip(s[1..]) else s
  }

  /** `s.rstrip()`: a prefix of `s`, having dropped only whitespace. */
  function RStrip(s: string): (r: string)
    ensures |r| <= |s| && r == s[..|r|]
    ensures forall i :: |r| <= i < |s| ==> IsSpace(s[i])
    ensures |r| == 0 || !IsSpace(r[|r| - 1])
  {
    if |s| > 0 && IsSpace(s[|s| - 1]) then RStrip(s[..|s| - 1]) else s
  }

  /** Neither starts nor ends with whitespace. */
  predicate Stripped(s: string) {
    |s| == 0 || (!IsSpace(s[0]) && !IsSpace(s[|s| - 1]))
  }

  /** Index of the first character `s.strip()` keeps. */
  function StripStart(s: string): nat {
    |s| - |LStrip(s)|
  }

  /** `s.strip()`: the slice of `s` starting at `StripStart(s)` left after dropping
      leading and trailing whitespace. */
  function Strip(s: string): (r: string)
    ensures Stripped(r)
    ensures StripStart(s) + |r| <= |s| && r == s[StripStart(s)..StripStart(s) + |r|]
    ensures forall i :: 0 <= i < StripStart(s) ==> IsSpace(s[i])
    ensures forall i :: StripStart(s) + |r| <= i < |s| ==> IsSpace(s[i])
  {
    RStrip(LStrip(s))
  }

  /** Stripping a stripped string changes nothing, so `strip` is idempotent. */
  lemma StripStripped(s: string)
    requires Stripped(s)
    ensures Strip(s) == s
  {
  }

  lemma StripIdempotent(s: string)
    ensures Strip(Strip(s)) == Strip(s)
  {
    StripStripped(Strip(s));
  }

  /** `s.replace(a, b)` for single characters. */
  function ReplaceChar(s: string, a: char, b: char): (r: string)
    ensures |r| == |s|
    ensures forall i :: 0 <= i < |s| ==> r[i] == (if s[i] == a then b else s[i])
  {
    seq(|s|, i requires 0 <= i < |s| => if s[i] == a then b else s[i])
  }

  /** Replacing a character that does not occur changes nothing. */
  lemma ReplaceCharAbsent(s: string, a: char, b: char)
    requires a !in s
    ensures ReplaceChar(s, a, b) == s
  {
    var r := ReplaceChar(s, a, b);
    forall i | 0 <= i < |s|
      ensures r[i] == s[i]
    {
      assert s[i] in s;
    }
  }

  /** Every whitespace character is a plain space and no two spaces are adjacent. */
  predicate Collapsed(s: string) {
    && (forall i :: 0 <= i < |s| && IsSpace(s[i]) ==> s[i] == ' ')
    && (forall i, j :: 0 <= i < |s| && 0 <= j < |s| && j == i + 1 ==> !(IsSpace(s[i]) && IsSpace(s[j])))
  }

  /** `re.sub(r"\s+", " ", s)`: each maximal run of whitespace becomes one space. */
  function CollapseSpaces(s: string): (r: string)
    ensures |r| == 0 <==> |s| == 0
    ensures |s| > 0 ==> (IsSpace(r[0]) <==> IsSpace(s[0]))
    decreases |s|
  {
    if |s| == 0 then []
    else if IsSpace(s[0]) then [' '] + CollapseSpaces(LStrip(s[1..]))
    else [s[0]] + CollapseSpaces(s[1..])
  }

  /** Putting a character before a collapsed string keeps it collapsed when a
      leading blank is a plain space not followed by another blank. */
  lemma CollapsedCons(h: char, c: string)
    requires Collapsed(c)
    requires IsSpace(h) ==> h == ' ' && (|c| == 0 || !IsSpace(c[0]))
    ensures Collapsed([h] + c)
  {
    var r := [h] + c;
    forall i | 0 <= i < |r| && IsSpace(r[i])
      ensures r[i] == ' '
    {
      if i > 0 {
        assert r[i] == c[i - 1];
      }
    }
    forall i, j | 0 <= i < |r| && 0 <= j < |r| && j == i + 1
      ensures !(IsSpace(r[i]) && IsSpace(r[j]))
    {
      if i > 0 {
        assert r[i] == c[i - 1] && r[j] == c[j - 1];
      }
    }
  }

  /** The result of collapsing is collapsed. */
  lemma {:induction false} CollapseIsCollapsed(s: string)
    ensures Collapsed(CollapseSpaces(s))
    decreases |s|
  {
    if |s| > 0 {
      var t := if IsSpace(s[0]) then LStrip(s[1..]) else s[1..];
      CollapseIsCollapsed(t);
      var h := if IsSpace(s[0]) then ' ' else s[0];
      assert CollapseSpaces(s) == [h] + CollapseSpaces(t);
      CollapsedCons(h, CollapseSpaces(t));
    }
  }

  /** Collapsing introduces no character other than the space. */
  lemma {:induction false} CollapseChars(s: string)
    ensures forall c :: c in CollapseSpaces(s) ==> c == ' ' || (c in s && !IsSpace(c))
    decreases |s|
  {
    if |s| > 0 {
      var t := if IsSpace(s[0]) then LStrip(s[1..]) else s[1..];
      CollapseChars(t);
      assert forall c :: c in t ==> c in s;
    }
  }

  /** Collapsing keeps a non-space last character last. */
  lemma {:induction false} CollapseKeepsLast(s: string)
    requires |s| > 0 && !IsSpace(s[|s| - 1])
    ensures !IsSpace(CollapseSpaces(s)[|CollapseSpaces(s)| - 1])
    decreases |s|
  {
    if IsSpace(s[0]) {
      var t := LStrip(s[1..]);
      assert |t| > 0 && t[|t| - 1] == s[|s| - 1];
      CollapseKeepsLast(t);
    } else if |s| > 1 {
      CollapseKeepsLast(s[1..]);
    }
  }

  /** A collapsed string is a fixed point of `CollapseSpaces`. */
  lemma {:induction false} CollapseCollapsed(s: string)
    requires Collapsed(s)
    ensures CollapseSpaces(s) == s
    decreases |s|
  {
    if |s| > 0 {
      assert Collapsed(s[1..]);
      if IsSpace(s[0]) {
        assert LStrip(s[1..]) == s[1..];
      }
      CollapseCollapsed(s[1..]);
    }
  }

  // ------------------------------------------------------------- substrings

  predicate MatchesAt(s: string, pat: string, i: nat) {
    i + |pat| <= |s| && s[i..i + |pat|] == pat
  }

  function FindFrom(s: string, pat: string, i: nat): (r: Option<nat>)
    ensures r.Some? ==> i <= r.value && MatchesAt(s, pat, r.value)
    ensures r.Some? ==> forall k :: i <= k < r.value ==> !MatchesAt(s, pat, k)
    ensures r.None? ==> forall k :: i <= k ==> !MatchesAt(s, pat, k)
    decreases |s| - i
  {
    if i + |pat| > |s| then None
    else if MatchesAt(s, pat, i) then Some(i)
    else FindFrom(s, pat, i + 1)
  }

  /** `s.find(pat)`, with `None` for -1: the leftmost occurrence. */
  function Find(s: string, pat: string): (r: Option<nat>)
    ensures r.Some? ==> MatchesAt(s, pat, r.value) && forall k: nat :: k < r.value ==> !MatchesAt(s, pat, k)
    ensures r.None? ==> forall k: nat :: !MatchesAt(s, pat, k)
  {
    FindFrom(s, pat, 0)
  }

  /** `pat in s`. */
  predicate Contains(s: string, pat: string) {
    Find(s, pat).Some?
  }

  /** `s.split(pat, 1)[1]`: everything after the first occurrence of `pat`. */
  function After(s: string, pat: string): (r: string)
    requires Contains(s, pat)
    ensures |r| <= |s|
  {
    s[Find(s, pat).value + |pat|..]
  }

  /** The first occurrence of a character comes right after a prefix without it. */
  lemma FindCharAfter(p: string, c: char, rest: string)
    requires forall i :: 0 <= i < |p| ==> p[i] != c
    ensures Contains(p + [c] + rest, [c]) && Find(p + [c] + rest, [c]) == Some(|p|)
    ensures After(p + [c] + rest, [c]) == rest
  {
    var s := p + [c] + rest;
    assert s[|p|..|p| + 1] == [c];
    assert MatchesAt(s, [c], |p|);
    forall k: nat | k < |p|
      ensures !MatchesAt(s, [c], k)
    {
      assert s[k..k + 1] == [p[k]];
    }
    var r := Find(s, [c]);
    assert r.Some?;
    assert r.value == |p|;
    assert s[|p| + 1..] == rest;
  }

  /** `s.split(pat)[1]`: the text between the first and second occurrence of `pat`. */
  function SplitSecond(s: string, pat: string): string
    requires Contains(s, pat)
  {
    var rest := After(s, pat);
    match Find(rest, pat)
    case None => rest
    case Some(j) => rest[..j]
  }

  /** `s.replace(pat, rep)`: left-to-right, non-overlapping. */
  function ReplaceAll(s: string, pat: string, rep: string): string
    requires |pat| > 0
    decreases |s|
  {
    if |s| == 0 then []
    else if MatchesAt(s, pat, 0) then rep + ReplaceAll(s[|pat|..], pat, rep)
    else [s[0]] + ReplaceAll(s[1..], pat, rep)
  }

  /** A string without the first character of `pat` is left alone by `replace`. */
  lemma {:induction false} ReplaceAllAbsent(s: string, pat: string, rep: string)
    requires |pat| > 0
    requires forall i :: 0 <= i < |s| ==> s[i] != pat[0]
    ensures ReplaceAll(s, pat, rep) == s
    decreases |s|
  {
    if |s| > 0 {
      if |pat| <= |s| {
        assert s[0..|pat|][0] == s[0];
      }
      ReplaceAllAbsent(s[1..], pat, rep);
    }
  }

  /** A leading occurrence of `pat` is replaced and the scan resumes after it. */
  lemma ReplaceAllPrefix(pat: string, s: string, rep: string)
    requires |pat| > 0
    ensures ReplaceAll(pat + s, pat, rep) == rep + ReplaceAll(s, pat, rep)
  {
    var t := pat + s;
    assert t[0..|pat|] == pat;
    assert t[|pat|..] == s;
  }

  /** With a one-character pattern, `replace` works piecewise. */
  lemma {:induction false} ReplaceAllConcat1(a: string, b: string, pat: string, rep: string)
    requires |pat| == 1
    ensures ReplaceAll(a + b, pat, rep) == ReplaceAll(a, pat, rep) + ReplaceAll(b, pat, rep)
    decreases |a|
  {
    if |a| > 0 {
      ReplaceAllConcat1(a[1..], b, pat, rep);
      assert (a + b)[1..] == a[1..] + b;
      assert (a + b)[0..1] == a[0..1];
    } else {
      assert a + b == b;
    }
  }

  /** The last position of `c` in `s`. */
  function RFind(s: string, c: char): (r: Option<nat>)
    ensures r.Some? ==> r.value < |s| && s[r.value] == c && forall k :: r.value < k < |s| ==> s[k] != c
    ensures r.None? ==> forall k :: 0 <= k < |s| ==> s[k] != c
  {
    if |s| == 0 then None
    else if s[|s| - 1] == c then Some(|s| - 1)
    else RFind(s[..|s| - 1], c)
  }

  /** `s[:n]`. */
  function Take(s: string, n: nat): (r: string)
    ensures |r| == (if n < |s| then n else |s|) && r == s[..|r|]
  {
    if n < |s| then s[..n] else s
  }

  /** Stripping keeps a prefix that starts and ends with non-whitespace. */
  lemma StripKeepsPrefix(s: string, p: string)
    requires 0 < |p| <= |s| && s[..|p|] == p
    requires !IsSpace(p[0]) && !IsSpace(p[|p| - 1])
    ensures |Strip(s)| >= |p| && Strip(s)[..|p|] == p
  {
    var r := Strip(s);
    assert s[0] == p[0];
    assert StripStart(s) == 0;
    assert s[|p| - 1] == p[|p| - 1];
  }

  // ---------------------------------------------------------------- numbers

  /** The value of a string of decimal digits. */
  function DigitsVal(s: string): nat
    requires AllDigits(s)
  {
    if |s| == 0 then 0 else DigitsVal(s[..|s| - 1]) * 10 + DigitVal(s[|s| - 1])
  }

  /** `str(n)` for a natural number: its digits, most significant first. */
  function NatStr(n: nat): (r: string)
    ensures |r| >= 1 && AllDigits(r)
    ensures DigitsVal(r) == n
    ensures r[0] == '0' ==> n == 0 && |r| == 1
    decreases n
  {
    if n < 10 then [DigitChar(n)]
    else
      var r := NatStr(n / 10) + [DigitChar(n % 10)];
      assert r[..|r| - 1] == NatStr(n / 10);
      r
  }

  /** `str(i)` for any integer. */
  function IntStr(i: int): string {
    if i < 0 then "-" + NatStr(-i) else NatStr(i)
  }

  /** `str(i)` is made of digits and a leading minus sign. */
  lemma IntStrChars(i: int)
    ensures forall k :: 0 <= k < |IntStr(i)| ==> IsDigit(IntStr(i)[k]) || IntStr(i)[k] == '-'
  {
  }

  function Zeros(k: nat): (r: string)
    ensures |r| == k && AllDigits(r)
  {
    seq(k, _ => '0')
  }

  /** Left-pads a digit string with zeros to width `w`. */
  function ZeroPad(s: string, w: int): (r: string)
    requires AllDigits(s)
    ensures AllDigits(r)
  {
    if |s| < w then Zeros(w - |s|) + s else s
  }

  /** Python's `f"{n:0{w}d}"`: the sign first, then zeros up to a total width `w`. */
  function PadInt(n: int, w: nat): string {
    if n < 0 then "-" + ZeroPad(NatStr(-n), w - 1) else ZeroPad(NatStr(n), w)
  }

  function Pow10(k: nat): (p: nat)
    ensures p >= 1
  {
    if k == 0 then 1 else 10 * Pow10(k - 1)
  }

  /** `k` digits spell a number below `10^k`. */
  lemma {:induction false} DigitsValBound(s: string)
    requires AllDigits(s)
    ensures DigitsVal(s) < Pow10(|s|)
    decreases |s|
  {
    if |s| > 0 {
      DigitsValBound(s[..|s| - 1]);
    }
  }

  /** A number below `10^k` has at most `k` digits. */
  lemma {:induction false} NatStrLength(n: nat, k: nat)
    requires 1 <= k && n < Pow10(k)
    ensures |NatStr(n)| <= k
    decreases k
  {
    if n >= 10 {
      assert k > 1;
      assert n / 10 < Pow10(k - 1);
      NatStrLength(n / 10, k - 1);
    }
  }

  /** Leading zeros do not change a digit string's value. */
  lemma {:induction false} ZerosPrefixValue(k: nat, s: string)
    requires AllDigits(s)
    ensures AllDigits(Zeros(k) + s) && DigitsVal(Zeros(k) + s) == DigitsVal(s)
    decreases |s|, k
  {
    var z := Zeros(k) + s;
    assert AllDigits(z);
    if |s| == 0 {
      if k > 0 {
        assert z[..|z| - 1] == Zeros(k - 1) + s;
        ZerosPrefixValue(k - 1, s);
      }
    } else {
      assert z[..|z| - 1] == Zeros(k) + s[..|s| - 1];
      ZerosPrefixValue(k, s[..|s| - 1]);
    }
  }

  /** A non-negative number below `10^w` zero-pads to exactly `w` digits with its value. */
  lemma PadIntValue(n: nat, w: nat)
    requires |NatStr(n)| <= w
    ensures |PadInt(n, w)| == w && AllDigits(PadInt(n, w)) && DigitsVal(PadInt(n, w)) == n
  {
    if |NatStr(n)| < w {
      ZerosPrefixValue(w - |NatStr(n)|, NatStr(n));
    }
  }

  /** Two-digit rendering of 0..99 as its tens and units digits. */
  lemma Pad2Digits(n: nat)
    requires n < 100
    ensures PadInt(n, 2) == [DigitChar(n / 10), DigitChar(n % 10)]
  {
    if n >= 10 {
      assert NatStr(n / 10) == [DigitChar(n / 10)];
    }
  }

  /** Digit groups as Python's `int()` accepts them: digits with single `_` between digits. */
  predicate IsDigitGroups(s: string) {
    && |s| > 0 && IsDigit(s[0]) && IsDigit(s[|s| - 1])
    && (forall i :: 0 <= i < |s| ==> IsDigit(s[i]) || s[i] == '_')
    && (forall i, j :: 0 <= i < |s| && 0 <= j < |s| && j == i + 1 ==> !(s[i] == '_' && s[j] == '_'))
  }

  function DropUnderscores(s: string): (r: string)
    requires forall i :: 0 <= i < |s| ==> IsDigit(s[i]) || s[i] == '_'
    ensures AllDigits(r)
    ensures AllDigits(s) ==> r == s
  {
    if |s| == 0 then []
    else if s[0] == '_' then DropUnderscores(s[1..])
    else [s[0]] + DropUnderscores(s[1..])
  }

  /** Python's `int(s)` on a string: surrounding whitespace, an optional sign and
      underscore-separated ASCII digits; `None` where Python raises `ValueError`. */
  function PyInt(s: string): Option<int> {
    SignedGroups(Strip(s))
  }

  /** An optional sign followed by digit groups, with nothing around them. */
  function SignedGroups(t: string): Option<int> {
    if |t| > 0 && (t[0] == '+' || t[0] == '-') then
      var body := t[1..];
      if IsDigitGroups(body) then
        var v: int := DigitsVal(DropUnderscores(body));
        Some(if t[0] == '-' then -v else v)
      else None
    else if IsDigitGroups(t) then Some(DigitsVal(DropUnderscores(t)))
    else None
  }

  lemma PyIntOfNatStr(n: nat)
    ensures PyInt(NatStr(n)) == Some(n)
  {
    PyIntOfDigits(NatStr(n));
  }

  /** `int(d)` for a non-empty string of ASCII digits is its decimal value. */
  lemma PyIntOfDigits(d: string)
    requires |d| > 0 && AllDigits(d)
    ensures PyInt(d) == Some(DigitsVal(d) as int)
  {
    assert Stripped(d);
    StripStripped(d);
    SignedGroupsOfDigits(d);
  }

  lemma SignedGroupsOfDigits(d: string)
    requires |d| > 0 && AllDigits(d)
    ensures SignedGroups(d) == Some(DigitsVal(d) as int)
  {
    assert IsDigit(d[0]);
    assert IsDigitGroups(d);
  }

  lemma StripMinusDigits(d: string)
    requires |d| > 0 && AllDigits(d)
    ensures Strip("-" + d) == "-" + d
  {
    var s := "-" + d;
    assert !IsSpace(s[0]) && s[|s| - 1] == d[|d| - 1];
    StripStripped(s);
  }

  lemma SignedMinusDigits(d: string)
    requires |d| > 0 && AllDigits(d)
    ensures SignedGroups("-" + d) == Some(-(DigitsVal(d) as int))
  {
    var s := "-" + d;
    assert s[1..] == d;
  }

  /** `int("-" + d)` for a non-empty digit string `d` is minus its value. */
  lemma PyIntOfMinusDigits(d: string)
    requires |d| > 0 && AllDigits(d)
    ensures PyInt("-" + d) == Some(-(DigitsVal(d) as int))
  {
    StripMinusDigits(d);
    SignedMinusDigits(d);
  }

  lemma PyIntOfNegative(n: nat)
    ensures PyInt("-" + NatStr(n)) == Some(-(n as int))
  {
    PyIntOfMinusDigits(NatStr(n));
  }

  /** `int(str(i)) == i`. */
  lemma PyIntOfIntStr(i: int)
    ensures PyInt(IntStr(i)) == Some(i)
  {
    if i < 0 {
      var n: nat := -i;
      var s := "-" + NatStr(n);
      assert IntStr(i) == s;
      PyIntOfNegative(n);
    } else {
      PyIntOfNatStr(i);
    }
  }

  // ---------------------------------------------------------------- ordering

  /** Python's `a < b` on strings: lexicographic by code point. */
  predicate StrLt(a: string, b: string)
    decreases |a|
  {
    if |a| == 0 then |b| > 0
    else if |b| == 0 then false
    else a[0] < b[0] || (a[0] == b[0] && StrLt(a[1..], b[1..]))
  }

  predicate StrLe(a: string, b: string) {
    a == b || StrLt(a, b)
  }

  lemma {:induction false} StrLtIrreflexive(a: string)
    ensures !StrLt(a, a)
    decreases |a|
  {
    if |a| > 0 {
      StrLtIrreflexive(a[1..]);
    }
  }

  lemma {:induction false} StrLtTransitive(a: string, b: string, c: string)
    requires StrLt(a, b) && StrLt(b, c)
    ensures StrLt(a, c)
    decreases |a|
  {
    if |a| > 0 && a[0] == b[0] && b[0] == c[0] {
      StrLtTransitive(a[1..], b[1..], c[1..]);
    }
  }

  /** Distinct strings are ordered one way or the other, and never both ways. */
  lemma {:induction false} StrLtTotal(a: string, b: string)
    ensures a != b ==> StrLt(a, b) || StrLt(b, a)
    ensures !(StrLt(a, b) && StrLt(b, a))
    decreases |a|
  {
    if |a| > 0 && |b| > 0 && a[0] == b[0] {
      StrLtTotal(a[1..], b[1..]);
      if a[1..] == b[1..] {
        assert a == [a[0]] + a[1..] && b == [b[0]] + b[1..];
      }
    }
  }
}

=== FILE: wrappers.dfy ===
/** Optional values and results, the two shapes the modelled code uses for
    "no value" (Python's None) and "raised an exception". */
module Wrappers {

  /** A value that may be absent: a missing dictionary key, a `None`. */
  datatype Option<+T> = None | Some(value: T) {

    /** The value, or `default` when absent (Python's `x if x is not None else default`). */
    function GetOr(default: T): T {
      match this
      case Some(v) => v
      case None => default
    }
  }

  /** Either a value or the error the source raises instead of returning. */
  datatype Result<+T, +E> = Success(value: T) | Failure(error: E) {

    predicate IsFailure() {
      Failure?
    }

    function PropagateFailure<U>(): Result<U, E>
      requires Failure?
    {
      Failure(error)
    }

    function Extract(): T
      requires Success?
    {
      value
    }
  }

  /** Python truthiness of an optional string: present and non-empty. */
  predicate Truthy(s: Option<string>) {
    s.Some? && |s.value| > 0
  }
}
